=== FILE: README.md ===
# simple-sanitiser in Dafny

A model of `simple-sanitiser`, a JavaScript library that checks and coerces a value against a schema and throws a `SaneError` that names the offending field.

The library is `index.js`. Its parts are modelled as follows.

- **`SaneError` and its `toString`** are modelled in `Errors`. A `:label` placeholder in the message is replaced by the quoted, dot-joined stack of labels.
- **The tester classes** are modelled in `Checks`. There are sixteen of them, from `mixed` to `boolean`. Each has:
  - a constructor, which coerces the value or fails;
  - members that the schema keys name (`max`, `trim`, `allow`, `precision`, …).
- **The registry `types` and member lookup.** `types` is modelled by `Types.Registered`. The lookup `attrib in tester` is modelled by `Types.Resolve`, which goes through the prototype chain.
- **Schema normalisation and absence** are modelled in `Schema`:
  - the first half of `sane`, which turns the many shorthand schemas into a type name and a schema map;
  - the choice of label;
  - the handling of a missing value.
- **The engine** is modelled in `Semantics`, as functions:
  - `sane`, which runs the constructor and then every schema key in order, and adds this call's label to a `SaneError` that passes through;
  - the recursive `ObjectTester` constructor, including its `strict` modes;
  - `ArrayTester.type`;
  - `validate`.
- **The same engine, written imperatively,** is in `Sanitiser`. A `Tester` class holds the fields `value` and `_type`, and its loops walk the schema keys, fields and elements. Every method is proved equal to the function in `Semantics` that specifies it.
- **Properties of the engine** are proved in `Properties` and `Scenarios`, together with worked calls of `sane`:
  - what `sane` does with a missing value;
  - which label an error carries;
  - what an object or array schema produces;
  - that `validate` agrees with `sane`.
- **What the library calls but does not define** is a record of functions in `Host.Env`, so every property holds whatever they return. This covers:
  - regular-expression matching;
  - `replace` with a regular expression;
  - `Date.parse`;
  - `custom` callbacks;
  - a value's `get` method.

The engine functions take the tester table as a parameter, a `Semantics.Registry`. The library has exactly one table, `Semantics.Library`. The parameter is there so that the proofs about the engine treat a member call as one step instead of unfolding sixteen testers at every key. The lemmas in `Scenarios` apply the engine to `Library`.

JavaScript values, including schemas, are modelled as one datatype, `JsValue.Js`:
- numbers are mathematical integers;
- objects are sequences of key/value pairs in insertion order;
- functions carry a name and the value they return when called (for a schema `default`).

Four behaviours of the code deserve a note:
- **`disallow`** sits beside `allow` and is evidently meant as its negation. As written it always fails (see Findings). The as-written method is modelled and its failure proved, and the engine uses the negation.
- **The `ip` tester** evidently means to accept an IPv4 address. Its pattern as written matches only the text `\d{1, 2}`, four-character texts such as `0\dd` and `20\d`, and the numbers 250 to 255, never an address (see Findings). The engine keeps the pattern as written. The dotted-quad predicate `Formats.IsIpv4` is the intended version, proved separately.
- **A number given to the boolean tester** is refused. The `number` case computes `this.value !== 0`, discards it and falls through to the error (index.js:374-377), and the model does the same.
- **The integer tester** reports a string it cannot read with the `number` kind of its parent's constructor (index.js:328-334), not with kind `integer`.

## Model

| member | source | states |
|---|---|---|
| Errors.RenderShape | index.js:24-34 | with no labels, or no `:label` in the message, the message is printed as it is; otherwise the first `:label` becomes the quoted, dot-joined path and the rest of the message is untouched (the `reverse` at line 29 has no effect) |
| Errors.RenderLeading | index.js:24-34 | a message that starts with `:label` under one label prints as the quoted label followed by the rest of the message |
| Errors.PushExtendsPath | index.js:30 | pushing a label extends the printed path by a dot and that label |
| JsText.TrimIsSlice | index.js:129 | `trim` removes only white space, and only from the two ends |
| JsText.TrimIdempotent | index.js:129 | trimming twice is trimming once |
| JsText.CaseFoldIdempotent | index.js:127-128 | lower- and upper-casing are idempotent, and a lower-cased string has no capital letter |
| JsText.IntToStrParseFloat | index.js:331 | `parseFloat` reads back the decimal rendering of any integer when what follows can neither continue the digits nor start a fraction or an exponent (nothing, or a character other than a digit, `.`, `e` and `E`) |
| JsText.IntToStrToNumber | index.js:340-343 | `Number` of an integer's decimal rendering is that integer |
| JsText.IntToStrPointZerosToNumber | index.js:337 | `Number` of a rendering followed by a point and zeros (what `toFixed` writes) is the integer |
| JsText.StrLessStrictOrder | index.js:340-343 | string comparison is irreflexive and transitive |
| JsText.PrefixIdempotent | index.js:131 | truncating to the same length twice is truncating once, and it never lengthens |
| JsText.ReplaceFirstSplices | index.js:130 | replacing a plain string splices the replacement over its first occurrence only, and leaves a string without an occurrence unchanged |
| JsText.NatToStrIndex | index.js:309-310 | every array index renders as a canonical array-index key |
| JsText.IndexToNatToStr | index.js:256 | a canonical array-index key is the rendering of the index it denotes |
| JsConvert.NumberOrder | index.js:340-343 | on numbers, `<` and `>` are the order of the integers |
| JsConvert.CompareNumbers | index.js:340-343 | on numbers, the four relational operators agree with the integers, and every comparison with NaN is false |
| JsConvert.ToNumberOfRendering | index.js:132-134 | a number concatenated into a message reads back as the same number |
| JsConvert.UndefinedIsNaN | index.js:339-348 | `undefined` converts to NaN and is unordered against every value |
| JsValue.SetPropKeys | index.js:265 | assigning a key keeps the key order and appends a new key at the end |
| JsValue.SetPropLookup | index.js:265 | after `output[k] = x`, reading `k` gives `x` and every other key is unchanged |
| JsValue.DefaultNotInherited | index.js:450 | `'default' in schema` is not satisfied by an inherited member |
| Types.RegistryRoundTrip | index.js:98-383 | every tester class is registered under its own `_type` name, and a registered name leads back to itself |
| Types.Resolve | index.js:478-482 | the lookup finds `ArrayTester.type` exactly for the key `type` on an array tester |
| Types.LabelAndStrictMembers | index.js:293 | no tester answers to `label`, and only the object tester answers to `strict` |
| Formats.HexLiteralShape | index.js:191 | a hex value is `0x` or `0X` followed by one or more hexadecimal digits, and nothing else |
| Formats.HexLiteralNeedsPrefix | index.js:191 | a string without the `0x` prefix is not a hex value |
| Formats.SingleCharacterFormats | index.js:164-206 | the alphanumeric and token patterns as written accept single characters only; a token is an alphanumeric character or `_` |
| Formats.EmailFromParts | index.js:180 | user `@` host `.` domain, with no white space in any part, is an e-mail address |
| Formats.EmailNeedsAt | index.js:180 | a string with no `@` after its first character is not an e-mail address |
| Formats.OctetRange | index.js:158 | the intended octet is one to three digits with a value of at most 255 |
| Formats.Ipv4Parts | index.js:158 | the intended address is four dot-separated parts, each an octet |
| Formats.IpAsWrittenCounterexample | index.js:158 | the pattern as written refuses `7` and `192.168.0.1`, and accepts the literal text `\d{1, 2}` and the numbers 250 and 255 |
| Formats.Ipv4Accepts | index.js:158 | the intended predicate accepts `192.168.0.1` |
| Formats.Ipv4Refuses | index.js:158 | the intended predicate refuses the text the pattern as written accepts, and a lone number |
| Checks.StartKind | index.js:51-54 | a constructor that passes keeps its class's `_type`, and one that fails throws a SaneError of that `_type` with no label, except the integer tester, which fails as `number` |
| Checks.StartStrings | index.js:110-218 | a string-family constructor passes exactly when the format of its class holds for `String(value)`, and then holds that string; `forbidden` always fails and `mixed` always passes unchanged |
| Checks.StartNumbers | index.js:324-360 | a number passes the number tester unchanged, and the integer tester reads a rendered integer as that integer when it is followed by nothing or by a character other than a digit, `.`, `e` and `E` |
| Checks.IntegerFromPrefix | index.js:331-357 | the integer tester holds the number that `parseFloat` reads from the string |
| Checks.IntegerFailsAsNumber | index.js:331-334 | a string that does not start with white space, a sign, a digit, a point or `I` (as in `Infinity`) fails the integer tester with the number tester's message and kind |
| Checks.StartBoolean | index.js:362-383 | the boolean tester accepts exactly booleans and strings; a string is true exactly when it is `1`, `true` or `yes` in any case |
| Checks.BooleanExamples | index.js:372-377 | `YES` is true, `no` is false, and the number 1 is refused |
| Checks.AllowDisallowComplement | index.js:60-93 | `allow` passes exactly when the value is a member, the corrected `disallow` passes exactly when it is not, and neither changes the tester |
| Checks.DisallowAsWrittenCounterexample | index.js:77-93 | `disallow` as written always aborts with a ReferenceError, even for a value not in the list, which the corrected version lets through |
| Checks.StringLengths | index.js:132-134 | `max`, `min` and `length` on a string pass exactly when its length is at most, at least or equal to the argument |
| Checks.StringTooLong | index.js:132 | an over-long string fails with the message that names the limit |
| Checks.LengthOfNullish | index.js:132-134 | a length check on null or undefined is a TypeError, not a SaneError |
| Checks.ArrayCounts | index.js:318-319 | `min` and `max` on an array pass exactly when it has at least or at most that many items |
| Checks.NumberBounds | index.js:340-343 | `greater`, `less`, `max` and `min` fail exactly when the value is at most, at least, above or below the argument |
| Checks.NumberMultiple | index.js:344 | `multiple` fails exactly when the argument is non-zero and does not divide the value |
| Checks.NumberSigns | index.js:346-347 | `positive` fails exactly on values at most 0 and `negative` exactly on values at least 0 |
| Checks.NumberRanges | index.js:339-348 | `port` fails exactly outside 0..65535 and `unsafe` exactly outside the safe-integer range |
| Checks.NumberBoundsNaN | index.js:340-344 | against a NaN argument, the comparison, multiple and date checks never fail |
| Checks.ComparedWithNaN | index.js:340-343 | comparing any value with NaN passes all four bound checks |
| Checks.MultipleOfNaN | index.js:344 | `multiple` of NaN never fails |
| Checks.DatesWithNaN | index.js:231-232 | `after` and `before` never fail against NaN |
| Checks.DateBounds | index.js:231-232 | `after` fails exactly when the date is earlier than the argument and `before` exactly when it is later |
| Checks.TruncateKeepsPrefix | index.js:131 | `truncate` keeps the first n characters, is idempotent and keeps the `_type`; without an argument it keeps the string |
| Checks.CaseAndTrimIdempotent | index.js:127-129 | case mapping and trimming succeed on strings and are idempotent, and on a number they are a TypeError |
| Checks.ReplaceSplices | index.js:130 | a plain-string `replace` substitutes the first occurrence only |
| Checks.PrecisionRoundTrip | index.js:337 | `precision` with 0 to 100 digits gives a string that reads back as the same number; other digit counts are a RangeError, and a string value is a TypeError |
| Checks.FixedToNumber | index.js:337 | the `toFixed` rendering of an integer reads back as that integer |
| Checks.CustomAndError | index.js:51-96 | a `custom` callback sets the value or raises through `error` with the tester's `_type`; a non-function is a TypeError; `error` raises its message |
| Checks.ApplyOpErrorKind | index.js:51-54 | every member keeps the tester's `_type`, and every SaneError a member throws has that `_type` and no label |
| Schema.Find | index.js:437-441 | a name that resolves carries exactly the tester registered under it and the schema it was given |
| Schema.FindOutcomes | index.js:437-441 | every tester name resolves to its class, an inherited name resolves to no constructor, and any other name throws `"name" is not a known schema type` |
| Schema.ArrayShorthands | index.js:402-410 | `[c]` is an array of `c`, `[]` an array of `mixed`, and more than one item throws `Schema array has more than 1 item` |
| Schema.ValueShorthands | index.js:411-424 | `true` is `mixed`, `false` `forbidden`, a regular expression a `regexp` with that pattern and a plain object an `object` with that field map |
| Schema.NamedShorthands | index.js:425-430 | a constructor stands for its lower-cased name and a string for itself |
| Schema.NonSchemas | index.js:394-434 | a number or `undefined` throws `Schema is undefined`, and `null` is a TypeError |
| Schema.CanonicalArray | index.js:394-409 | in a schema object, `type: [c]` becomes an array schema whose `type` is `c`, and the other keys keep their place |
| Schema.OneElementShorthand | index.js:402-409 | a one-item array resolves as an array whose element schema is that item |
| Schema.Unwrapped | index.js:394-397 | a schema object with `type` is resolved through its `type`, which is smaller than it |
| Schema.ShorthandType | index.js:402-420 | the element, pattern or field map of a shorthand is stored as the schema's `type` |
| Schema.ElementSchemaSmaller | index.js:307-310 | an array schema's element schema is smaller than the schema, so the recursion ends |
| Schema.FieldSchemaSmaller | index.js:256-263 | every field schema of an object schema is smaller than the schema |
| Schema.AbsencePrecedence | index.js:447-470 | a present value goes on; a missing one takes the default (calling a function default), then `required: false` returns it, then an array starts empty, and otherwise it is missing |
| Schema.AbsentMissing | index.js:468 | the missing-value error has kind `undefined`, the quoted label and no stack |
| Schema.AbsentDefault | index.js:450-456 | with a default, a missing value becomes the default, or what a function default returns |
| Schema.AbsentNoDefault | index.js:459-469 | with no default, `required: false` returns the missing value, an array starts empty, and anything else is missing |
| Schema.OptionalMarker | index.js:459 | `schema.required === false` holds exactly when the schema sets `required` to `false` |
| Schema.LabelFallback | index.js:444 | a truthy given label wins, then the schema's `label`, then `value`; the label 0 is falsy |
| Semantics.ElementsOf | index.js:309-310 | the loop reads `value[i]` for every index below a positive numeric `length`: for an array that is its items, for a string its characters, for an object with a numeric `length` its indexed properties, and nothing for any other value |
| Semantics.FirstUnexpected | index.js:283-286 | the first key of the value that the output lacks, or none when the output covers every key |
| Properties.SaneAbsent | index.js:447-470 | `sane` of a missing value returns the default, or the value when optional, or runs an empty array, or raises the missing-value error |
| Properties.SaneLabels | index.js:444-495 | every SaneError out of `sane` is the missing-value error or ends with this call's label; other faults pass through untouched |
| Properties.UnknownMember | index.js:478-481 | a first schema key that names no member makes `sane` throw the unlabelled string error |
| Properties.FieldsCollects | index.js:256-267 | the field loop is the fold of each field's own outcome over the field keys |
| Properties.CollectDone | index.js:263-266 | when the fold completes, every field passed, and the output holds each field's defined result and nothing else |
| Properties.CopyExtrasSpec | index.js:275-280 | `strict: false` copies every own key of the value that the output lacks, and leaves the output's keys alone |
| Properties.ObjectStartShapes | index.js:243-272 | a non-object is refused with kind `object`, and a schema with no fields keeps the value as it is |
| Properties.ObjectOutput | index.js:256-290 | the output holds exactly each field's defined result; `strict: false` adds the extras, `strict: 'throw'` names the first extra key, and any other setting drops the extras |
| Properties.DefinedMembers | index.js:311-313 | a value is kept exactly when some element's call returned it and it is not `undefined` |
| Properties.MapElementsGathers | index.js:309-314 | the element loop is the fold of the per-element outcomes |
| Properties.GatherAllPass | index.js:309-315 | when every element passes, the output is the defined results in order |
| Properties.GatherFirstFailure | index.js:309-314 | the first failing element decides the outcome |
| Properties.ArrayElements | index.js:307-316 | an array schema maps every element through `sane`, drops undefined results and stops at the first failure |
| Sanitiser.Tester.constructor | index.js:47-49 | the tester holds the value and `_type` it is built with |
| Sanitiser.Tester.Call | index.js:482 | a member that passes updates the tester's state, and one that fails leaves the state unchanged |
| Sanitiser.Tester.RunKeys | index.js:478-486 | the loop over the schema keys computes the key run of the engine from the tester's state |
| Sanitiser.Tester.Member | index.js:479-482 | one key either ends the run with the engine's outcome or moves the tester to the state the engine continues from |
| Sanitiser.Tester.Type | index.js:307-316 | `ArrayTester.type` stores the engine's element mapping, or reports its failure and leaves the tester's value as it was |
| Sanitiser.Elements | index.js:309-314 | the element loop computes the engine's element mapping |
| Sanitiser.Sane | index.js:390-497 | `sane` computes the engine's outcome for every value, schema and label |
| Sanitiser.Run | index.js:472-487 | the try block computes the engine's tester run |
| Sanitiser.NewObjectTester | index.js:238-291 | the object constructor, with its field loop and both `strict` loops, computes the engine's result |
| Sanitiser.Strict | index.js:274-290 | the `strict` loops compute the engine's treatment of extra keys |
| Sanitiser.Validate | index.js:500-515 | `validate` computes the engine's verdict |
| Scenarios.LibraryCallKeepsKind | index.js:51-54 | every library member except `ArrayTester.type` keeps the `_type` and raises only errors of that `_type` |
| Scenarios.RunKeysKeepsKind | index.js:478-483 | running the schema keys of a non-array tester never changes its `_type`, and every SaneError it raises has that `_type` and no label |
| Scenarios.KeyUnknown | index.js:479-481 | a key with no member ends the run with a thrown string |
| Scenarios.KeyKeepsKind | index.js:482 | one key either passes to a tester of the same `_type` or ends the run with an error of that `_type` |
| Scenarios.FrameKind | index.js:472-483 | a flat schema's run raises only unlabelled errors of its own type, or `number` for the integer tester |
| Scenarios.FlatVerdicts | index.js:500-515 | `validate` on a flat schema is `true` exactly when `sane` returns, and the SaneError it returns is the missing-value error or an error of the schema's type labelled with exactly this call's label |
| Scenarios.FlatErrors | index.js:444-495 | `sane` on a flat schema raises the missing-value error or an error of its type labelled with exactly this call's label |
| Scenarios.NameResolves | index.js:428-441 | a tester's name on its own resolves to that tester with an empty schema map |
| Scenarios.ConstructorOnly | index.js:475-486 | with no schema keys, the result is the constructor's alone |
| Scenarios.BareName | index.js:390-497 | `sane(value, name)` of a present value returns what the named constructor holds, or its error with the call's label |
| Scenarios.BareNameRaises | index.js:488-495 | a constructor's SaneError leaves `sane` with the call's label as its only label |
| Scenarios.IntegerReads | index.js:352-360 | `sane("42", "integer")` is 42 |
| Scenarios.IntegerReads42 | index.js:331 | the integer tester reads `"42"` as 42 |
| Scenarios.IntegerRefuses | index.js:331-334 | `sane("abc", "integer")` raises the number tester's error under the label `value` |
| Scenarios.IntegerRefusesAbc | index.js:331-334 | the integer tester refuses `"abc"` |
| Scenarios.DefaultLabel | index.js:444 | with no label given and none in the schema, the label is `value` |
| Scenarios.IntegerMessage | index.js:24-34 | that error prints as `"value" could not be converted to a number` |

## Left out

- NumberStart: only the integer part of `parseFloat` is read, so fractions and exponents are lost. The source reads `"1.7"` as 1.7 and the integer tester rounds it to 2, where the model gives 1. The source reads `".5"` as 0.5, which the integer tester rounds to 1, where the model refuses it. The source reads `"1e3"` as 1000, where the model gives 1. `Infinity` is not read. Numbers are integers throughout, and floating point is not modelled.
- ParseFloatPrefix: reads white space, a sign and decimal digits only. It misses the same cases as NumberStart, for the same reason.
- StringToNumber: reads only an optionally signed integer, optionally followed by a point and zeros. Hexadecimal, exponent and fraction literals, and `Infinity`, are NaN here, which matters when a string value is compared with a number bound.
- AsciiLower: maps ASCII letters only. Strings are sequences of characters, not UTF-16 code units, and Unicode case mapping is not modelled.
- AsciiUpper: maps ASCII letters only, for the same reason.
- StrictEquals: objects, arrays, regular expressions and functions carry no identity here, so two of them are never `===`. The source accepts `allow: [o]` when the very same object `o` is the value; the model refuses it.
- CopyExtras: appends extra keys in the value's own order. JavaScript enumerates integer-like keys first, in ascending order, so `{b: 1, "0": 2}` with `strict: false` and a schema for `b` gives the keys `"0", b` in the source and `b, "0"` here.
- SetProp: appends a new key at the end, ignoring the integer-like-keys-first order of JavaScript objects. The same holds for ForInKeys on objects with integer-like keys.
- ToStr: `String` of a function or an object is fixed text, and a user-defined `toString` is not called.
- Find: the schema name `constructor` resolves to the inherited `Object`, and `new Object(value)` succeeds in the source, so `sane(5, "constructor")` returns `undefined` there. The model gives that name no constructor and returns a TypeError, as for the other names inherited from `Object.prototype`.
- Normalize: builds a fresh resolved schema. The source writes the element schema, pattern or field map back into `schema.type` (index.js:405, 412, 416), which changes the caller's own schema object. That aliasing is not modelled.
- IntToStr: renders every integer in plain decimal. JavaScript switches to exponent notation at 1e21, which changes the text of messages and of `precision`.
- PrecisionStep: `toFixed` is modelled on integers. Its exponent output at or above 1e21 and its rounding of fractions are not modelled.
- Host.Env: regular-expression matching (`match`, the format patterns other than those in `Formats`, `url`, `regexp`), `replace` with a regular expression or a replacement function, `Date.parse`, `custom` callbacks and a value's `get` method are parameters. No property depends on what they return.
- Formats.UrlPattern: the `url` pattern is handed to the host's matcher rather than modelled character by character.
- Semantics.Registry: the `types` table is closed to the sixteen classes of the library. Classes added to the exported `types` object by a user are not modelled.
- JsValue.Js: duplicate keys, getters, prototypes other than `Object.prototype`, symbols, `BigInt` and class instances other than the tester classes are not modelled.
- CustomAndError: the argument of the `error` key and the message a `custom` callback passes to `this.error` are taken as `String(arg)`. The source keeps the raw value as the SaneError's `message` (index.js:17-21, 51-54), so `error: 5` gives a message that is the number 5, and its `toString` then fails with a TypeError when it calls `replace` on it. The model gives the message "5".
- JsValue.Js: a regular expression keeps its source text but not its flags, so `/abc/i` and `/abc/` are the same value, and the host's matcher cannot tell them apart.
- ElementsOf: a function's `length` (its number of parameters) and a `length` that is a numeric string are read as no length. Only a `custom` key before `type` can make the array tester hold such a value.
- Get: reads own properties only, besides the `length` and indices of arrays and strings. A property inherited from `Object.prototype`, `Array.prototype`, `String.prototype` or `RegExp.prototype` reads as `undefined`, where the source reads the inherited method or accessor. So `sane({}, {toString: 'mixed'})` returns `{toString: Object.prototype.toString}` in the source (index.js:260), while in the model the field reads as missing and the call raises an error. The same holds for a field named `map` on an array value or `source` on a regular expression. The `in` operator (`JsValue.InObject`) does see the names of `Object.prototype`.
- Exceptions thrown by the host (for example by a `custom` callback) are not modelled; a callback either returns, sets the value or calls `error`.

## Findings

| source | as written | input that shows it | evidently intended | confidence | as-written member | corrected member |
|---|---|---|---|---|---|---|
| index.js:77-93 | `disallow` assigns the undeclared `disallow` (line 82) and tests the undeclared `allowed` (line 90), so in a class body it always throws a ReferenceError | `sane(1, {type: 'number', disallow: [2]})` throws a ReferenceError although 1 is not disallowed | fail exactly when the value is in the list, the negation of `allow` | high, not executed | Checks.DisallowAsWritten, Checks.DisallowAsWrittenCounterexample | Checks.ApplyOp, Checks.AllowDisallowComplement |
| index.js:158 | the pattern doubles its backslashes and writes `{1, 2}` with a space, so it matches only the text `\d{1, 2}`, four-character texts such as `0\dd` and `20\d`, and the numbers 250 to 255, never an address | `sane("192.168.0.1", "ip")` and `sane("7", "ip")` both fail, while the text `\d{1, 2}` passes | accept a dotted quad of octets 0 to 255 | high, not executed | Formats.IsIpAsWritten, Formats.IpAsWrittenCounterexample | Formats.IsIpv4, Formats.Ipv4Parts, Formats.Ipv4Accepts |

=== FILE: Checks.dfy ===
/**
 * The testers one step at a time (index.js:45-383): the constructor of
 * every tester class except ObjectTester, and every member a schema key
 * can call except ArrayTester.type, which recurses into the sanitiser.
 *
 * A tester is its `value` and its `_type`; a step either yields the next
 * tester or stops with what it throws.
 */
module Checks {
  import opened Optional
  import opened JsText
  import opened JsValue
  import opened JsConvert
  import opened Errors
  import opened Types
  import opened Formats
  import opened Host

  /** A tester between steps: its `value` and its `_type` (absent on the
      plain Tester used for `mixed`). */
  datatype TState = TState(value: Js, kind: Option<string>)

  /** What a step throws: an error about the data, or anything else. */
  datatype Abort = Throw(err: SaneError) | Crash(fault: Fault)

  datatype Step = Next(state: TState) | Stop(abort: Abort)

  /** `this.error(message)` (index.js:51-54). */
  function Fail(st: TState, message: string): Step {
    Stop(Throw(SaneError(st.kind, message, [])))
  }

  /** The `_type` a tester of this class ends its constructor with. */
  function Kind(t: TypeName): Option<string> {
    if t == Mixed then None else Some(Name(t))
  }

  /** Whether the fixed pattern of a StringTester subclass accepts `s`. The
      address tester keeps its pattern as written; see `IsIpv4` for what
      it evidently meant. */
  predicate FormatHolds(t: TypeName, s: string, env: Env) {
    match t
    case Ip => IsIpAsWritten(s)
    case Alphanumeric => IsAlphanumeric(s)
    case Email => IsEmail(s)
    case Hex => IsHexLiteral(s)
    case Token => IsToken(s)
    case Url => env.matches(Regex(UrlPattern), s)
    case _ => true
  }

  function FormatMessage(t: TypeName): string {
    match t
    case Ip => ":label is not a valid ip address"
    case Alphanumeric => ":label is not numeric"
    case Email => ":label is not a valid email address"
    case Hex => ":label is not a hexadecimal value"
    case Token => ":label is not a valid token"
    case _ => ":label is not a valid url"
  }

  /** StringTester and its subclasses: the value becomes `String(value)`,
      then the subclass checks its pattern. */
  function StringStart(t: TypeName, v: Js, env: Env): Step {
    var st := TState(Str(ToStr(v)), Kind(t));
    if FormatHolds(t, ToStr(v), env) then Next(st) else Fail(st, FormatMessage(t))
  }

  /** The message of a value `Number.parseFloat` cannot read. */
  const NotANumber: string := Placeholder + " could not be converted to a number"

  /** NumberTester: a number stays, anything else goes through
      `Number.parseFloat`. */
  function NumberStart(v: Js): Step {
    var st := TState(v, Some("number"));
    if v.Num? then Next(st)
    else
      match ParseFloatPrefix(ToStr(v))
      case None => Fail(st, NotANumber)
      case Some(n) => Next(st.(value := Num(n)))
  }

  /** BooleanTester: a boolean stays, a string is true when it is "1",
      "true" or "yes" ignoring case, and anything else (a number too, since
      its case falls through to the default) is an error. */
  function BooleanStart(v: Js): Step {
    var st := TState(v, Some("boolean"));
    match v
    case Bool(_) => Next(st)
    case Str(s) => Next(st.(value := Bool(s == "1" || AsciiLower(s) == "true" || AsciiLower(s) == "yes")))
    case _ => Fail(st, ":label cannot be converted to a boolean value")
  }

  /** `new con(value, schema)` for every tester class but ObjectTester. */
  function Start(t: TypeName, v: Js, env: Env): Step
    requires t != Object
  {
    if IsStringFamily(t) then StringStart(t, v, env)
    else if IsNumberFamily(t) then NumberFamilyStart(t, v)
    else OtherStart(t, v, env)
  }

  /** NumberTester, and IntegerTester, which sets its `_type` only once the
      parent constructor has returned. */
  function NumberFamilyStart(t: TypeName, v: Js): Step {
    if t == Number then NumberStart(v)
    else
      match NumberStart(v)
      case Next(st) => Next(st.(kind := Some("integer")))
      case stop => stop
  }

  /** Tester (for `mixed`), ForbiddenTester, DateTester, ArrayTester and
      BooleanTester. */
  function OtherStart(t: TypeName, v: Js, env: Env): Step {
    if t == Mixed then Next(TState(v, None))
    else if t == Forbidden then Fail(TState(v, Some("forbidden")), ":label is forbidden")
    else if t == Date then
      match env.parseDate(v)
      case None => Fail(TState(v, Some("date")), ":label could not be converted to a date")
      case Some(ms) => Next(TState(Num(ms), Some("date")))
    else if t == Array then
      if v.Arr? then Next(TState(v, Some("array"))) else Fail(TState(v, Some("array")), ":label is not an array")
    else BooleanStart(v)
  }

  /** `allow`: membership by `===` in an array argument, otherwise `===`
      with the argument itself. */
  predicate IsAllowed(v: Js, arg: Js) {
    if arg.Arr? then exists i :: 0 <= i < |arg.items| && StrictEquals(arg.items[i], v)
    else StrictEquals(v, arg)
  }

  /** ToIntegerOrInfinity of a number argument; NaN counts as 0. */
  function IntegerOf(arg: Js): int {
    match ToNumber(arg)
    case Some(k) => k
    case None => 0
  }

  function Zeros(d: nat): (r: string)
    ensures |r| == d && AllZeros(r)
  {
    seq(d, _ => '0')
  }

  /** `n.toFixed(d)` for an integer `n`. */
  function Fixed(n: int, d: nat): string {
    if d == 0 then IntToStr(n) else IntToStr(n) + "." + Zeros(d)
  }

  /** A comparison of `this.value.length`, which throws on null and
      undefined. */
  function LengthCheck(st: TState, failed: bool, message: string): Step {
    if IsNullish(st.value) then Stop(Crash(TypeError))
    else if failed then Fail(st, message)
    else Next(st)
  }

  /** A check that fails with `message` when `failed`. */
  function Check(st: TState, failed: bool, message: string): Step {
    if failed then Fail(st, message) else Next(st)
  }

  /** `this.value % arg` is truthy, on the primitives of both: both are
      numbers, the divisor is not 0 and does not divide. */
  predicate LeavesRemainder(pv: Js, pa: Js) {
    match (PrimToNumber(pv), PrimToNumber(pa))
    case (Some(x), Some(d)) => d != 0 && x % d != 0
    case _ => false
  }

  /** `this.value - arg`, on the primitives of both, compared with 0 by
      `sign` (-1 for `< 0`, 1 for `> 0`). */
  predicate DifferenceHasSign(pv: Js, pa: Js, sign: int) {
    match (PrimToNumber(pv), PrimToNumber(pa))
    case (Some(x), Some(a)) => if sign < 0 then x - a < 0 else x - a > 0
    case _ => false
  }

  const MaxSafeInteger: int := 0x1F_FFFF_FFFF_FFFF

  /** `this.value.replace(arg[0], arg[1])`: a string pattern and a
      non-function replacement are handled here, a regular expression or a
      replacement function by the host. */
  function ReplaceStep(st: TState, arg: Js, env: Env): Step {
    if IsNullish(arg) || !st.value.Str? then Stop(Crash(TypeError))
    else
      var p, r := Get(arg, "0"), Get(arg, "1");
      var out := if p.Regex? || r.Func? then env.replace(st.value.s, p, r)
                 else ReplaceFirst(st.value.s, ToStr(p), ToStr(r));
      Next(st.(value := Str(out)))
  }

  /** `arg.call(this)`: only a function can be called. */
  function CustomStep(st: TState, arg: Js, env: Env): Step {
    if !arg.Func? then Stop(Crash(TypeError))
    else
      match env.custom(arg, st.value)
      case Returns => Next(st)
      case SetsValue(x) => Next(st.(value := x))
      case Raises(m) => Fail(st, m)
  }

  /** `tester[attrib](schema[attrib])` for every member but ArrayTester.type. */
  function ApplyOp(op: Op, st: TState, arg: Js, env: Env): Step
    requires op != ElementType
  {
    match op
    case Ignore => Next(st)
    case NotCallable => Stop(Crash(TypeError))
    case CallValue => if st.value.Func? then Next(st) else Stop(Crash(TypeError))
    case Allow => Check(st, !IsAllowed(st.value, arg), ":label is not an allowed value")
    case Disallow => Check(st, IsAllowed(st.value, arg), ":label is a disallowed value")
    case Custom => CustomStep(st, arg, env)
    case RaiseError => Fail(st, ToStr(arg))
    case Lowercase | Uppercase | TrimWhitespace | Replace | Truncate | Match | PatternType => TextOp(op, st, arg, env)
    case MaxLength | MinLength | ExactLength | MinItems | MaxItems => LengthOp(op, st, arg)
    case Precision => PrecisionStep(st, arg)
    case After | Before | Unsafe | Greater | Less | AtMost | AtLeast | Multiple | Positive | Negative | Port =>
      Check(st, NumberCheckFails(op, st.value, arg), NumberCheckMessage(op, arg))
  }

  /** The members of StringTester that rewrite or match the string. */
  function TextOp(op: Op, st: TState, arg: Js, env: Env): Step {
    var v := st.value;
    if op == Replace then ReplaceStep(st, arg, env)
    else if !v.Str? then Stop(Crash(TypeError))
    else if op == Lowercase then Next(st.(value := Str(AsciiLower(v.s))))
    else if op == Uppercase then Next(st.(value := Str(AsciiUpper(v.s))))
    else if op == TrimWhitespace then Next(st.(value := Str(Trim(v.s))))
    else if op == Truncate then Next(st.(value := Str(Prefix(v.s, if arg.Undefined? then |v.s| else IntegerOf(arg)))))
    else Check(st, !env.matches(arg, v.s), ":label does not match pattern")
  }

  /** The members that compare `this.value.length` with the argument. */
  function LengthOp(op: Op, st: TState, arg: Js): Step {
    LengthCheck(st, LengthFails(op, Get(st.value, "length"), arg), LengthMessage(op, arg))
  }

  /** `len > arg` for the maxima, `len < arg` for the minima, `len !== arg`
      for an exact length. */
  predicate LengthFails(op: Op, len: Js, arg: Js) {
    if op == MaxLength || op == MaxItems then Gt(len, arg)
    else if op == MinLength || op == MinItems then Lt(len, arg)
    else !StrictEquals(len, arg)
  }

  function LengthMessage(op: Op, arg: Js): string {
    match op
    case MaxLength => ":label is longer than " + ToStr(arg) + " characters"
    case MinLength => ":label is less than " + ToStr(arg) + " characters"
    case MinItems => ":label has less than " + ToStr(arg) + " items"
    case MaxItems => ":label has more than " + ToStr(arg) + " items"
    case _ => ":label is not " + ToStr(arg) + " characters long"
  }

  /** `this.value = this.value.toFixed(arg)`. */
  function PrecisionStep(st: TState, arg: Js): Step {
    if !st.value.Num? then Stop(Crash(TypeError))
    else if IntegerOf(arg) < 0 || IntegerOf(arg) > 100 then Stop(Crash(RangeError))
    else Next(st.(value := Str(Fixed(st.value.n, IntegerOf(arg)))))
  }

  /** The conditions under which the comparisons of NumberTester and
      DateTester call `this.error`. Both operands are converted to
      primitives once; `PrimLess(x, y)` is the outcome of `x < y`. */
  predicate NumberCheckFails(op: Op, v: Js, arg: Js) {
    PrimCheckFails(op, ToPrimitive(v), ToPrimitive(arg))
  }

  predicate PrimCheckFails(op: Op, pv: Js, pa: Js) {
    if op == Multiple then LeavesRemainder(pv, pa)
    else if op == After then DifferenceHasSign(pv, pa, -1)
    else if op == Before then DifferenceHasSign(pv, pa, 1)
    else ComparisonFails(op, pv, pa)
  }

  /** The comparisons of the remaining number members on the primitives
      of the value and the argument. */
  predicate ComparisonFails(op: Op, pv: Js, pa: Js) {
    match op
    case Unsafe => PrimLess(pv, Num(-MaxSafeInteger)) == Some(true) || PrimLess(Num(MaxSafeInteger), pv) == Some(true)
    case Greater => PrimLess(pa, pv) == Some(false)
    case Less => PrimLess(pv, pa) == Some(false)
    case AtMost => PrimLess(pa, pv) == Some(true)
    case AtLeast => PrimLess(pv, pa) == Some(true)
    case Positive => PrimLess(Num(0), pv) == Some(false)
    case Negative => PrimLess(pv, Num(0)) == Some(false)
    case _ => PrimLess(pv, Num(0)) == Some(true) || PrimLess(Num(65535), pv) == Some(true)
  }

  function NumberCheckMessage(op: Op, arg: Js): string {
    match op
    case After => ":label is after given date"
    case Before => ":label is before given date"
    case Unsafe => ":label is outside of safe number range"
    case Greater => ":label is not greater than " + ToStr(arg)
    case Less => ":label is not less than " + ToStr(arg)
    case AtMost => ":label is greater than " + ToStr(arg)
    case AtLeast => ":label is less than " + ToStr(arg)
    case Multiple => ":label is not multiple of " + ToStr(arg)
    case Positive => ":label is not positive"
    case Negative => ":label is not negative"
    case _ => ":label is outside of port range"
  }

  /** `Tester.disallow` as written (index.js:77-93). Class bodies are strict
      code, so the assignment to the undeclared `disallow` and the read of
      the undeclared `allowed` both throw a ReferenceError: the first when
      an array argument holds the value, the second otherwise. */
  function DisallowAsWritten(st: TState, arg: Js): Step {
    if arg.Arr? && IsAllowed(st.value, arg) then Stop(Crash(ReferenceError("disallow")))
    else Stop(Crash(ReferenceError("allowed")))
  }

  // ---------------------------------------------------------------------
  // Constructors
  // ---------------------------------------------------------------------

  /** Every constructor but ObjectTester's either yields a tester whose
      `_type` is its class's name or throws an error that carries a `_type`
      and no label yet; none of them throws anything else. The error carries
      the class's own name except for `integer`, whose parse failure is
      raised by the parent constructor under `number`. */
  lemma StartKind(t: TypeName, v: Js, env: Env)
    requires t != Object
    ensures Start(t, v, env).Next? ==> Start(t, v, env).state.kind == Kind(t)
    ensures Start(t, v, env).Stop? ==>
      Start(t, v, env).abort.Throw? && Start(t, v, env).abort.err.stack == []
      && Start(t, v, env).abort.err.kind == (if t == Integer then Some("number") else Kind(t))
  {
    if IsNumberFamily(t) {
      StartOfNumbers(t, v, env);
      NumberStartKind(v);
    } else if IsStringFamily(t) {
      StartOfStrings(t, v, env);
      StringStartKind(t, v, env);
    } else {
      StartOfOthers(t, v, env);
      OtherStartKind(t, v, env);
    }
  }

  /** Which family constructor `Start` runs. */
  lemma StartOfStrings(t: TypeName, v: Js, env: Env)
    requires IsStringFamily(t)
    ensures Start(t, v, env) == StringStart(t, v, env)
  {
  }

  lemma StartOfNumbers(t: TypeName, v: Js, env: Env)
    requires IsNumberFamily(t)
    ensures Start(t, v, env) == NumberFamilyStart(t, v)
  {
    assert !IsStringFamily(t);
  }

  lemma StartOfOthers(t: TypeName, v: Js, env: Env)
    requires t != Object && !IsStringFamily(t) && !IsNumberFamily(t)
    ensures Start(t, v, env) == OtherStart(t, v, env)
  {
  }

  lemma StringStartKind(t: TypeName, v: Js, env: Env)
    ensures var r := StringStart(t, v, env);
      (r.Next? ==> r.state.kind == Kind(t))
      && (r.Stop? ==> r.abort.Throw? && r.abort.err.stack == [] && r.abort.err.kind == Kind(t))
  {
    var st := TState(Str(ToStr(v)), Kind(t));
    assert StringStart(t, v, env) == if FormatHolds(t, ToStr(v), env) then Next(st) else Fail(st, FormatMessage(t));
  }

  lemma OtherStartKind(t: TypeName, v: Js, env: Env)
    requires t == Mixed || t == Forbidden || t == Date || t == Array || t == Boolean
    ensures var r := OtherStart(t, v, env);
      (r.Next? ==> r.state.kind == Kind(t))
      && (r.Stop? ==> r.abort.Throw? && r.abort.err.stack == [] && r.abort.err.kind == Kind(t))
  {
    if t == Mixed {
      assert OtherStart(t, v, env) == Next(TState(v, None));
    } else if t == Forbidden {
      assert Kind(t) == Some("forbidden");
      assert OtherStart(t, v, env) == Fail(TState(v, Some("forbidden")), ":label is forbidden");
    } else if t == Date {
      assert Kind(t) == Some("date");
    } else if t == Array {
      assert Kind(t) == Some("array");
    } else {
      assert Kind(t) == Some("boolean");
      assert OtherStart(t, v, env) == BooleanStart(v);
      BooleanStartKind(v);
    }
  }

  lemma BooleanStartKind(v: Js)
    ensures var r := BooleanStart(v);
      (r.Next? ==> r.state.kind == Some("boolean"))
      && (r.Stop? ==> r == Fail(TState(v, Some("boolean")), ":label cannot be converted to a boolean value"))
  {
  }

  lemma NumberStartKind(v: Js)
    ensures NumberStart(v).Next? ==> NumberStart(v).state.kind == Some("number") && NumberStart(v).state.value.Num?
    ensures NumberStart(v).Stop? ==>
      NumberStart(v).abort.Throw? && NumberStart(v).abort.err.stack == []
      && NumberStart(v).abort.err.kind == Some("number")
  {
  }

  /** The string testers replace the value by its string form and accept
      it exactly when their pattern does; `forbidden` accepts nothing and
      `mixed` keeps the value as it is. */
  lemma StartStrings(t: TypeName, v: Js, env: Env)
    requires IsStringFamily(t)
    ensures Start(t, v, env).Next? <==> FormatHolds(t, ToStr(v), env)
    ensures Start(t, v, env).Next? ==> Start(t, v, env).state.value == Str(ToStr(v))
    ensures Start(Forbidden, v, env).Stop? && Start(Mixed, v, env) == Next(TState(v, None))
  {
    assert Start(t, v, env) == StringStart(t, v, env);
  }

  /** The number testers accept a number as it is, and the integer tester
      reads a string that starts with a rendered integer, followed by nothing
      that continues a number, as that integer. */
  lemma StartNumbers(n: int, rest: string, env: Env)
    requires rest == [] || !(IsDigit(rest[0]) || rest[0] in {'.', 'e', 'E'})
    ensures Start(Number, Num(n), env) == Next(TState(Num(n), Some("number")))
    ensures Start(Integer, Str(IntToStr(n) + rest), env) == Next(TState(Num(n), Some("integer")))
  {
    NumberKeepsNumber(n, env);
    var s := IntToStr(n) + rest;
    IntToStrParseFloat(n, rest);
    IntegerFromPrefix(s, n, env);
  }

  lemma NumberKeepsNumber(n: int, env: Env)
    ensures Start(Number, Num(n), env) == Next(TState(Num(n), Some("number")))
  {
    assert NumberStart(Num(n)) == Next(TState(Num(n), Some("number")));
  }

  lemma IntegerFromPrefix(s: string, n: int, env: Env)
    requires ParseFloatPrefix(s) == Some(n)
    ensures Start(Integer, Str(s), env) == Next(TState(Num(n), Some("integer")))
  {
    assert NumberStart(Str(s)) == Next(TState(Num(n), Some("number")));
  }

  /** An integer tester given a string that cannot start a number (no
      white space, sign, digit, point or `Infinity` in front) reports the
      failure under the `number` type: the parent constructor throws before
      `_type` becomes `integer`. */
  lemma IntegerFailsAsNumber(s: string, env: Env)
    requires |s| > 0 && !IsDigit(s[0]) && !IsJsSpace(s[0]) && s[0] != '-' && s[0] != '+'
    requires s[0] != '.' && s[0] != 'I'
    ensures Start(Integer, Str(s), env) == Stop(Throw(SaneError(Some("number"), NotANumber, [])))
  {
    NoSpaceStart(s);
    assert SignOf(s) == (false, s);
    assert LeadingDigits(s) == [];
    assert ParseFloatPrefix(ToStr(Str(s))).None?;
  }

  /** The boolean tester keeps booleans, reads a string as true exactly for
      "1", "true" and "yes" (any case), and refuses everything else, numbers
      included. */
  lemma StartBoolean(v: Js, env: Env)
    ensures Start(Boolean, v, env).Next? <==> v.Bool? || v.Str?
    ensures v.Str? ==>
      Start(Boolean, v, env) ==
        Next(TState(Bool(v.s == "1" || AsciiLower(v.s) == "true" || AsciiLower(v.s) == "yes"), Some("boolean")))
  {
    BooleanIsStart(v, env);
  }

  /** "YES" is true, "no" is false and the number 1 is refused. */
  lemma BooleanExamples(env: Env)
    ensures Start(Boolean, Str("YES"), env) == Next(TState(Bool(true), Some("boolean")))
    ensures Start(Boolean, Str("no"), env) == Next(TState(Bool(false), Some("boolean")))
    ensures Start(Boolean, Num(1), env).Stop?
  {
    BooleanIsStart(Str("YES"), env);
    BooleanIsStart(Str("no"), env);
    BooleanIsStart(Num(1), env);
    LowerExamples();
  }

  lemma LowerExamples()
    ensures AsciiLower("YES") == "yes" && AsciiLower("no") == "no"
  {
  }

  lemma BooleanIsStart(v: Js, env: Env)
    ensures Start(Boolean, v, env) == BooleanStart(v)
  {
    StartOfOthers(Boolean, v, env);
    OtherStartOfBoolean(v, env);
  }

  lemma OtherStartOfBoolean(v: Js, env: Env)
    ensures OtherStart(Boolean, v, env) == BooleanStart(v)
  {
    assert Boolean != Mixed && Boolean != Forbidden && Boolean != Date && Boolean != Array;
  }

  // ---------------------------------------------------------------------
  // Members
  // ---------------------------------------------------------------------

  /** `allow` passes exactly the listed values, and the corrected
      `disallow` fails exactly on them: each passes where the other fails. */
  lemma AllowDisallowComplement(st: TState, arg: Js, env: Env)
    ensures ApplyOp(Allow, st, arg, env).Next? <==> IsAllowed(st.value, arg)
    ensures ApplyOp(Disallow, st, arg, env).Next? <==> !IsAllowed(st.value, arg)
    ensures ApplyOp(Allow, st, arg, env).Next? ==> ApplyOp(Allow, st, arg, env).state == st
    ensures ApplyOp(Disallow, st, arg, env).Next? ==> ApplyOp(Disallow, st, arg, env).state == st
  {
  }

  /** `disallow` as written never passes and never raises the sanitiser's
      own error: a value outside the list, which it should let through,
      ends in a ReferenceError. */
  lemma DisallowAsWrittenCounterexample(st: TState, arg: Js, env: Env)
    ensures DisallowAsWritten(st, arg).Stop? && DisallowAsWritten(st, arg).abort.Crash?
    ensures var probe := TState(Num(1), Some("number"));
      DisallowAsWritten(probe, Arr([Num(2)])) == Stop(Crash(ReferenceError("allowed")))
      && ApplyOp(Disallow, probe, Arr([Num(2)]), env) == Next(probe)
  {
  }

  /** The length members of the string testers compare the length of a
      string value with a number and leave the tester unchanged. */
  lemma StringLengths(s: string, n: int, kind: Option<string>)
    ensures LengthOp(MaxLength, TState(Str(s), kind), Num(n)).Next? <==> |s| <= n
    ensures LengthOp(MinLength, TState(Str(s), kind), Num(n)).Next? <==> |s| >= n
    ensures LengthOp(ExactLength, TState(Str(s), kind), Num(n)).Next? <==> |s| == n
  {
    NumberLengthFails(|s|, n);
    StringLength(MaxLength, s, n, kind);
    StringLength(MinLength, s, n, kind);
    StringLength(ExactLength, s, n, kind);
  }

  lemma StringLength(op: Op, s: string, n: int, kind: Option<string>)
    requires op == MaxLength || op == MinLength || op == ExactLength
    ensures LengthOp(op, TState(Str(s), kind), Num(n)).Next? <==> !LengthFails(op, Num(|s|), Num(n))
  {
    LengthOfString(s);
  }

  /** The length comparisons on two numbers. */
  lemma NumberLengthFails(x: int, n: int)
    ensures LengthFails(MaxLength, Num(x), Num(n)) <==> x > n
    ensures LengthFails(MinLength, Num(x), Num(n)) <==> x < n
    ensures LengthFails(ExactLength, Num(x), Num(n)) <==> x != n
    ensures LengthFails(MaxItems, Num(x), Num(n)) <==> x > n
    ensures LengthFails(MinItems, Num(x), Num(n)) <==> x < n
  {
    NumberOrder(x, n);
  }

  lemma LengthOfString(s: string)
    ensures Get(Str(s), "length") == Num(|s|)
  {
  }

  /** A string that is too long is reported with the limit in the message. */
  lemma StringTooLong(s: string, n: int, kind: Option<string>)
    requires |s| > n
    ensures LengthOp(MaxLength, TState(Str(s), kind), Num(n)) ==
      Stop(Throw(SaneError(kind, ":label is longer than " + IntToStr(n) + " characters", [])))
  {
    StringLengths(s, n, kind);
    assert LengthMessage(MaxLength, Num(n)) == ":label is longer than " + IntToStr(n) + " characters";
  }

  /** The length members throw a TypeError, not the sanitiser's error, on a
      value that became null or undefined. */
  lemma LengthOfNullish(op: Op, kind: Option<string>, arg: Js)
    ensures LengthOp(op, TState(Undefined, kind), arg) == Stop(Crash(TypeError))
    ensures LengthOp(op, TState(Null, kind), arg) == Stop(Crash(TypeError))
  {
  }

  /** The item counts of the array tester. */
  lemma ArrayCounts(items: seq<Js>, n: int)
    ensures LengthOp(MinItems, TState(Arr(items), Some("array")), Num(n)).Next? <==> |items| >= n
    ensures LengthOp(MaxItems, TState(Arr(items), Some("array")), Num(n)).Next? <==> |items| <= n
  {
    var st := TState(Arr(items), Some("array"));
    assert Get(Arr(items), "length") == Num(|items|);
    NumberLengthFails(|items|, n);
    assert LengthOp(MinItems, st, Num(n)).Next? <==> !LengthFails(MinItems, Num(|items|), Num(n));
    assert LengthOp(MaxItems, st, Num(n)).Next? <==> !LengthFails(MaxItems, Num(|items|), Num(n));
  }

  /** The comparisons of the number testers on numbers. */
  lemma NumberBounds(x: int, n: int)
    ensures NumberCheckFails(Greater, Num(x), Num(n)) <==> x <= n
    ensures NumberCheckFails(Less, Num(x), Num(n)) <==> x >= n
    ensures NumberCheckFails(AtMost, Num(x), Num(n)) <==> x > n
    ensures NumberCheckFails(AtLeast, Num(x), Num(n)) <==> x < n
  {
    PrimLessNumbers(x, n);
    PrimLessNumbers(n, x);
    Compared(Greater, Num(x), Num(n));
    GreaterCompares(Num(x), Num(n));
    Compared(Less, Num(x), Num(n));
    LessCompares(Num(x), Num(n));
    Compared(AtMost, Num(x), Num(n));
    AtMostCompares(Num(x), Num(n));
    Compared(AtLeast, Num(x), Num(n));
    AtLeastCompares(Num(x), Num(n));
  }

  /** `multiple(n)` fails on a number that `n` does not divide; a divisor
      of 0 makes the remainder NaN, which never fails. */
  lemma NumberMultiple(x: int, n: int)
    ensures NumberCheckFails(Multiple, Num(x), Num(n)) <==> n != 0 && x % n != 0
  {
    NumberConverts(x);
    NumberConverts(n);
    assert NumberCheckFails(Multiple, Num(x), Num(n)) <==> LeavesRemainder(Num(x), Num(n));
  }

  lemma PrimLessNumbers(x: int, y: int)
    ensures ToPrimitive(Num(x)) == Num(x)
    ensures PrimLess(Num(x), Num(y)) == Some(x < y)
  {
  }

  /** `positive` and `negative` on numbers: zero is neither. */
  lemma NumberSigns(x: int, arg: Js)
    ensures NumberCheckFails(Positive, Num(x), arg) <==> x <= 0
    ensures NumberCheckFails(Negative, Num(x), arg) <==> x >= 0
  {
    PrimLessNumbers(x, 0);
    PrimLessNumbers(0, x);
    Compared(Positive, Num(x), arg);
    SignCompares(Num(x), ToPrimitive(arg));
    Compared(Negative, Num(x), arg);
  }

  /** `port` accepts 0 to 65535 and `unsafe` the safe integers of a double. */
  lemma NumberRanges(x: int, arg: Js)
    ensures NumberCheckFails(Port, Num(x), arg) <==> x < 0 || x > 65535
    ensures NumberCheckFails(Unsafe, Num(x), arg) <==> x < -MaxSafeInteger || x > MaxSafeInteger
  {
    PrimLessNumbers(x, 0);
    PrimLessNumbers(65535, x);
    PrimLessNumbers(x, -MaxSafeInteger);
    PrimLessNumbers(MaxSafeInteger, x);
    Compared(Port, Num(x), arg);
    Compared(Unsafe, Num(x), arg);
    RangeCompares(Num(x), ToPrimitive(arg));
  }

  lemma SignCompares(pv: Js, pa: Js)
    ensures ComparisonFails(Positive, pv, pa) == (PrimLess(Num(0), pv) == Some(false))
    ensures ComparisonFails(Negative, pv, pa) == (PrimLess(pv, Num(0)) == Some(false))
  {
  }

  lemma RangeCompares(pv: Js, pa: Js)
    ensures ComparisonFails(Port, pv, pa) == (PrimLess(pv, Num(0)) == Some(true) || PrimLess(Num(65535), pv) == Some(true))
    ensures ComparisonFails(Unsafe, pv, pa) ==
      (PrimLess(pv, Num(-MaxSafeInteger)) == Some(true) || PrimLess(Num(MaxSafeInteger), pv) == Some(true))
  {
  }

  /** A comparison with `undefined`, which converts to NaN, never fails. */
  lemma NumberBoundsNaN(v: Js, op: Op)
    requires op.Greater? || op.Less? || op.AtMost? || op.AtLeast? || op.Multiple? || op.After? || op.Before?
    ensures !NumberCheckFails(op, v, Undefined)
  {
    if op.After? || op.Before? {
      DatesWithNaN(v);
    } else if op.Multiple? {
      MultipleOfNaN(v);
    } else {
      ComparedWithNaN(v);
    }
  }

  lemma ComparedWithNaN(v: Js)
    ensures !NumberCheckFails(Greater, v, Undefined) && !NumberCheckFails(Less, v, Undefined)
    ensures !NumberCheckFails(AtMost, v, Undefined) && !NumberCheckFails(AtLeast, v, Undefined)
  {
    var pv := ToPrimitive(v);
    UndefinedIsNaN(pv);
    Compared(Greater, v, Undefined);
    GreaterCompares(pv, Undefined);
    Compared(Less, v, Undefined);
    LessCompares(pv, Undefined);
    Compared(AtMost, v, Undefined);
    AtMostCompares(pv, Undefined);
    Compared(AtLeast, v, Undefined);
    AtLeastCompares(pv, Undefined);
  }

  /** Every number member but the date bounds and `multiple` compares the
      primitives of the value and the argument. */
  lemma Compared(op: Op, v: Js, arg: Js)
    requires !op.After? && !op.Before? && !op.Multiple?
    ensures NumberCheckFails(op, v, arg) == ComparisonFails(op, ToPrimitive(v), ToPrimitive(arg))
  {
    PrimCompared(op, ToPrimitive(v), ToPrimitive(arg));
  }

  lemma PrimCompared(op: Op, pv: Js, pa: Js)
    requires !op.After? && !op.Before? && !op.Multiple?
    ensures PrimCheckFails(op, pv, pa) == ComparisonFails(op, pv, pa)
  {
  }

  lemma GreaterCompares(pv: Js, pa: Js)
    ensures ComparisonFails(Greater, pv, pa) == (PrimLess(pa, pv) == Some(false))
  {
  }

  lemma LessCompares(pv: Js, pa: Js)
    ensures ComparisonFails(Less, pv, pa) == (PrimLess(pv, pa) == Some(false))
  {
  }

  lemma AtMostCompares(pv: Js, pa: Js)
    ensures ComparisonFails(AtMost, pv, pa) == (PrimLess(pa, pv) == Some(true))
  {
  }

  lemma AtLeastCompares(pv: Js, pa: Js)
    ensures ComparisonFails(AtLeast, pv, pa) == (PrimLess(pv, pa) == Some(true))
  {
  }

  lemma MultipleOfNaN(v: Js)
    ensures !NumberCheckFails(Multiple, v, Undefined)
  {
    UndefinedIsNaN(ToPrimitive(v));
    MultipleRemainder(v, Undefined);
  }

  /** `multiple(arg)` fails when the division leaves a remainder. */
  lemma MultipleRemainder(v: Js, arg: Js)
    ensures NumberCheckFails(Multiple, v, arg) == LeavesRemainder(ToPrimitive(v), ToPrimitive(arg))
  {
  }

  lemma DatesWithNaN(v: Js)
    ensures !NumberCheckFails(After, v, Undefined) && !NumberCheckFails(Before, v, Undefined)
  {
    UndefinedIsNaN(ToPrimitive(v));
  }

  /** The date bounds compare timestamps: `after(t)` fails for a date
      before `t`, `before(t)` for a date after it. */
  lemma DateBounds(ms: int, t: int)
    ensures NumberCheckFails(After, Num(ms), Num(t)) <==> ms < t
    ensures NumberCheckFails(Before, Num(ms), Num(t)) <==> ms > t
  {
    NumberConverts(ms);
    NumberConverts(t);
    assert NumberCheckFails(After, Num(ms), Num(t)) == DifferenceHasSign(Num(ms), Num(t), -1);
    assert NumberCheckFails(Before, Num(ms), Num(t)) == DifferenceHasSign(Num(ms), Num(t), 1);
  }

  /** `truncate` keeps the first `n` characters; without an argument it
      keeps the whole string, and truncating again changes nothing. */
  lemma TruncateKeepsPrefix(s: string, n: nat, kind: Option<string>, env: Env)
    ensures var r := TextOp(Truncate, TState(Str(s), kind), Num(n), env);
      r.Next? && r.state.kind == kind && r.state.value.Str?
      && r.state.value.s == s[..if n < |s| then n else |s|]
      && TextOp(Truncate, r.state, Num(n), env) == r
    ensures TextOp(Truncate, TState(Str(s), kind), Undefined, env) == Next(TState(Str(s), kind))
  {
    TruncateStep(s, n, kind, env);
    TruncateStep(Prefix(s, n), n, kind, env);
    PrefixIdempotent(s, n);
  }

  lemma TruncateStep(s: string, n: int, kind: Option<string>, env: Env)
    ensures TextOp(Truncate, TState(Str(s), kind), Num(n), env) == Next(TState(Str(Prefix(s, n)), kind))
  {
    NumberConverts(n);
    assert IntegerOf(Num(n)) == n;
  }

  /** Lower-casing, upper-casing and trimming are idempotent, and on
      anything but a string they throw a TypeError. */
  lemma CaseAndTrimIdempotent(s: string, kind: Option<string>, op: Op, env: Env)
    requires op in {Lowercase, Uppercase, TrimWhitespace}
    ensures var r := TextOp(op, TState(Str(s), kind), Undefined, env);
      r.Next? && r.state.value.Str? && TextOp(op, r.state, Undefined, env) == r
    ensures TextOp(op, TState(Num(0), kind), Undefined, env) == Stop(Crash(TypeError))
  {
    CaseFoldIdempotent(s);
    TrimIdempotent(s);
  }

  /** `replace` with a string pattern and a replacement without `$`
      splices the replacement in at the first occurrence only. */
  lemma ReplaceSplices(s: string, p: string, t: string, kind: Option<string>, env: Env)
    requires '$' !in t
    ensures var r := ReplaceStep(TState(Str(s), kind), Arr([Str(p), Str(t)]), env);
      r.Next? && (IndexOf(s, p).None? ==> r.state.value == Str(s))
      && (IndexOf(s, p).Some? ==>
            var i := IndexOf(s, p).value;
            r.state.value == Str(s[..i] + t + s[i + |p|..]))
  {
    ReplaceFirstSplices(s, p, t);
    assert Get(Arr([Str(p), Str(t)]), "0") == Str(p) by {
      assert ArrayIndex("0") == Some(0);
    }
    assert Get(Arr([Str(p), Str(t)]), "1") == Str(t) by {
      assert ArrayIndex("1") == Some(1);
    }
  }

  /** `precision(d)` renders the number with `d` zero decimals, and the
      rendering reads back as the same number; a count outside 0 to 100 is
      a RangeError and a value that is not a number a TypeError. */
  lemma PrecisionRoundTrip(x: int, d: int, kind: Option<string>)
    ensures var r := PrecisionStep(TState(Num(x), kind), Num(d));
      (0 <= d <= 100 ==> r.Next? && r.state.value.Str? && ToNumber(r.state.value) == Some(x))
      && (d < 0 || d > 100 ==> r == Stop(Crash(RangeError)))
    ensures PrecisionStep(TState(Str("5"), kind), Num(d)) == Stop(Crash(TypeError))
  {
    assert IntegerOf(Num(d)) == d;
    if 0 <= d <= 100 {
      assert PrecisionStep(TState(Num(x), kind), Num(d)) == Next(TState(Str(Fixed(x, d)), kind));
      FixedToNumber(x, d);
    }
  }

  lemma FixedToNumber(x: int, d: nat)
    ensures ToNumber(Str(Fixed(x, d))) == Some(x)
  {
    var out := Fixed(x, d);
    if d == 0 {
      IntToStrToNumber(x);
    } else {
      IntToStrPointZerosToNumber(x, Zeros(d));
    }
    assert ToNumber(Str(out)) == StringToNumber(out);
  }

  /** `custom` applies the callback's effect on the tester, and `error`
      always throws its argument as the message. */
  lemma CustomAndError(st: TState, f: Js, arg: Js, env: Env)
    requires f.Func?
    ensures env.custom(f, st.value).SetsValue? ==>
      ApplyOp(Custom, st, f, env) == Next(st.(value := env.custom(f, st.value).value))
    ensures env.custom(f, st.value).Raises? ==>
      ApplyOp(Custom, st, f, env) == Stop(Throw(SaneError(st.kind, env.custom(f, st.value).message, [])))
    ensures ApplyOp(Custom, st, Str("f"), env) == Stop(Crash(TypeError))
    ensures ApplyOp(RaiseError, st, arg, env) == Stop(Throw(SaneError(st.kind, ToStr(arg), [])))
  {
  }

  /** A step that throws only SaneErrors of the tester's `_type` with an
      empty label stack, and does not change the `_type`. */
  predicate KeepsKind(st: TState, r: Step) {
    (r.Stop? && r.abort.Throw? ==> r.abort.err.kind == st.kind && r.abort.err.stack == [])
    && (r.Next? ==> r.state.kind == st.kind)
  }

  /** Every error a member throws carries the tester's `_type` and an
      empty label stack, and no member changes the `_type`. */
  lemma ApplyOpErrorKind(op: Op, st: TState, arg: Js, env: Env)
    requires op != ElementType
    ensures var r := ApplyOp(op, st, arg, env);
      r.Stop? && r.abort.Throw? ==> r.abort.err.kind == st.kind && r.abort.err.stack == []
    ensures var r := ApplyOp(op, st, arg, env);
      r.Next? ==> r.state.kind == st.kind
  {
    if op.Lowercase? || op.Uppercase? || op.TrimWhitespace? || op.Replace? || op.Truncate? || op.Match? || op.PatternType? {
      TextOpKeepsKind(op, st, arg, env);
    } else if op.Custom? {
      CustomKeepsKind(st, arg, env);
    } else if op.MaxLength? || op.MinLength? || op.ExactLength? || op.MinItems? || op.MaxItems? {
      LengthOpKeepsKind(op, st, arg, env);
    } else {
      OtherOpKeepsKind(op, st, arg, env);
    }
  }

  lemma TextOpKeepsKind(op: Op, st: TState, arg: Js, env: Env)
    requires op.Lowercase? || op.Uppercase? || op.TrimWhitespace? || op.Replace? || op.Truncate? || op.Match? || op.PatternType?
    ensures KeepsKind(st, ApplyOp(op, st, arg, env))
  {
    assert ApplyOp(op, st, arg, env) == TextOp(op, st, arg, env);
    if op == Replace {
      assert TextOp(op, st, arg, env) == ReplaceStep(st, arg, env);
    }
  }

  lemma LengthOpKeepsKind(op: Op, st: TState, arg: Js, env: Env)
    requires op != ElementType && op != Custom
    requires !(op.Lowercase? || op.Uppercase? || op.TrimWhitespace? || op.Replace? || op.Truncate? || op.Match? || op.PatternType?)
    requires !(op.Ignore? || op.NotCallable? || op.CallValue? || op.Allow? || op.Disallow? || op.RaiseError? || op.Precision?)
    requires !(op.After? || op.Before? || op.Unsafe? || op.Greater? || op.Less? || op.AtMost? || op.AtLeast?)
    requires !(op.Multiple? || op.Positive? || op.Negative? || op.Port?)
    ensures KeepsKind(st, ApplyOp(op, st, arg, env))
  {
    assert ApplyOp(op, st, arg, env) == LengthOp(op, st, arg);
    LengthCheckKeepsKind(st, LengthFails(op, Get(st.value, "length"), arg), LengthMessage(op, arg));
  }

  lemma LengthCheckKeepsKind(st: TState, failed: bool, message: string)
    ensures KeepsKind(st, LengthCheck(st, failed, message))
  {
  }

  lemma CheckKeepsKind(st: TState, failed: bool, message: string)
    ensures KeepsKind(st, Check(st, failed, message))
  {
  }

  lemma CustomKeepsKind(st: TState, arg: Js, env: Env)
    ensures KeepsKind(st, ApplyOp(Custom, st, arg, env))
  {
    assert ApplyOp(Custom, st, arg, env) == CustomStep(st, arg, env);
  }

  lemma OtherOpKeepsKind(op: Op, st: TState, arg: Js, env: Env)
    requires op != ElementType && op != Custom
    requires !(op.Lowercase? || op.Uppercase? || op.TrimWhitespace? || op.Replace? || op.Truncate? || op.Match? || op.PatternType?)
    requires !(op.MaxLength? || op.MinLength? || op.ExactLength? || op.MinItems? || op.MaxItems?)
    ensures KeepsKind(st, ApplyOp(op, st, arg, env))
  {
    if op == Allow || op == Disallow {
      AllowKeepsKind(op, st, arg, env);
    } else if !(op.Ignore? || op.NotCallable? || op.CallValue? || op.RaiseError? || op.Precision?) {
      NumberOpKeepsKind(op, st, arg, env);
    }
  }

  lemma AllowKeepsKind(op: Op, st: TState, arg: Js, env: Env)
    requires op == Allow || op == Disallow
    ensures KeepsKind(st, ApplyOp(op, st, arg, env))
  {
    if op == Allow {
      CheckKeepsKind(st, !IsAllowed(st.value, arg), ":label is not an allowed value");
    } else {
      CheckKeepsKind(st, IsAllowed(st.value, arg), ":label is a disallowed value");
    }
  }

  lemma NumberOpKeepsKind(op: Op, st: TState, arg: Js, env: Env)
    requires op != ElementType && op != Custom && op != Allow && op != Disallow
    requires !(op.Lowercase? || op.Uppercase? || op.TrimWhitespace? || op.Replace? || op.Truncate? || op.Match? || op.PatternType?)
    requires !(op.MaxLength? || op.MinLength? || op.ExactLength? || op.MinItems? || op.MaxItems?)
    requires !(op.Ignore? || op.NotCallable? || op.CallValue? || op.RaiseError? || op.Precision?)
    ensures KeepsKind(st, ApplyOp(op, st, arg, env))
  {
    CheckKeepsKind(st, NumberCheckFails(op, st.value, arg), NumberCheckMessage(op, arg));
  }

}

=== FILE: Errors.dfy ===
/**
 * The two kinds of failure of the sanitiser (index.js:15-36, 433-480).
 *
 * A `SaneError` is a failure of the data: it carries the `_type` of the
 * tester that raised it (or "undefined" for a missing value), a message in
 * which `:label` stands for the field's place, and the stack of labels that
 * each enclosing call adds as the error travels outwards, innermost first.
 *
 * A `Fault` is anything else that is thrown: the literal strings the
 * sanitiser throws for a malformed schema, and the TypeError, RangeError
 * and ReferenceError that the JavaScript engine raises. These are never
 * annotated and the non-throwing entry point re-throws them.
 */
module Errors {
  import opened Optional
  import opened JsText

  datatype SaneError = SaneError(kind: Option<string>, message: string, stack: seq<string>)

  datatype Fault =
    | Thrown(text: string)
    | TypeError
    | RangeError
    | ReferenceError(identifier: string)

  const Placeholder: string := ":label"

  function Quote(s: string): string {
    "\"" + s + "\""
  }

  /** `SaneError.toString`: when the stack holds labels, the first
      `:label` of the message becomes the quoted labels joined by dots, in
      the stack's own order (the `reverse` at index.js:29 is never called). */
  function Render(e: SaneError): string {
    if |e.stack| > 0 then ReplaceFirst(e.message, Placeholder, Quote(Join(e.stack, "."))) else e.message
  }

  /** The catch block of `sane`: the frame's label goes on top of the stack. */
  function Push(e: SaneError, name: string): (r: SaneError)
    ensures r.kind == e.kind && r.message == e.message
    ensures r.stack == e.stack + [name]
  {
    e.(stack := e.stack + [name])
  }

  predicate DollarFree(labels: seq<string>) {
    forall i :: 0 <= i < |labels| ==> '$' !in labels[i]
  }

  lemma {:induction false} JoinDollarFree(labels: seq<string>)
    requires DollarFree(labels)
    ensures '$' !in Join(labels, ".")
  {
    if |labels| > 1 {
      JoinDollarFree(labels[..|labels| - 1]);
    }
  }

  /** Rendering leaves the message alone when no label was pushed or when it
      has no placeholder; otherwise, for labels without `$`, the first
      placeholder and only it is replaced by the dotted path. */
  lemma RenderShape(e: SaneError)
    requires DollarFree(e.stack)
    ensures |e.stack| == 0 || IndexOf(e.message, Placeholder).None? ==> Render(e) == e.message
    ensures |e.stack| > 0 && IndexOf(e.message, Placeholder).Some? ==>
      var i := IndexOf(e.message, Placeholder).value;
      Render(e) == e.message[..i] + Quote(Join(e.stack, ".")) + e.message[i + |Placeholder|..]
  {
    if |e.stack| > 0 {
      JoinDollarFree(e.stack);
      ReplaceFirstSplices(e.message, Placeholder, Quote(Join(e.stack, ".")));
    }
  }

  /** A message that opens with the placeholder, for one label without
      `$`, renders as the quoted label followed by the rest of the message. */
  lemma RenderLeading(kind: Option<string>, rest: string, name: string)
    requires '$' !in name
    ensures Render(SaneError(kind, Placeholder + rest, [name])) == Quote(name) + rest
  {
    var e := SaneError(kind, Placeholder + rest, [name]);
    assert e.message[..|Placeholder|] == Placeholder;
    assert IndexOf(e.message, Placeholder) == Some(0);
    assert Join(e.stack, ".") == name;
    assert DollarFree(e.stack);
    RenderShape(e);
    assert e.message[..0] == [];
    assert e.message[|Placeholder|..] == rest;
  }

  /** Each push appends to the rendered path: the label pushed last, by the
      outermost frame, is written last. */
  lemma PushExtendsPath(e: SaneError, name: string)
    requires |e.stack| > 0
    ensures Join(Push(e, name).stack, ".") == Join(e.stack, ".") + "." + name
  {
    assert (e.stack + [name])[..|e.stack|] == e.stack;
  }
}

=== FILE: Formats.dfy ===
/**
 * The fixed patterns that some StringTester subclasses check in their
 * constructors. All but one are decided here directly, the address
 * pattern both as written and as evidently intended; the URL pattern is
 * handed to the host's regular expression engine with its source text.
 */
module Formats {
  import opened JsText

  predicate IsHexDigit(c: char) {
    ('0' <= c <= '9') || ('a' <= c <= 'f') || ('A' <= c <= 'F')
  }

  predicate IsAlnum(c: char) {
    ('a' <= c <= 'z') || ('A' <= c <= 'Z') || ('0' <= c <= '9')
  }

  /** Scans `s` left to right for a non-hexadecimal character. */
  function AllHexDigits(s: string): (r: bool)
    ensures r <==> forall i :: 0 <= i < |s| ==> IsHexDigit(s[i])
  {
    if s == [] then true else IsHexDigit(s[0]) && AllHexDigits(s[1..])
  }

  /** `/^0[xX][0-9a-fA-F]+$/` (index.js:191). */
  predicate IsHexLiteral(s: string) {
    |s| >= 3 && s[0] == '0' && (s[1] == 'x' || s[1] == 'X') && AllHexDigits(s[2..])
  }

  /** A hexadecimal literal is exactly a `0x` or `0X` prefix followed by one
      or more hexadecimal digits. */
  lemma HexLiteralShape(prefix: string, digits: string)
    requires prefix == "0x" || prefix == "0X"
    ensures IsHexLiteral(prefix + digits) <==> |digits| >= 1 && forall i :: 0 <= i < |digits| ==> IsHexDigit(digits[i])
  {
    assert (prefix + digits)[2..] == digits;
  }

  /** A string that is not `0x`/`0X` followed by something is never one. */
  lemma HexLiteralNeedsPrefix(s: string)
    requires |s| < 2 || s[..2] !in {"0x", "0X"}
    ensures !IsHexLiteral(s)
  {
    if |s| >= 2 {
      assert s[..2] == [s[0], s[1]];
    }
  }

  /** `/^[a-zA-Z0-9]$/` (index.js:169): a single letter or digit. */
  predicate IsAlphanumeric(s: string) {
    |s| == 1 && IsAlnum(s[0])
  }

  /** `/^[a-zA-Z0-9_]$/` (index.js:202): a single letter, digit or underscore. */
  predicate IsToken(s: string) {
    |s| == 1 && (IsAlnum(s[0]) || s[0] == '_')
  }

  /** The `alphanumeric` and `token` patterns accept one character only, and
      `token` accepts exactly what `alphanumeric` does plus the underscore. */
  lemma SingleCharacterFormats(s: string)
    ensures IsAlphanumeric(s) ==> |s| == 1
    ensures IsToken(s) <==> IsAlphanumeric(s) || s == "_"
  {
  }

  /** `/^\S+@\S+\.\S+$/` (index.js:180): no white space, an `@` after
      at least one character, then a dot after at least one more, then at
      least one character. */
  predicate IsEmail(s: string) {
    (forall k :: 0 <= k < |s| ==> !IsJsSpace(s[k]))
    && exists i, j :: 0 < i && i + 1 < j && j + 1 < |s| && s[i] == '@' && s[j] == '.'
  }

  /** Every `user@host.domain` with non-empty parts free of white space is
      accepted. */
  lemma EmailFromParts(user: string, host: string, domain: string)
    requires user != [] && host != [] && domain != []
    requires forall k :: 0 <= k < |user + host + domain| ==> !IsJsSpace((user + host + domain)[k])
    ensures IsEmail(user + "@" + host + "." + domain)
  {
    var s := user + "@" + host + "." + domain;
    var i, j := |user|, |user| + 1 + |host|;
    assert s[i] == '@' && s[j] == '.';
    forall k | 0 <= k < |s|
      ensures !IsJsSpace(s[k])
    {
      if k < i {
        assert s[k] == (user + host + domain)[k];
      } else if i < k < j {
        assert s[k] == (user + host + domain)[k - 1];
      } else if j < k {
        assert s[k] == (user + host + domain)[k - 2];
      }
    }
  }

  /** Without an `@` past the first character nothing is an address. */
  lemma EmailNeedsAt(s: string)
    requires forall k :: 0 < k < |s| ==> s[k] != '@'
    ensures !IsEmail(s)
  {
  }

  /** `/^(\\d{1, 2}|(0|1)\\d{2}|2[0-4]\\d|25[0-5])$/` as written (index.js:158).
      Inside a regular-expression literal `\\` is a backslash, and `{1, 2}`
      with a space is not a quantifier, so the four alternatives are the
      text `\d{1, 2}`, a `0` or `1` followed by `\dd`, a `2`, a digit from 0
      to 4 and `\d`, and `250` to `255`. */
  predicate IsIpAsWritten(s: string) {
    s == "\\d{1, 2}"
    || (|s| == 4 && (s[0] == '0' || s[0] == '1') && s[1..] == "\\dd")
    || (|s| == 4 && s[0] == '2' && '0' <= s[1] <= '4' && s[2..] == "\\d")
    || (|s| == 3 && s[0] == '2' && s[1] == '5' && '0' <= s[2] <= '5')
  }

  /** The same alternatives with `\\d` read as a digit class and `{1,2}` as
      a quantifier: one or two digits, three digits starting with 0 or 1,
      `2` `0-4` digit, or `25` `0-5`. */
  predicate IsOctet(s: string) {
    ((|s| == 1 || |s| == 2) && AllDigits(s))
    || (|s| == 3 && AllDigits(s) && (s[0] == '0' || s[0] == '1'))
    || (|s| == 3 && AllDigits(s) && s[0] == '2' && s[1] <= '4')
    || (|s| == 3 && s[0] == '2' && s[1] == '5' && '0' <= s[2] <= '5')
  }

  lemma ThreeDigits(s: string)
    requires |s| == 3 && AllDigits(s)
    ensures DigitsValue(s) == 100 * DigitVal(s[0]) + 10 * DigitVal(s[1]) + DigitVal(s[2])
  {
    TwoDigits(s[..2]);
    assert s[..2][..1] == s[..1];
  }

  lemma TwoDigits(s: string)
    requires |s| == 2 && AllDigits(s)
    ensures DigitsValue(s) == 10 * DigitVal(s[0]) + DigitVal(s[1])
  {
    var p := s[..1];
    assert p[..0] == [];
    assert DigitsValue(p) == DigitVal(s[0]);
  }

  /** The corrected pattern accepts exactly the decimal numbers from 0 to
      255 written with at most three digits. */
  lemma OctetRange(s: string)
    ensures IsOctet(s) <==> 1 <= |s| <= 3 && AllDigits(s) && DigitsValue(s) <= 255
  {
    if |s| == 3 && AllDigits(s) {
      ThreeDigits(s);
    } else if |s| == 2 && AllDigits(s) {
      TwoDigits(s);
    }
  }

  /** `s` cut at every dot. */
  function SplitDots(s: string): (r: seq<string>)
    ensures |r| >= 1
  {
    if s == [] then [[]]
    else if s[0] == '.' then [[]] + SplitDots(s[1..])
    else
      var rest := SplitDots(s[1..]);
      [[s[0]] + rest[0]] + rest[1..]
  }

  /** What the address tester evidently meant to accept: four octets
      separated by dots. */
  predicate IsIpv4(s: string) {
    var parts := SplitDots(s);
    |parts| == 4 && IsOctet(parts[0]) && IsOctet(parts[1]) && IsOctet(parts[2]) && IsOctet(parts[3])
  }

  predicate NoDot(s: string) {
    forall k :: 0 <= k < |s| ==> s[k] != '.'
  }

  lemma {:induction false} SplitDotless(s: string)
    requires NoDot(s)
    ensures SplitDots(s) == [s]
  {
    if s != [] {
      SplitDotless(s[1..]);
      assert [s[0]] + s[1..] == s;
    }
  }

  lemma {:induction false} SplitAtDot(a: string, rest: string)
    requires NoDot(a)
    ensures SplitDots(a + "." + rest) == [a] + SplitDots(rest)
  {
    if a == [] {
      assert a + "." + rest == "." + rest;
      assert ("." + rest)[1..] == rest;
    } else {
      SplitAtDot(a[1..], rest);
      assert (a + "." + rest)[1..] == a[1..] + "." + rest;
      assert [a[0]] + a[1..] == a;
    }
  }

  /** A dotted address is accepted exactly when each of its four parts is
      an octet. */
  lemma Ipv4Parts(a: string, b: string, c: string, d: string)
    requires NoDot(a) && NoDot(b) && NoDot(c) && NoDot(d)
    ensures IsIpv4(a + "." + b + "." + c + "." + d) <==> IsOctet(a) && IsOctet(b) && IsOctet(c) && IsOctet(d)
  {
    SplitQuad(a, b, c, d);
  }

  lemma SplitQuad(a: string, b: string, c: string, d: string)
    requires NoDot(a) && NoDot(b) && NoDot(c) && NoDot(d)
    ensures SplitDots(a + "." + b + "." + c + "." + d) == [a, b, c, d]
  {
    var cd := c + "." + d;
    var bcd := b + "." + cd;
    SplitTail(b, c, d);
    SplitAtDot(a, bcd);
    DotsAssociate(a, b, c, d);
  }

  lemma DotsAssociate(a: string, b: string, c: string, d: string)
    ensures a + "." + b + "." + c + "." + d == a + "." + (b + "." + (c + "." + d))
  {
    var dot := ".";
    assert a + dot + b + dot + c + dot + d == a + dot + (b + dot + c + dot + d);
    assert b + dot + c + dot + d == b + dot + (c + dot + d);
  }

  lemma SplitTail(b: string, c: string, d: string)
    requires NoDot(b) && NoDot(c) && NoDot(d)
    ensures SplitDots(b + "." + (c + "." + d)) == [b, c, d]
  {
    SplitDotless(d);
    SplitAtDot(c, d);
    SplitAtDot(b, c + "." + d);
  }

  /** What the pattern as written does: a one-digit value and a dotted
      address are both refused, while the text `\d{1, 2}` and the numbers
      250 to 255 pass. */
  lemma IpAsWrittenCounterexample()
    ensures !IsIpAsWritten("7")
    ensures !IsIpAsWritten("192.168.0.1")
    ensures IsIpAsWritten("\\d{1, 2}")
    ensures IsIpAsWritten("250") && IsIpAsWritten("255")
  {
    assert "\\d{1, 2}"[0] == '\\';
  }

  /** The intended check accepts the dotted address that the pattern as
      written refuses. */
  lemma Ipv4Accepts()
    ensures IsIpv4("192.168.0.1")
  {
    var a, b, c, d := "192", "168", "0", "1";
    OctetExamples();
    assert NoDot(a) && NoDot(b) && NoDot(c) && NoDot(d);
    Ipv4Parts(a, b, c, d);
    assert a + "." + b + "." + c + "." + d == "192.168.0.1";
  }

  lemma OctetExamples()
    ensures IsOctet("192") && IsOctet("168") && IsOctet("0") && IsOctet("1")
  {
  }

  /** The intended check refuses the text that the pattern as written lets
      through, and a lone number. */
  lemma Ipv4Refuses()
    ensures !IsIpv4("\\d{1, 2}") && !IsIpv4("7")
  {
    SplitDotless("\\d{1, 2}");
    SplitDotless("7");
  }

  /** Source text of the URL pattern at index.js:214. */
  const UrlPattern: string := "^https?:\\/\\/\\w+(\\.\\w+)*(:[0-9]+)?\\/?(\\/[.\\w]*)*$"
}

=== FILE: Host.dfy ===
/**
 * What the sanitiser calls but does not define: the regular-expression
 * engine, `String.prototype.replace` with a regular expression or a
 * replacement function,
 * `Date.parse`, the callbacks given to the `custom` constraint and the
 * `get` method of a value read by ObjectTester. The
 * model takes them as a record of functions, so every property proved
 * holds whatever they do.
 */
module Host {
  import opened Optional
  import opened JsValue

  /** What a `custom` callback does to the tester it is called on. */
  datatype Effect =
    | Returns                   // returns without touching the tester
    | SetsValue(value: Js)      // assigns `this.value`
    | Raises(message: string)   // calls `this.error(message)`

  datatype Env = Env(
    /** `subject.match(pattern)` finds a match (the result is not null). */
    matches: (Js, string) -> bool,
    /** `subject.replace(pattern, replacement)` when the pattern is a
        regular expression or the replacement a function. */
    replace: (string, Js, Js) -> string,
    /** `Date.parse(v)`, in milliseconds; `None` is NaN. */
    parseDate: Js -> Option<int>,
    /** `callback.call(tester)`, given the callback and the tester's value. */
    custom: (Js, Js) -> Effect,
    /** `value.get(key)` on a value whose `get` member is a function. */
    getter: (Js, string) -> Js)
}

=== FILE: JsConvert.dfy ===
/**
 * The implicit conversions of JavaScript that the sanitiser relies on:
 * `String(v)` and string concatenation, `ToNumber`, and the relational
 * operators `<`, `>`, `<=`, `>=` with their string/number rules.
 */
module JsConvert {
  import opened Optional
  import opened JsText
  import opened JsValue

  /** `String(v)`, which is also what `"..." + v` inserts. */
  function ToStr(v: Js): string
    decreases v
  {
    match v
    case Undefined => "undefined"
    case Null => "null"
    case Bool(b) => if b then "true" else "false"
    case Num(n) => IntToStr(n)
    case Str(s) => s
    case Arr(items) => Join(ItemStrings(items), ",")
    case Obj(_) => "[object Object]"
    case Regex(source) => "/" + source + "/"
    case Func(name, _) => "function " + name + "() { [native code] }"
  }

  /** What `Array.prototype.join` writes for each element: nothing for null
      and undefined. */
  function ItemStrings(items: seq<Js>): (r: seq<string>)
    ensures |r| == |items|
    decreases items
  {
    if items == [] then []
    else
      var last := items[|items| - 1];
      ItemStrings(items[..|items| - 1]) + [if IsNullish(last) then "" else ToStr(last)]
  }

  /** ToPrimitive: objects become their string form. */
  function ToPrimitive(v: Js): (r: Js)
    ensures !IsObjectType(r) && !r.Func?
  {
    if IsObjectType(v) || v.Func? then Str(ToStr(v)) else v
  }

  /** ToNumber of a primitive value; `None` stands for NaN. */
  function PrimToNumber(p: Js): Option<int> {
    match p
    case Undefined => None
    case Null => Some(0)
    case Bool(b) => Some(if b then 1 else 0)
    case Num(n) => Some(n)
    case Str(s) => StringToNumber(s)
    case _ => None
  }

  /** `ToNumber(v)`; `None` stands for NaN. */
  function ToNumber(v: Js): Option<int> {
    PrimToNumber(ToPrimitive(v))
  }

  /** IsLessThan of section 7.2.13 of ECMA-262 on primitive operands: two
      strings compare as strings, anything else as numbers; `None` is the
      undefined outcome that a NaN operand produces. */
  function PrimLess(pa: Js, pb: Js): Option<bool> {
    if pa.Str? && pb.Str? then Some(StrLess(pa.s, pb.s))
    else
      match (PrimToNumber(pa), PrimToNumber(pb))
      case (Some(x), Some(y)) => Some(x < y)
      case _ => None
  }

  /** `undefined` converts to NaN, with which no comparison holds. */
  lemma UndefinedIsNaN(p: Js)
    ensures ToPrimitive(Undefined) == Undefined && ToNumber(Undefined).None?
    ensures PrimLess(p, Undefined).None? && PrimLess(Undefined, p).None?
  {
  }

  /** IsLessThan on any operands, converted to primitives first. */
  function LessThan(a: Js, b: Js): Option<bool> {
    PrimLess(ToPrimitive(a), ToPrimitive(b))
  }

  /** `a < b` */
  predicate Lt(a: Js, b: Js) { LessThan(a, b) == Some(true) }
  /** `a > b` */
  predicate Gt(a: Js, b: Js) { LessThan(b, a) == Some(true) }
  /** `a <= b` */
  predicate Le(a: Js, b: Js) { LessThan(b, a) == Some(false) }
  /** `a >= b` */
  predicate Ge(a: Js, b: Js) { LessThan(a, b) == Some(false) }

  /** A number is its own primitive and converts to itself. */
  lemma NumberConverts(n: int)
    ensures ToPrimitive(Num(n)) == Num(n) && PrimToNumber(Num(n)) == Some(n) && ToNumber(Num(n)) == Some(n)
  {
  }

  /** On numbers `<` and `>` are the integer orders. */
  lemma NumberOrder(x: int, y: int)
    ensures Lt(Num(x), Num(y)) <==> x < y
    ensures Gt(Num(x), Num(y)) <==> x > y
  {
    NumberConverts(x);
    NumberConverts(y);
  }

  /** On numbers the four operators are the integer orders, and a NaN
      operand makes all four false. */
  lemma CompareNumbers(x: int, y: int, v: Js)
    requires ToNumber(v).None? && !ToPrimitive(v).Str?
    ensures Lt(Num(x), Num(y)) <==> x < y
    ensures Gt(Num(x), Num(y)) <==> x > y
    ensures Le(Num(x), Num(y)) <==> x <= y
    ensures Ge(Num(x), Num(y)) <==> x >= y
    ensures !Lt(Num(x), v) && !Gt(Num(x), v) && !Le(Num(x), v) && !Ge(Num(x), v)
  {
  }

  /** A number rendered by `String` converts back to itself. */
  lemma ToNumberOfRendering(n: int)
    ensures ToNumber(Str(ToStr(Num(n)))) == Some(n)
  {
    IntToStrToNumber(n);
  }
}

=== FILE: JsText.dfy ===
/**
 * The string built-ins of JavaScript that the sanitiser calls on its values:
 * whitespace trimming, ASCII case mapping, decimal rendering and parsing,
 * relational comparison of strings, `substr`, `indexOf`, `replace` with a
 * string pattern (including the `$` forms of the replacement template) and
 * `Array.prototype.join`.
 *
 * A JavaScript string is a sequence of UTF-16 code units; here it is a
 * `seq<char>`, so the two agree on text inside the Basic Multilingual Plane.
 */
module JsText {
  import opened Optional

  /** The WhiteSpace and LineTerminator characters that `trim` and
      `parseFloat` skip (section 12.2 and 12.3 of ECMA-262). */
  predicate IsJsSpace(c: char) {
    var n := c as int;
    (9 <= n <= 13) || n == 0x20 || n == 0xA0 || n == 0x1680
    || (0x2000 <= n <= 0x200A) || n == 0x2028 || n == 0x2029
    || n == 0x202F || n == 0x205F || n == 0x3000 || n == 0xFEFF
  }

  /** `s` with its leading white space removed. */
  function TrimStart(s: string): (r: string)
    ensures |r| <= |s|
    ensures r == [] || !IsJsSpace(r[0])
  {
    if |s| > 0 && IsJsSpace(s[0]) then TrimStart(s[1..]) else s
  }

  /** `s` with its trailing white space removed. */
  function TrimEnd(s: string): (r: string)
    ensures |r| <= |s| && r == s[..|r|]
    ensures r == [] || !IsJsSpace(r[|r| - 1])
  {
    if |s| > 0 && IsJsSpace(s[|s| - 1]) then TrimEnd(s[..|s| - 1]) else s
  }

  /** What TrimStart keeps is a suffix of its input. */
  lemma {:induction false} TrimStartSuffix(s: string)
    ensures TrimStart(s) == s[|s| - |TrimStart(s)|..]
  {
    if |s| > 0 && IsJsSpace(s[0]) {
      TrimStartSuffix(s[1..]);
      assert s[1..][|s| - 1 - |TrimStart(s)|..] == s[|s| - |TrimStart(s)|..];
    }
  }

  /** Everything TrimStart drops is white space. */
  lemma {:induction false} TrimStartDrops(s: string)
    ensures forall i :: 0 <= i < |s| - |TrimStart(s)| ==> IsJsSpace(s[i])
  {
    if |s| > 0 && IsJsSpace(s[0]) {
      TrimStartDrops(s[1..]);
      forall i | 1 <= i < |s| - |TrimStart(s)| ensures IsJsSpace(s[i]) {
        assert s[i] == s[1..][i - 1];
      }
    }
  }

  /** Everything TrimEnd drops is white space. */
  lemma {:induction false} TrimEndDrops(s: string)
    ensures forall i :: |TrimEnd(s)| <= i < |s| ==> IsJsSpace(s[i])
  {
    if |s| > 0 && IsJsSpace(s[|s| - 1]) {
      TrimEndDrops(s[..|s| - 1]);
      forall i | |TrimEnd(s)| <= i < |s| - 1 ensures IsJsSpace(s[i]) {
        assert s[i] == s[..|s| - 1][i];
      }
    }
  }

  /** `String.prototype.trim`. */
  function Trim(s: string): string {
    TrimEnd(TrimStart(s))
  }

  /** What `trim` keeps is a prefix of a suffix of the input: the suffix
      TrimStart leaves after dropping only white space, then a prefix of it
      after dropping only white space from its end. */
  lemma TrimIsSlice(s: string)
    ensures var a := TrimStart(s);
      var t := Trim(s);
      |t| <= |a| <= |s| && a == s[|s| - |a|..] && t == a[..|t|]
      && (forall k :: 0 <= k < |s| - |a| ==> IsJsSpace(s[k]))
      && (forall k :: |t| <= k < |a| ==> IsJsSpace(a[k]))
    ensures Trim(s) == [] || (!IsJsSpace(Trim(s)[0]) && !IsJsSpace(Trim(s)[|Trim(s)| - 1]))
  {
    TrimStartSuffix(s);
    TrimStartDrops(s);
    TrimEndDrops(TrimStart(s));
    TrimEdges(s);
  }

  lemma TrimEdges(s: string)
    ensures Trim(s) == [] || (!IsJsSpace(Trim(s)[0]) && !IsJsSpace(Trim(s)[|Trim(s)| - 1]))
  {
    var a := TrimStart(s);
    var b := TrimEnd(a);
    assert Trim(s) == b;
    if b != [] {
      assert b[0] == a[0];
    }
  }

  /** Trimming twice is trimming once. */
  lemma TrimIdempotent(s: string)
    ensures Trim(Trim(s)) == Trim(s)
  {
    var t := Trim(s);
    TrimIsSlice(s);
    assert TrimStart(t) == t;
    assert TrimEnd(t) == t;
  }

  function LowerChar(c: char): char {
    if 'A' <= c <= 'Z' then (c as int + 32) as char else c
  }

  function UpperChar(c: char): char {
    if 'a' <= c <= 'z' then (c as int - 32) as char else c
  }

  /** `toLowerCase`, restricted to the ASCII letters. */
  function AsciiLower(s: string): (r: string)
    ensures |r| == |s|
    ensures forall i :: 0 <= i < |s| ==> r[i] == LowerChar(s[i])
  {
    seq(|s|, i requires 0 <= i < |s| => LowerChar(s[i]))
  }

  /** `toUpperCase`, restricted to the ASCII letters. */
  function AsciiUpper(s: string): (r: string)
    ensures |r| == |s|
    ensures forall i :: 0 <= i < |s| ==> r[i] == UpperChar(s[i])
  {
    seq(|s|, i requires 0 <= i < |s| => UpperChar(s[i]))
  }

  /** Case folding is a fixed point of itself; lower-casing leaves no capital. */
  lemma CaseFoldIdempotent(s: string)
    ensures AsciiLower(AsciiLower(s)) == AsciiLower(s)
    ensures AsciiUpper(AsciiUpper(s)) == AsciiUpper(s)
    ensures forall i :: 0 <= i < |s| ==> !('A' <= AsciiLower(s)[i] <= 'Z')
  {
  }

  predicate IsDigit(c: char) {
    '0' <= c <= '9'
  }

  function DigitChar(d: nat): (c: char)
    requires d < 10
    ensures IsDigit(c)
  {
    ('0' as int + d) as char
  }

  function DigitVal(c: char): (d: nat)
    requires IsDigit(c)
    ensures d < 10 && DigitChar(d) == c
  {
    c as int - '0' as int
  }

  predicate AllDigits(s: string) {
    forall i :: 0 <= i < |s| ==> IsDigit(s[i])
  }

  /** The value of a string of decimal digits, most significant first. */
  function DigitsValue(s: string): nat
    requires AllDigits(s)
  {
    if s == [] then 0 else 10 * DigitsValue(s[..|s| - 1]) + DigitVal(s[|s| - 1])
  }

  /** Decimal rendering of a natural number, as `String(n)` gives it. */
  function NatToStr(n: nat): (r: string)
    ensures |r| > 0 && AllDigits(r)
  {
    if n < 10 then [DigitChar(n)] else NatToStr(n / 10) + [DigitChar(n % 10)]
  }

  /** Decimal rendering of an integer, as `String(n)` gives it. */
  function IntToStr(n: int): string {
    if n < 0 then "-" + NatToStr(-n) else NatToStr(n)
  }

  /** A canonical array index: digits only, no leading zero except "0"
      itself. This is how `a[k]` decides whether a key names an element. */
  function ArrayIndex(k: string): (r: Option<nat>)
    ensures r.Some? ==> |k| > 0 && AllDigits(k) && (k[0] != '0' || |k| == 1)
  {
    if |k| > 0 && AllDigits(k) && (k[0] != '0' || |k| == 1) then Some(DigitsValue(k)) else None
  }

  lemma {:induction false} NatToStrShape(n: nat)
    ensures DigitsValue(NatToStr(n)) == n
    ensures NatToStr(n)[0] == '0' <==> n == 0
    ensures n == 0 ==> NatToStr(n) == "0"
  {
    if n >= 10 {
      NatToStrShape(n / 10);
      var s := NatToStr(n);
      assert s[..|s| - 1] == NatToStr(n / 10);
    }
  }

  /** Rendering a number and reading it back as an index is the identity. */
  lemma NatToStrIndex(n: nat)
    ensures ArrayIndex(NatToStr(n)) == Some(n)
  {
    NatToStrShape(n);
  }

  lemma {:induction false} DigitsValueLeading(s: string)
    requires |s| > 0 && AllDigits(s)
    ensures DigitsValue(s) >= DigitVal(s[0])
  {
    if |s| > 1 {
      DigitsValueLeading(s[..|s| - 1]);
    }
  }

  /** The converse round trip: an index key is the rendering of its value,
      so distinct keys name distinct elements. */
  lemma {:induction false} IndexToNatToStr(k: string)
    requires ArrayIndex(k).Some?
    ensures NatToStr(ArrayIndex(k).value) == k
  {
    if |k| > 1 {
      var p := k[..|k| - 1];
      assert p[0] == k[0];
      DigitsValueLeading(p);
      assert ArrayIndex(p).Some?;
      IndexToNatToStr(p);
      var n := DigitsValue(k);
      assert n / 10 == DigitsValue(p) && n % 10 == DigitVal(k[|k| - 1]);
    }
  }

  /** The longest prefix of `s` made of decimal digits. */
  function LeadingDigits(s: string): (r: string)
    ensures |r| <= |s| && AllDigits(r)
    ensures |r| == |s| || !IsDigit(s[|r|])
  {
    if |s| > 0 && IsDigit(s[0]) then [s[0]] + LeadingDigits(s[1..]) else []
  }

  predicate AllZeros(s: string) {
    forall i :: 0 <= i < |s| ==> s[i] == '0'
  }

  /** Optional sign, then what follows it. */
  function SignOf(t: string): (r: (bool, string))
    ensures |r.1| <= |t|
  {
    if |t| > 0 && (t[0] == '-' || t[0] == '+') then (t[0] == '-', t[1..]) else (false, t)
  }

  /** `Number.parseFloat` on the integer part of a numeric prefix: leading
      white space, an optional sign, then at least one digit; whatever
      follows the digits is ignored. `None` stands for NaN. */
  function ParseFloatPrefix(s: string): Option<int> {
    var (neg, body) := SignOf(TrimStart(s));
    var d := LeadingDigits(body);
    if d == [] then None
    else Some(if neg then -(DigitsValue(d) as int) else DigitsValue(d))
  }

  /** `ToNumber` of a string: the whole string, once trimmed, must be an
      integer literal, optionally signed, optionally followed by a point and
      zeros; the empty string is 0. `None` stands for NaN. */
  function StringToNumber(s: string): Option<int> {
    var t := Trim(s);
    if t == [] then Some(0)
    else
      var (neg, body) := SignOf(t);
      var d := LeadingDigits(body);
      var rest := body[|d|..];
      if d != [] && (rest == [] || (rest[0] == '.' && AllZeros(rest[1..])))
      then Some(if neg then -(DigitsValue(d) as int) else DigitsValue(d))
      else None
  }

  lemma LeadingDigitsOfDigits(d: string, rest: string)
    requires AllDigits(d) && (rest == [] || !IsDigit(rest[0]))
    ensures LeadingDigits(d + rest) == d
  {
    if d != [] {
      assert (d + rest)[1..] == d[1..] + rest;
      LeadingDigitsOfDigits(d[1..], rest);
    }
  }

  lemma SignedRendering(n: int)
    ensures var (neg, body) := SignOf(IntToStr(n));
      neg == (n < 0) && body == NatToStr(if n < 0 then -n else n)
    ensures !IsJsSpace(IntToStr(n)[0]) && !IsJsSpace(IntToStr(n)[|IntToStr(n)| - 1])
  {
    NatToStrShape(if n < 0 then -n else n);
  }

  lemma NoSpaceStart(s: string)
    requires s != [] && !IsJsSpace(s[0])
    ensures TrimStart(s) == s
  {
  }

  /** A rendered integer, whatever follows it, starts with its sign and
      then the digits of its magnitude. */
  lemma SignOfRendered(n: int, rest: string)
    ensures SignOf(IntToStr(n) + rest) == (n < 0, NatToStr(if n < 0 then -n else n) + rest)
    ensures !IsJsSpace((IntToStr(n) + rest)[0])
  {
    var d := NatToStr(if n < 0 then -n else n);
    var s := IntToStr(n) + rest;
    if n < 0 {
      assert s == ['-'] + (d + rest);
      assert s[1..] == d + rest;
    } else {
      assert s == d + rest;
      assert s[0] == d[0] && IsDigit(d[0]);
    }
  }

  /** Reading back a rendered integer with `parseFloat` gives the integer
      when what follows it can neither continue the digits nor start a
      fraction or an exponent. */
  lemma IntToStrParseFloat(n: int, rest: string)
    requires rest == [] || !(IsDigit(rest[0]) || rest[0] in {'.', 'e', 'E'})
    ensures ParseFloatPrefix(IntToStr(n) + rest) == Some(n)
  {
    var m: nat := if n < 0 then -n else n;
    var d := NatToStr(m);
    var s := IntToStr(n) + rest;
    NatToStrShape(m);
    SignOfRendered(n, rest);
    NoSpaceStart(s);
    LeadingDigitsOfDigits(d, rest);
  }

  /** `ToNumber` of a trimmed, signed run of digits followed by nothing or
      by a point and zeros is the signed value of the digits. */
  lemma ReadSigned(s: string, neg: bool, d: string, tail: string)
    requires s != [] && Trim(s) == s && SignOf(s) == (neg, d + tail)
    requires d != [] && AllDigits(d)
    requires tail == [] || (tail[0] == '.' && AllZeros(tail[1..]))
    ensures StringToNumber(s) == Some(if neg then -(DigitsValue(d) as int) else DigitsValue(d))
  {
    LeadingDigitsOfDigits(d, tail);
    assert (d + tail)[|d|..] == tail;
  }

  /** A rendered integer, followed by anything that does not end in white
      space, is left alone by `trim`. */
  lemma RenderedTrimmed(n: int, tail: string)
    requires tail == [] || !IsJsSpace(tail[|tail| - 1])
    ensures Trim(IntToStr(n) + tail) == IntToStr(n) + tail
  {
    var s := IntToStr(n) + tail;
    SignOfRendered(n, tail);
    NoSpaceStart(s);
    if tail == [] {
      var d := NatToStr(if n < 0 then -n else n);
      assert s[|s| - 1] == d[|d| - 1];
    } else {
      assert s[|s| - 1] == tail[|tail| - 1];
    }
    NoSpaceEnd(s);
  }

  /** `ToNumber` of a trimmed string that holds the sign of `n` and then the
      digits of its magnitude, possibly followed by a point and zeros. */
  lemma ReadRendered(n: int, s: string, tail: string)
    requires s != [] && Trim(s) == s
    requires SignOf(s) == (n < 0, NatToStr(if n < 0 then -n else n) + tail)
    requires tail == [] || (tail[0] == '.' && AllZeros(tail[1..]))
    ensures StringToNumber(s) == Some(n)
  {
    var m: nat := if n < 0 then -n else n;
    NatToStrShape(m);
    ReadSigned(s, n < 0, NatToStr(m), tail);
  }

  /** `ToNumber` of a rendered integer gives the integer. */
  lemma IntToStrToNumber(n: int)
    ensures StringToNumber(IntToStr(n)) == Some(n)
  {
    var s := IntToStr(n);
    SignOfRendered(n, []);
    RenderedTrimmed(n, []);
    assert s + [] == s;
    ReadRendered(n, s, []);
  }

  /** `ToNumber` of a rendered integer followed by a point and zeros, as
      `toFixed` writes it, gives the integer. */
  lemma IntToStrPointZerosToNumber(n: int, z: string)
    requires AllZeros(z)
    ensures StringToNumber(IntToStr(n) + "." + z) == Some(n)
  {
    var tail := "." + z;
    var s := IntToStr(n) + tail;
    assert IntToStr(n) + "." + z == s;
    assert tail[1..] == z;
    SignOfRendered(n, tail);
    RenderedTrimmed(n, tail);
    ReadRendered(n, s, tail);
  }

  lemma NoSpaceEnd(s: string)
    requires s != [] && !IsJsSpace(s[|s| - 1]) && TrimStart(s) == s
    ensures Trim(s) == s
  {
  }

  /** The relational `<` of two strings: code unit by code unit, a proper
      prefix being the smaller. */
  function StrLess(a: string, b: string): bool {
    if a == [] then b != []
    else if b == [] then false
    else if a[0] == b[0] then StrLess(a[1..], b[1..])
    else a[0] < b[0]
  }

  /** `<` on strings is a strict order: irreflexive and transitive. */
  lemma {:induction false} StrLessStrictOrder(a: string, b: string, c: string)
    ensures !StrLess(a, a)
    ensures StrLess(a, b) && StrLess(b, c) ==> StrLess(a, c)
  {
    if a != [] {
      StrLessStrictOrder(a[1..], a[1..], a[1..]);
    }
    if a != [] && b != [] && c != [] {
      StrLessStrictOrder(a[1..], b[1..], c[1..]);
    }
  }

  /** `s.substr(0, n)` for an integral length: the first `n` characters,
      none when `n` is not positive. */
  function Prefix(s: string, n: int): (r: string)
    ensures r == s[..if n < 0 then 0 else if n > |s| then |s| else n]
  {
    if n <= 0 then [] else if n >= |s| then s else s[..n]
  }

  /** Truncating to `n` characters twice is truncating once. */
  lemma PrefixIdempotent(s: string, n: int)
    ensures Prefix(Prefix(s, n), n) == Prefix(s, n)
    ensures |Prefix(s, n)| <= |s|
  {
  }

  /** Whether `p` occurs in `s` at position `i`. */
  predicate OccursAt(s: string, p: string, i: nat) {
    i + |p| <= |s| && s[i..i + |p|] == p
  }

  /** The first position at or after `from` where `p` occurs. */
  function IndexFrom(s: string, p: string, from: nat): (r: Option<nat>)
    decreases |s| - from
    ensures r.Some? ==>
      (from <= r.value && OccursAt(s, p, r.value)
       && forall j :: from <= j < r.value ==> !OccursAt(s, p, j))
    ensures r.None? ==> forall j :: from <= j ==> !OccursAt(s, p, j)
  {
    if from + |p| > |s| then None
    else if s[from..from + |p|] == p then Some(from)
    else IndexFrom(s, p, from + 1)
  }

  /** `s.indexOf(p)`, with `None` for -1. */
  function IndexOf(s: string, p: string): Option<nat> {
    IndexFrom(s, p, 0)
  }

  /** GetSubstitution of section 22.1.3.19.1 of ECMA-262 for a match without
      capture groups: `$$` is a dollar, `$&` the match, the back-quote and
      apostrophe forms the text before and after it; any other `$` stays. */
  function Substitute(t: string, matched: string, before: string, after: string): string {
    if t == [] then []
    else if t[0] == '$' && |t| >= 2 && t[1] in "$&`'" then
      (if t[1] == '$' then "$" else if t[1] == '&' then matched else if t[1] == '`' then before else after)
      + Substitute(t[2..], matched, before, after)
    else [t[0]] + Substitute(t[1..], matched, before, after)
  }

  /** A template without a dollar sign is inserted literally. */
  lemma {:induction false} SubstitutePlain(t: string, matched: string, before: string, after: string)
    requires '$' !in t
    ensures Substitute(t, matched, before, after) == t
  {
    if t != [] {
      assert '$' !in t[1..];
      SubstitutePlain(t[1..], matched, before, after);
    }
  }

  /** `s.replace(p, t)` with a string pattern: only the first occurrence is
      replaced. */
  function ReplaceFirst(s: string, p: string, t: string): string {
    match IndexOf(s, p)
    case None => s
    case Some(i) => s[..i] + Substitute(t, p, s[..i], s[i + |p|..]) + s[i + |p|..]
  }

  /** With a dollar-free template, `replace` splices the template in at the
      first occurrence and leaves a string without one unchanged. */
  lemma ReplaceFirstSplices(s: string, p: string, t: string)
    requires '$' !in t
    ensures IndexOf(s, p).None? ==> ReplaceFirst(s, p, t) == s
    ensures IndexOf(s, p).Some? ==>
      var i := IndexOf(s, p).value;
      OccursAt(s, p, i) && (forall j :: 0 <= j < i ==> !OccursAt(s, p, j))
      && ReplaceFirst(s, p, t) == s[..i] + t + s[i + |p|..]
  {
    if IndexOf(s, p).Some? {
      var i := IndexOf(s, p).value;
      SubstitutePlain(t, p, s[..i], s[i + |p|..]);
    }
  }

  /** `xs.join(sep)`. */
  function Join(xs: seq<string>, sep: string): string {
    if xs == [] then ""
    else if |xs| == 1 then xs[0]
    else Join(xs[..|xs| - 1], sep) + sep + xs[|xs| - 1]
  }
}

=== FILE: JsValue.dfy ===
/**
 * The JavaScript values the sanitiser handles, both as input data and as
 * schemas (a schema is itself a JavaScript value: a string, a constructor,
 * a regular expression, an array, a boolean or a plain object).
 *
 * Numbers are integers. An object keeps its own enumerable properties as a
 * sequence, in the order a `for ... in` loop visits them. Functions carry
 * their `name` and the value they return when called with no argument.
 */
module JsValue {
  import opened Optional
  import opened JsText

  datatype Js =
    | Undefined
    | Null
    | Bool(b: bool)
    | Num(n: int)
    | Str(s: string)
    | Arr(items: seq<Js>)
    | Obj(props: seq<Prop>)
    | Regex(source: string)
    | Func(name: string, result: Js)

  datatype Prop = Prop(key: string, val: Js)

  /** A measure for recursion over schemas: a string counts as one node,
      whatever its length, and an array as at least two, so that the
      `mixed` that stands for the element schema of `[]` is smaller. */
  function Size(v: Js): (r: nat)
    ensures r >= 1
    decreases v
  {
    match v
    case Arr(items) => 2 + SizeItems(items)
    case Obj(props) => 1 + SizeProps(props)
    case Func(_, r) => 1 + Size(r)
    case _ => 1
  }

  function SizeItems(items: seq<Js>): nat
    decreases items
  {
    if items == [] then 0 else SizeItems(items[..|items| - 1]) + Size(items[|items| - 1])
  }

  function SizeProps(props: seq<Prop>): nat
    decreases props
  {
    if props == [] then 0 else SizeProps(props[..|props| - 1]) + Size(props[|props| - 1].val)
  }

  lemma {:induction false} ItemSmaller(items: seq<Js>, i: nat)
    requires i < |items|
    ensures Size(items[i]) <= SizeItems(items)
  {
    if i < |items| - 1 {
      ItemSmaller(items[..|items| - 1], i);
    }
  }

  lemma {:induction false} PropSmaller(props: seq<Prop>, i: nat)
    requires i < |props|
    ensures Size(props[i].val) <= SizeProps(props)
  {
    if i < |props| - 1 {
      PropSmaller(props[..|props| - 1], i);
    }
  }

  /** `undefined` or `null`: reading a property of these throws. */
  predicate IsNullish(v: Js) {
    v.Undefined? || v.Null?
  }

  /** `typeof v === 'object' && v !== null`. */
  predicate IsObjectType(v: Js) {
    v.Arr? || v.Obj? || v.Regex?
  }

  /** JavaScript truthiness (ToBoolean). */
  predicate Truthy(v: Js) {
    match v
    case Undefined => false
    case Null => false
    case Bool(b) => b
    case Num(n) => n != 0
    case Str(s) => s != []
    case _ => true
  }

  function Keys(props: seq<Prop>): (r: seq<string>)
    ensures |r| == |props| && forall i :: 0 <= i < |props| ==> r[i] == props[i].key
  {
    seq(|props|, i requires 0 <= i < |props| => props[i].key)
  }

  /** The value of own property `k`, the first one if the key repeats. */
  function Lookup(props: seq<Prop>, k: string): (r: Option<Js>)
    ensures r.None? <==> k !in Keys(props)
    ensures r.Some? ==> exists i :: 0 <= i < |props| && props[i].key == k && props[i].val == r.value
  {
    if props == [] then None
    else if props[0].key == k then Some(props[0].val)
    else
      assert Keys(props) == [props[0].key] + Keys(props[1..]);
      Lookup(props[1..], k)
  }

  /** The keys `for (k in v)` visits: own keys of an object, indices of an
      array or of a string, nothing for other values. */
  function ForInKeys(v: Js): seq<string> {
    match v
    case Obj(props) => Keys(props)
    case Arr(items) => Indices(|items|)
    case Str(s) => Indices(|s|)
    case _ => []
  }

  function Indices(n: nat): (r: seq<string>)
    ensures |r| == n && forall i :: 0 <= i < n ==> r[i] == NatToStr(i)
  {
    seq(n, i requires 0 <= i < n => NatToStr(i))
  }

  /** `v[k]` on a value that is not null or undefined; a missing property
      reads as `undefined`. */
  function Get(v: Js, k: string): Js {
    match v
    case Obj(props) => (match Lookup(props, k) case Some(x) => x case None => Undefined)
    case Arr(items) =>
      if k == "length" then Num(|items|)
      else (match ArrayIndex(k) case Some(i) => if i < |items| then items[i] else Undefined case None => Undefined)
    case Str(s) =>
      if k == "length" then Num(|s|)
      else (match ArrayIndex(k) case Some(i) => if i < |s| then Str([s[i]]) else Undefined case None => Undefined)
    case _ => Undefined
  }

  /** Reading an own property of a plain object gives its value. */
  lemma GetOwn(props: seq<Prop>, k: string)
    requires k in Keys(props)
    ensures Get(Obj(props), k) == Lookup(props, k).value
  {
  }

  /** Reading a property never yields a larger value, and reading a visited
      key of an object or array yields a strictly smaller one. */
  lemma GetSize(v: Js, k: string)
    ensures Size(Get(v, k)) <= Size(v)
    ensures (v.Obj? || v.Arr?) && k in ForInKeys(v) ==> Size(Get(v, k)) < Size(v)
  {
    match v
    case Obj(props) =>
      if Lookup(props, k).Some? {
        var i :| 0 <= i < |props| && props[i].key == k && props[i].val == Lookup(props, k).value;
        PropSmaller(props, i);
      }
    case Arr(items) =>
      if k != "length" && ArrayIndex(k).Some? && ArrayIndex(k).value < |items| {
        ItemSmaller(items, ArrayIndex(k).value);
      }
      if k in ForInKeys(v) {
        var i :| 0 <= i < |items| && k == NatToStr(i);
        NatToStrIndex(i);
        ItemSmaller(items, i);
      }
    case _ =>
  }

  lemma LookupCons(p: Prop, rest: seq<Prop>, j: string)
    ensures Keys([p] + rest) == [p.key] + Keys(rest)
    ensures Lookup([p] + rest, j) == if p.key == j then Some(p.val) else Lookup(rest, j)
  {
    assert ([p] + rest)[1..] == rest;
  }

  /** `o[k] = x` on a plain object: an existing key keeps its place, a new
      key goes last. */
  function SetProp(props: seq<Prop>, k: string, x: Js): (r: seq<Prop>)
    ensures |r| == if k in Keys(props) then |props| else |props| + 1
  {
    if props == [] then [Prop(k, x)]
    else if props[0].key == k then [Prop(k, x)] + props[1..]
    else
      assert Keys(props) == [props[0].key] + Keys(props[1..]);
      [props[0]] + SetProp(props[1..], k, x)
  }

  /** After `o[k] = x` the key order is the old one with `k` added at the
      end if it is new. */
  lemma {:induction false} SetPropKeys(props: seq<Prop>, k: string, x: Js)
    ensures Keys(SetProp(props, k, x)) == if k in Keys(props) then Keys(props) else Keys(props) + [k]
  {
    if props != [] {
      assert props == [props[0]] + props[1..];
      LookupCons(props[0], props[1..], k);
      if props[0].key == k {
        LookupCons(Prop(k, x), props[1..], k);
      } else {
        SetPropKeys(props[1..], k, x);
        LookupCons(props[0], SetProp(props[1..], k, x), k);
      }
    }
  }

  /** After `o[k] = x`, `o[k]` is `x` and every other key reads as before. */
  lemma {:induction false} SetPropLookup(props: seq<Prop>, k: string, x: Js, j: string)
    ensures Lookup(SetProp(props, k, x), j) == if j == k then Some(x) else Lookup(props, j)
  {
    if props == [] {
      LookupCons(Prop(k, x), [], j);
    } else {
      assert props == [props[0]] + props[1..];
      LookupCons(props[0], props[1..], j);
      if props[0].key == k {
        LookupCons(Prop(k, x), props[1..], j);
      } else {
        SetPropLookup(props[1..], k, x, j);
        LookupCons(props[0], SetProp(props[1..], k, x), j);
      }
    }
  }

  /** The properties every plain object inherits from `Object.prototype`. */
  const ObjectPrototypeNames: seq<string> := [
    "constructor", "hasOwnProperty", "isPrototypeOf", "propertyIsEnumerable",
    "toLocaleString", "toString", "valueOf", "__defineGetter__", "__defineSetter__",
    "__lookupGetter__", "__lookupSetter__", "__proto__" ]

  /** `k` is one of `names`, checked one name at a time. */
  predicate Listed(k: string, names: seq<string>)
    decreases |names|
  {
    names != [] && (names[0] == k || Listed(k, names[1..]))
  }

  /** `k` is inherited by every plain object. */
  predicate IsPrototypeName(k: string) {
    Listed(k, ObjectPrototypeNames)
  }

  /** The schema keys the sanitiser looks up with `in` are not inherited. */
  lemma DefaultNotInherited()
    ensures !IsPrototypeName("default")
  {
    NotListed("default", ObjectPrototypeNames);
  }

  /** A name that differs from every listed one in its length or its first
      character is not listed. */
  lemma {:induction false} NotListed(k: string, names: seq<string>)
    requires k != [] && forall i :: 0 <= i < |names| ==> |names[i]| != |k| || names[i][0] != k[0]
    ensures !Listed(k, names)
    decreases |names|
  {
    if names != [] {
      NotListed(k, names[1..]);
    }
  }

  /** `k in o` for a plain object: own keys and inherited ones. */
  predicate InObject(props: seq<Prop>, k: string) {
    k in Keys(props) || IsPrototypeName(k)
  }

  /** `a === b`. Objects, arrays, regular expressions and functions are
      compared by identity, which values here do not carry; two of them are
      taken to be distinct objects. */
  predicate StrictEquals(a: Js, b: Js) {
    match a
    case Undefined => b.Undefined?
    case Null => b.Null?
    case Bool(x) => b == Bool(x)
    case Num(x) => b == Num(x)
    case Str(x) => b == Str(x)
    case _ => false
  }
}

=== FILE: Optional.dfy ===
/** The conventional Some/None datatype, used for partial conversions. */
module Optional {

  datatype Option<+T> = None | Some(value: T)
}

=== FILE: Properties.dfy ===
/**
 * What `sane` and `validate` promise, stated over the functions of
 * `Semantics`: the absence policy as `sane` applies it, the labels on
 * errors, the unknown-member error, the output of ObjectTester and of
 * `ArrayTester.type`, and what `validate` returns.
 */
module Properties {
  import opened Optional
  import opened JsText
  import opened JsValue
  import opened JsConvert
  import opened Errors
  import opened Types
  import opened Host
  import opened Checks
  import opened Schema
  import opened Semantics

  // ---------------------------------------------------------------------
  // The frame of one call
  // ---------------------------------------------------------------------

  /** A missing value: a `default` is returned as it is, `required: false`
      returns the value, an array schema goes on with `[]`, and otherwise
      the missing-value error leaves this call without a label, since it is
      thrown outside the `try`. */
  lemma SaneAbsent(v: Js, typ: Js, given: Js, env: Env, reg: Registry)
    requires Normalize(typ).Resolved? && IsAbsent(v)
    ensures var norm := Normalize(typ).norm;
      var name := LabelOf(given, norm.schema);
      var d := Get(Obj(norm.schema), "default");
      ("default" in Keys(norm.schema) ==> Sane(v, typ, given, env, reg) == Ok(if d.Func? then d.result else d))
      && ("default" !in Keys(norm.schema) && Lookup(norm.schema, "required") == Some(Bool(false)) ==>
            Sane(v, typ, given, env, reg) == Ok(v))
      && ("default" !in Keys(norm.schema) && Lookup(norm.schema, "required") != Some(Bool(false)) ==>
            Sane(v, typ, given, env, reg) ==
              if norm.name == "array" then Annotate(Frame(Arr([]), typ, norm, env, reg), name)
              else Raised(SaneError(Some("undefined"), Quote(name) + " is missing", [])))
  {
    var norm := Normalize(typ).norm;
    var name := LabelOf(given, norm.schema);
    SaneUnfolds(v, typ, given, env, reg);
    AbsencePrecedence(v, norm, name);
    if "default" in Keys(norm.schema) {
      GetOwn(norm.schema, "default");
    }
  }

  /** Every SaneError that leaves `sane` either carries this call's label
      as its last entry or is the unlabelled missing-value error; anything
      else thrown inside the call leaves it unchanged. */
  lemma SaneLabels(v: Js, typ: Js, given: Js, env: Env, reg: Registry)
    requires Normalize(typ).Resolved?
    ensures var norm := Normalize(typ).norm;
      var name := LabelOf(given, norm.schema);
      var r := Sane(v, typ, given, env, reg);
      (r.Raised? ==>
        (r.err.stack == [] && r.err.kind == Some("undefined") && r.err.message == Quote(name) + " is missing")
        || (|r.err.stack| > 0 && r.err.stack[|r.err.stack| - 1] == name))
      && (Absent(v, norm, name).Proceed? ==>
            var inner := Frame(Absent(v, norm, name).value, typ, norm, env, reg);
            (inner.Crashed? ==> r == inner)
            && (inner.Raised? ==> r == Raised(inner.err.(stack := inner.err.stack + [name]))))
  {
    var norm := Normalize(typ).norm;
    var name := LabelOf(given, norm.schema);
    SaneUnfolds(v, typ, given, env, reg);
    AbsentMissing(v, norm, name);
  }

  /** A schema key that the tester has no member for (a `label` key, say)
      ends the run with a thrown string, which no enclosing call labels
      although it is thrown inside the `try`. */
  lemma UnknownMember(v: Js, typ: Js, given: Js, env: Env, reg: Registry)
    requires Normalize(typ).Resolved? && !IsAbsent(v)
    requires var norm := Normalize(typ).norm;
      norm.tester.Some? && norm.tester.value != Object && reg.construct(norm.tester.value, v, env).Next?
      && |Keys(norm.schema)| > 0 && !(norm.tester.value == Array && Keys(norm.schema)[0] == "type")
      && reg.member(norm.tester.value, Keys(norm.schema)[0]).None?
    ensures var norm := Normalize(typ).norm;
      Sane(v, typ, given, env, reg) ==
        Crashed(Thrown(Quote(Keys(norm.schema)[0]) + " is not a valid function for type " + Quote(norm.name)))
  {
    var norm := Normalize(typ).norm;
    var t := norm.tester.value;
    var st := reg.construct(t, v, env).state;
    var r := RunKeys(st, t, typ, norm, 0, env, reg);
    assert r.Crashed?;
    assert Frame(v, typ, norm, env, reg) == r;
    assert Absent(v, norm, LabelOf(given, norm.schema)) == Proceed(v);
  }

  // ---------------------------------------------------------------------
  // ObjectTester
  // ---------------------------------------------------------------------

  /** `Some(x)` for a call that returned a value other than `undefined`. */
  function Kept(o: Outcome): Option<Js> {
    if o.Ok? && !o.value.Undefined? then Some(o.value) else None
  }

  /** The field loop over a function that gives each field's outcome. */
  function Collect(keys: seq<string>, f: string -> Outcome, i: nat, out: seq<Prop>): Partial<seq<Prop>>
    requires i <= |keys|
    decreases |keys| - i
  {
    if i == |keys| then Done(out)
    else if !f(keys[i]).Ok? then Broke(AbortOf(f(keys[i])))
    else Collect(keys, f, i + 1, if f(keys[i]).value.Undefined? then out else SetProp(out, keys[i], f(keys[i]).value))
  }

  /** The field loop is `Collect` over `sane` on each field. */
  lemma {:induction false} FieldsCollects(v: Js, getter: bool, arg: Js, i: nat, out: seq<Prop>, typ: Js, norm: Norm, env: Env, reg: Registry,
                                          f: string -> Outcome)
    requires Normalize(typ) == Resolved(norm) && arg == ObjectArg(norm.schema)
    requires i <= |ForInKeys(arg)|
    requires forall k :: f(k) == FieldOutcome(v, getter, arg, k, env, reg)
    ensures Fields(v, getter, arg, i, out, typ, norm, env, reg) == Collect(ForInKeys(arg), f, i, out)
    decreases |ForInKeys(arg)| - i
  {
    var keys := ForInKeys(arg);
    if i < |keys| {
      var r := f(keys[i]);
      FieldsStep(v, getter, arg, i, out, typ, norm, env, reg);
      if r.Ok? {
        FieldsCollects(v, getter, arg, i + 1, if r.value.Undefined? then out else SetProp(out, keys[i], r.value), typ, norm, env, reg, f);
      }
    }
  }

  /** When `Collect` runs to its end, every field passed, and the output
      holds exactly the fields whose result is not `undefined`, each with
      its result, on top of what it held before. */
  lemma {:induction false} CollectDone(keys: seq<string>, f: string -> Outcome, i: nat, out: seq<Prop>, res: seq<Prop>)
    requires i <= |keys|
    requires Collect(keys, f, i, out) == Done(res)
    ensures forall j :: i <= j < |keys| ==> f(keys[j]).Ok?
    ensures forall k :: Lookup(res, k) ==
                          (if k in keys[i..] && Kept(f(k)).Some? then Kept(f(k)) else Lookup(out, k))
    decreases |keys| - i
  {
    if i < |keys| {
      var k := keys[i];
      var r := f(k);
      assert r.Ok?;
      var next := if r.value.Undefined? then out else SetProp(out, k, r.value);
      assert Collect(keys, f, i, out) == Collect(keys, f, i + 1, next);
      CollectDone(keys, f, i + 1, next, res);
      forall key: string
        ensures Lookup(res, key) == (if key in keys[i..] && Kept(f(key)).Some? then Kept(f(key)) else Lookup(out, key))
      {
        assert key in keys[i..] <==> key == k || key in keys[i + 1..];
        if !r.value.Undefined? {
          SetPropLookup(out, k, r.value, key);
        }
      }
    }
  }

  /** `strict: false`: every key of the value that `in` does not find in
      the output is copied with its value; the output's own keys and the
      names every object inherits are left alone. */
  lemma {:induction false} CopyExtrasSpec(v: Js, keys: seq<string>, i: nat, out: seq<Prop>, key: string)
    requires i <= |keys|
    ensures Lookup(CopyExtras(v, keys, i, out), key) ==
              (if key !in Keys(out) && key in keys[i..] && !IsPrototypeName(key) then Some(Get(v, key)) else Lookup(out, key))
    decreases |keys| - i
  {
    if i < |keys| {
      var k := keys[i];
      var next := if InObject(out, k) then out else SetProp(out, k, Get(v, k));
      assert CopyExtras(v, keys, i, out) == CopyExtras(v, keys, i + 1, next);
      CopyExtrasSpec(v, keys, i + 1, next, key);
      assert keys[i..] == [k] + keys[i + 1..];
      if !InObject(out, k) {
        SetPropKeys(out, k, Get(v, k));
        SetPropLookup(out, k, Get(v, k), key);
      }
    } else {
      assert keys[i..] == [];
    }
  }

  /** ObjectTester refuses anything that is not an object, with its own
      type; with no declared fields it keeps the value as it is. */
  lemma ObjectStartShapes(v: Js, typ: Js, norm: Norm, env: Env, reg: Registry)
    requires Normalize(typ) == Resolved(norm)
    ensures !IsObjectType(v) ==>
      ObjectStart(v, typ, norm, env, reg) == Stop(Throw(SaneError(Some("object"), ":label is not an object", [])))
    ensures IsObjectType(v) && ForInKeys(ObjectArg(norm.schema)) == [] ==>
      ObjectStart(v, typ, norm, env, reg) == Next(TState(v, Some("object")))
  {
  }

  /** With declared fields, the output holds the declared fields whose
      result is not `undefined`; then `strict: false` adds the undeclared
      keys of the value, `strict: 'throw'` fails on the first of them, and
      any other `strict` drops them. */
  lemma ObjectOutput(v: Js, typ: Js, norm: Norm, env: Env, reg: Registry, out: seq<Prop>)
    requires Normalize(typ) == Resolved(norm) && IsObjectType(v)
    requires ForInKeys(ObjectArg(norm.schema)) != []
    requires Fields(v, Get(v, "get").Func?, ObjectArg(norm.schema), 0, [], typ, norm, env, reg) == Done(out)
    ensures var strict := Get(Obj(norm.schema), "strict");
      var st := TState(v, Some("object"));
      var extra := FirstUnexpected(ForInKeys(v), out);
      (strict == Bool(false) ==>
         ObjectStart(v, typ, norm, env, reg) == Next(TState(Obj(CopyExtras(v, ForInKeys(v), 0, out)), Some("object"))))
      && (strict == Str("throw") && extra.Some? ==>
         ObjectStart(v, typ, norm, env, reg) ==
           Stop(Throw(SaneError(Some("object"), ":label contains unexpected \"" + extra.value + "\"", []))))
      && ((strict == Str("throw") && extra.None?) || (strict != Bool(false) && strict != Str("throw")) ==>
         ObjectStart(v, typ, norm, env, reg) == Next(TState(Obj(out), Some("object"))))
    ensures forall k :: Lookup(out, k) ==
                          (if k in ForInKeys(ObjectArg(norm.schema))
                           then Kept(FieldOutcome(v, Get(v, "get").Func?, ObjectArg(norm.schema), k, env, reg))
                           else None)
  {
    var strict := Get(Obj(norm.schema), "strict");
    assert ObjectStart(v, typ, norm, env, reg) == Strictness(TState(v, Some("object")), out, strict);
    assert StrictEquals(strict, Bool(false)) <==> strict == Bool(false);
    assert StrictEquals(strict, Str("throw")) <==> strict == Str("throw");
    var f := k => FieldOutcome(v, Get(v, "get").Func?, ObjectArg(norm.schema), k, env, reg);
    FieldsCollects(v, Get(v, "get").Func?, ObjectArg(norm.schema), 0, [], typ, norm, env, reg, f);
    CollectDone(ForInKeys(ObjectArg(norm.schema)), f, 0, [], out);
    assert ForInKeys(ObjectArg(norm.schema))[0..] == ForInKeys(ObjectArg(norm.schema));
  }

  // ---------------------------------------------------------------------
  // ArrayTester.type
  // ---------------------------------------------------------------------

  /** The calls of `sane` on each element, with its index as label. */
  function Results(items: seq<Js>, arg: Js, env: Env, reg: Registry): (r: seq<Outcome>)
    ensures |r| == |items| && forall j :: 0 <= j < |items| ==> r[j] == Sane(items[j], arg, Num(j), env, reg)
  {
    seq(|items|, j requires 0 <= j < |items| => Sane(items[j], arg, Num(j), env, reg))
  }

  /** The values of the calls that returned something other than
      `undefined`, in order. */
  function Defined(rs: seq<Outcome>): (r: seq<Js>)
    ensures |r| <= |rs|
  {
    if rs == [] then []
    else (if rs[0].Ok? && !rs[0].value.Undefined? then [rs[0].value] else []) + Defined(rs[1..])
  }

  /** A value is kept exactly when some call returned it and it is not
      `undefined`. */
  lemma {:induction false} DefinedMembers(rs: seq<Outcome>)
    ensures forall x :: x in Defined(rs) <==> exists j :: 0 <= j < |rs| && rs[j] == Ok(x) && !x.Undefined?
    decreases |rs|
  {
    if rs != [] {
      DefinedMembers(rs[1..]);
      forall x
        ensures (exists j :: 0 <= j < |rs| && rs[j] == Ok(x) && !x.Undefined?) ==> x in Defined(rs)
      {
        if j :| 0 <= j < |rs| && rs[j] == Ok(x) && !x.Undefined? {
          if j > 0 {
            assert rs[1..][j - 1] == Ok(x);
          }
        }
      }
    }
  }

  /** The element loop over outcomes already computed. */
  function Gather(rs: seq<Outcome>, i: nat, out: seq<Js>): Partial<seq<Js>>
    requires i <= |rs|
    decreases |rs| - i
  {
    if i == |rs| then Done(out)
    else if !rs[i].Ok? then Broke(AbortOf(rs[i]))
    else Gather(rs, i + 1, if rs[i].value.Undefined? then out else out + [rs[i].value])
  }

  /** The element loop is `Gather` over the calls of `sane` on the
      elements. */
  lemma {:induction false} MapElementsGathers(items: seq<Js>, arg: Js, i: nat, out: seq<Js>, typ: Js, env: Env, reg: Registry, rs: seq<Outcome>)
    requires i <= |items| && Size(arg) < Size(typ) && rs == Results(items, arg, env, reg)
    ensures MapElements(items, arg, i, out, typ, env, reg) == Gather(rs, i, out)
    decreases |items| - i
  {
    if i < |items| {
      var r := rs[i];
      assert r == Sane(items[i], arg, Num(i), env, reg);
      if r.Ok? {
        MapElementsGathers(items, arg, i + 1, if r.value.Undefined? then out else out + [r.value], typ, env, reg, rs);
      }
    }
  }

  /** `Gather` runs to its end exactly when every outcome is a value, and
      then appends the values other than `undefined`, in order. */
  lemma {:induction false} GatherAllPass(rs: seq<Outcome>, i: nat, out: seq<Js>)
    requires i <= |rs|
    requires forall j :: i <= j < |rs| ==> rs[j].Ok?
    ensures Gather(rs, i, out) == Done(out + Defined(rs[i..]))
    decreases |rs| - i
  {
    if i == |rs| {
      assert Defined(rs[i..]) == [];
      assert out + [] == out;
    } else {
      var r := rs[i];
      var front := if r.value.Undefined? then [] else [r.value];
      var next := if r.value.Undefined? then out else out + [r.value];
      assert next == out + front;
      GatherAllPass(rs, i + 1, next);
      assert rs[i..][0] == r && rs[i..][1..] == rs[i + 1..];
      assert Defined(rs[i..]) == front + Defined(rs[i + 1..]);
      assert out + front + Defined(rs[i + 1..]) == out + (front + Defined(rs[i + 1..]));
    }
  }

  /** `Gather` stops at the first outcome that is not a value. */
  lemma {:induction false} GatherFirstFailure(rs: seq<Outcome>, i: nat, out: seq<Js>, j: nat)
    requires i <= j < |rs|
    requires forall l :: i <= l < j ==> rs[l].Ok?
    requires !rs[j].Ok?
    ensures Gather(rs, i, out) == Broke(AbortOf(rs[j]))
    decreases j - i
  {
    if i < j {
      GatherFirstFailure(rs, i + 1, if rs[i].value.Undefined? then out else out + [rs[i].value], j);
    }
  }

  /** `type(c)` on an array: when every element passes, the elements are
      mapped through `sane` in order, with their indices as labels, and
      the results that are `undefined` are left out; otherwise what the
      first failing element threw is thrown. */
  lemma ArrayElements(items: seq<Js>, arg: Js, typ: Js, env: Env, reg: Registry)
    requires Size(arg) < Size(typ)
    ensures var rs := Results(items, arg, env, reg);
      ((forall j :: 0 <= j < |items| ==> rs[j].Ok?) ==>
         MapElements(items, arg, 0, [], typ, env, reg) == Done(Defined(rs)))
      && (forall j :: 0 <= j < |items| && !rs[j].Ok? && (forall l :: 0 <= l < j ==> rs[l].Ok?) ==>
         MapElements(items, arg, 0, [], typ, env, reg) == Broke(AbortOf(rs[j])))
  {
    var rs := Results(items, arg, env, reg);
    MapElementsGathers(items, arg, 0, [], typ, env, reg, rs);
    if forall j :: 0 <= j < |items| ==> rs[j].Ok? {
      GatherAllPass(rs, 0, []);
      assert rs[0..] == rs;
      assert [] + Defined(rs) == Defined(rs);
    }
    forall j | 0 <= j < |items| && !rs[j].Ok? && (forall l :: 0 <= l < j ==> rs[l].Ok?)
      ensures MapElements(items, arg, 0, [], typ, env, reg) == Broke(AbortOf(rs[j]))
    {
      GatherFirstFailure(rs, 0, [], j);
    }
  }

  // ---------------------------------------------------------------------
  // validate
  // ---------------------------------------------------------------------

  /** `validate` answers `true` exactly when `sane` returns (whatever it
      returns), gives back exactly the SaneError that `sane` throws, and
      lets everything else through. */
  lemma ValidateMatchesSane(v: Js, typ: Js, given: Js, env: Env, reg: Registry)
    ensures Validate(v, typ, given, env, reg) == Valid <==> Sane(v, typ, given, env, reg).Ok?
    ensures forall e :: Validate(v, typ, given, env, reg) == Invalid(e) <==> Sane(v, typ, given, env, reg) == Raised(e)
    ensures forall f :: Validate(v, typ, given, env, reg) == Throws(f) <==> Sane(v, typ, given, env, reg) == Crashed(f)
  {
  }
}

=== FILE: Sanitiser.dfy ===
/**
 * The sanitiser as the source runs it (index.js:236-320, 390-515): a
 * tester object whose `value` and `_type` the constructor and the members
 * update in place, the loops of the ObjectTester constructor, of
 * `ArrayTester.type` and of `sane` over the schema's keys, and the label
 * the catch block pushes onto a SaneError. Every method is proved to
 * compute what the functions of `Semantics` say.
 */
module Sanitiser {
  import opened Optional
  import opened JsValue
  import opened Errors
  import opened Types
  import opened Host
  import opened Checks
  import opened Schema
  import Semantics

  /** A tester: the value being sanitised and its `_type`. */
  class Tester {
    var value: Js
    var kind: Option<string>

    /** The tester a constructor leaves behind. */
    constructor (st: TState)
      ensures value == st.value && kind == st.kind
    {
      value := st.value;
      kind := st.kind;
    }

    function State(): TState
      reads this
    {
      TState(value, kind)
    }

    /** `tester[attrib](schema[attrib])` for every member but `type` of
        ArrayTester: the member either updates the tester or throws. */
    method Call(op: Op, arg: Js, env: Env, reg: Semantics.Registry) returns (abort: Option<Abort>)
      modifies this
      ensures var s := reg.call(op, old(State()), arg, env);
        (s.Next? ==> abort == None && State() == s.state)
        && (s.Stop? ==> abort == Some(s.abort) && State() == old(State()))
    {
      match reg.call(op, State(), arg, env)
      case Next(st) =>
        value := st.value;
        kind := st.kind;
        abort := None;
      case Stop(a) =>
        abort := Some(a);
    }

    /** `for (let attrib in schema)`: the member each key names is called
        on this tester in key order, and the tester's value is the result. */
    method RunKeys(t: TypeName, typ: Js, norm: Norm, env: Env, reg: Semantics.Registry) returns (r: Semantics.Outcome)
      requires Normalize(typ) == Resolved(norm) && norm.tester == Some(t)
      modifies this
      ensures r == Semantics.RunKeys(old(State()), t, typ, norm, 0, env, reg)
      decreases Size(typ), 2, 1
    {
      var keys := Keys(norm.schema);
      var i := 0;
      while i < |keys|
        invariant 0 <= i <= |keys|
        invariant Semantics.RunKeys(State(), t, typ, norm, i, env, reg) == Semantics.RunKeys(old(State()), t, typ, norm, 0, env, reg)
        decreases |keys| - i
      {
        var stop := Member(t, typ, norm, i, env, reg);
        if stop.Some? {
          return stop.value;
        }
        i := i + 1;
      }
      r := Semantics.Ok(value);
    }

    /** One turn of `for (let attrib in schema)`: the `i`-th key names the
        member to call, or the run ends. */
    method Member(t: TypeName, typ: Js, norm: Norm, i: nat, env: Env, reg: Semantics.Registry) returns (stop: Option<Semantics.Outcome>)
      requires Normalize(typ) == Resolved(norm) && norm.tester == Some(t)
      requires i < |Keys(norm.schema)|
      modifies this
      ensures stop.Some? ==> Semantics.RunKeys(old(State()), t, typ, norm, i, env, reg) == stop.value
      ensures stop.None? ==> Semantics.RunKeys(old(State()), t, typ, norm, i, env, reg) == Semantics.RunKeys(State(), t, typ, norm, i + 1, env, reg)
      decreases Size(typ), 2, 0
    {
      ghost var st := State();
      var k := Keys(norm.schema)[i];
      var abort;
      if t == Array && k == "type" {
        Semantics.RunKeysElementType(st, typ, norm, i, env, reg);
        abort := Type(typ, norm, env, reg);
        return if abort.Some? then Some(Semantics.Lift(abort.value)) else None;
      }
      var member := reg.member(t, k);
      if member.None? {
        Semantics.RunKeysUnknown(st, t, typ, norm, i, env, reg);
        return Some(Semantics.Crashed(Thrown(Quote(k) + " is not a valid function for type " + Quote(norm.name))));
      }
      Semantics.RunKeysStep(st, t, typ, norm, i, env, reg);
      abort := Call(member.value, Get(Obj(norm.schema), k), env, reg);
      stop := if abort.Some? then Some(Semantics.Lift(abort.value)) else None;
    }

    /** `type(arg)` of ArrayTester (index.js:307-316): every element goes
        through `sane` with its index as label, the results that are not
        `undefined` are collected, and the collection becomes the value. */
    method Type(typ: Js, norm: Norm, env: Env, reg: Semantics.Registry) returns (abort: Option<Abort>)
      requires Normalize(typ) == Resolved(norm) && norm.tester == Some(Array)
      requires "type" in Keys(norm.schema)
      modifies this
      ensures var s := Semantics.ElementTypeStep(old(State()), typ, norm, env, reg);
        (s.Next? ==> abort == None && State() == s.state)
        && (s.Stop? ==> abort == Some(s.abort) && State() == old(State()))
      decreases Size(typ), 1, 0
    {
      ghost var start := State();
      var arg := Get(Obj(norm.schema), "type");
      if IsNullish(value) {
        Semantics.ElementTypeNullish(start, typ, norm, env, reg);
        return Some(Crash(TypeError));
      }
      ElementSchemaSmaller(typ, norm);
      var items := Semantics.ElementsOf(value);
      Semantics.ElementTypeUnfolds(start, typ, norm, env, reg);
      var m := Elements(items, arg, typ, env, reg);
      if m.Broke? {
        return Some(m.abort);
      }
      value := Arr(m.result);
      abort := None;
    }
  }

  /** The loop of `ArrayTester.type` (index.js:309-314): every element
      through `sane` under the element schema with its index as label,
      keeping the results that are not `undefined`, until one fails. */
  method Elements(items: seq<Js>, arg: Js, typ: Js, env: Env, reg: Semantics.Registry) returns (m: Semantics.Partial<seq<Js>>)
    requires Size(arg) < Size(typ)
    ensures m == Semantics.MapElements(items, arg, 0, [], typ, env, reg)
    decreases Size(typ), 0, 0
  {
    var out: seq<Js> := [];
    var i := 0;
    while i < |items|
      invariant 0 <= i <= |items|
      invariant Semantics.MapElements(items, arg, i, out, typ, env, reg) == Semantics.MapElements(items, arg, 0, [], typ, env, reg)
      decreases |items| - i
    {
      var r := Sane(items[i], arg, Num(i), env, reg);
      Semantics.MapElementsStep(items, arg, i, out, typ, env, reg);
      if !r.Ok? {
        return Semantics.Broke(Semantics.AbortOf(r));
      }
      if !r.value.Undefined? {
        out := out + [r.value];
      }
      i := i + 1;
    }
    Semantics.MapElementsEnd(items, arg, out, typ, env, reg);
    m := Semantics.Done(out);
  }

  /** `sane(value, type, label)` (index.js:390-497). */
  method Sane(v: Js, typ: Js, given: Js, env: Env, reg: Semantics.Registry) returns (r: Semantics.Outcome)
    ensures r == Semantics.Sane(v, typ, given, env, reg)
    decreases Size(typ), 4, 0
  {
    var n := Normalize(typ);
    if n.Rejected? {
      return Semantics.Crashed(n.fault);
    }
    var norm := n.norm;
    var name := LabelOf(given, norm.schema);
    var a := Absent(v, norm, name);
    Semantics.SaneUnfolds(v, typ, given, env, reg);
    if a.Return? {
      return Semantics.Ok(a.value);
    } else if a.Missing? {
      return Semantics.Raised(a.err);
    }
    r := Run(a.value, typ, norm, env, reg);
    if r.Raised? {
      // the catch block pushes this call's label onto the error
      r := Semantics.Raised(Push(r.err, name));
    }
  }

  /** The `try` block: construct the tester, then call the member that
      every schema key names, in key order. */
  method Run(v: Js, typ: Js, norm: Norm, env: Env, reg: Semantics.Registry) returns (r: Semantics.Outcome)
    requires Normalize(typ) == Resolved(norm)
    ensures r == Semantics.Frame(v, typ, norm, env, reg)
    decreases Size(typ), 3, 0
  {
    if norm.tester.None? {
      // a name inherited from Object.prototype (`new` of it is a TypeError,
      // and `constructor` is taken to be one of them)
      return Semantics.Crashed(TypeError);
    }
    var t := norm.tester.value;
    Semantics.FrameUnfolds(v, typ, norm, env, reg);
    var s;
    if t == Object {
      s := NewObjectTester(v, typ, norm, env, reg);
    } else {
      s := reg.construct(t, v, env);
    }
    if s.Stop? {
      return Semantics.Lift(s.abort);
    }
    var tester := new Tester(s.state);
    r := tester.RunKeys(t, typ, norm, env, reg);
  }

  /** The constructor of ObjectTester (index.js:238-291). */
  method NewObjectTester(v: Js, typ: Js, norm: Norm, env: Env, reg: Semantics.Registry) returns (s: Step)
    requires Normalize(typ) == Resolved(norm)
    ensures s == Semantics.ObjectStart(v, typ, norm, env, reg)
    decreases Size(typ), 2, 0
  {
    var st := TState(v, Some("object"));
    if !IsObjectType(v) {
      return Fail(st, ":label is not an object");
    }
    var getter := Get(v, "get").Func?;
    var arg := ObjectArg(norm.schema);
    var fields := ForInKeys(arg);
    Semantics.ObjectStartUnfolds(v, typ, norm, env, reg);
    var out: seq<Prop> := [];
    var i := 0;
    while i < |fields|
      invariant 0 <= i <= |fields|
      invariant Semantics.Fields(v, getter, arg, i, out, typ, norm, env, reg) == Semantics.Fields(v, getter, arg, 0, [], typ, norm, env, reg)
      decreases |fields| - i
    {
      var k := fields[i];
      FieldSchemaSmaller(typ, norm, k);
      var r := Sane(Semantics.FieldValue(v, getter, k, env), Get(arg, k), Str(k), env, reg);
      Semantics.FieldsStep(v, getter, arg, i, out, typ, norm, env, reg);
      if !r.Ok? {
        return Stop(Semantics.AbortOf(r));
      }
      if !r.value.Undefined? {
        out := SetProp(out, k, r.value);
      }
      i := i + 1;
    }
    if fields == [] {
      // no declared fields: the value is kept as it is
      return Next(st);
    }
    s := Strict(st, out, Get(Obj(norm.schema), "strict"));
  }

  /** The `strict` handling at the end of the ObjectTester constructor
      (index.js:274-290). */
  method Strict(st: TState, out: seq<Prop>, strict: Js) returns (s: Step)
    ensures s == Semantics.Strictness(st, out, strict)
  {
    var keys := ForInKeys(st.value);
    if StrictEquals(strict, Bool(false)) {
      var all := out;
      var i := 0;
      while i < |keys|
        invariant 0 <= i <= |keys|
        invariant Semantics.CopyExtras(st.value, keys, i, all) == Semantics.CopyExtras(st.value, keys, 0, out)
        decreases |keys| - i
      {
        if !InObject(all, keys[i]) {
          all := SetProp(all, keys[i], Get(st.value, keys[i]));
        }
        i := i + 1;
      }
      return Next(st.(value := Obj(all)));
    }
    if StrictEquals(strict, Str("throw")) {
      var i := 0;
      while i < |keys|
        invariant 0 <= i <= |keys|
        invariant Semantics.FirstUnexpected(keys[i..], out) == Semantics.FirstUnexpected(keys, out)
        decreases |keys| - i
      {
        if !InObject(out, keys[i]) {
          return Fail(st, ":label contains unexpected \"" + keys[i] + "\"");
        }
        i := i + 1;
      }
    }
    s := Next(st.(value := Obj(out)));
  }

  /** `validate(obj, schema, name)` (index.js:500-515). */
  method Validate(v: Js, typ: Js, given: Js, env: Env, reg: Semantics.Registry) returns (verdict: Semantics.Verdict)
    ensures verdict == Semantics.Validate(v, typ, given, env, reg)
  {
    var r := Sane(v, typ, given, env, reg);
    match r
    case Ok(_) =>
      verdict := Semantics.Valid;
    case Raised(e) =>
      verdict := Semantics.Invalid(e);
    case Crashed(f) =>
      verdict := Semantics.Throws(f);
  }
}

=== FILE: Scenarios.dfy ===
/**
 * The sanitiser with the library's own testers: the functions of
 * `Semantics` applied to `Library`, the closed table of index.js:98-383.
 * The schema keys keep the tester's `_type`, so every error of a flat
 * schema names its type and the label of the call, and a few whole calls
 * of `sane` are worked out.
 */
module Scenarios {
  import opened Optional
  import opened JsText
  import opened JsValue
  import opened Errors
  import opened Types
  import opened Host
  import opened Checks
  import opened Schema
  import opened Semantics

  /** The table finds the members `Resolve` finds. */
  lemma LibraryMember(t: TypeName, k: string)
    ensures Library.member(t, k) == Resolve(t, k)
  {
  }

  /** A member other than `ArrayTester.type` keeps the tester's `_type`
      and raises errors of that `_type` only. */
  lemma LibraryCallKeepsKind(op: Op, st: TState, arg: Js, env: Env)
    requires op != ElementType
    ensures KeepsKind(st, Library.call(op, st, arg, env))
  {
    ApplyOpErrorKind(op, st, arg, env);
    assert Library.call(op, st, arg, env) == ApplyOp(op, st, arg, env);
  }

  /** With the library's testers, the keys of a schema for any class but
      ArrayTester never change the tester's `_type`, and every SaneError
      they raise carries that `_type` and no label yet (index.js:51-54,
      478-483). */
  lemma {:induction false} RunKeysKeepsKind(st: TState, t: TypeName, typ: Js, norm: Norm, i: nat, env: Env)
    requires Normalize(typ) == Resolved(norm) && norm.tester == Some(t) && t != Array
    requires i <= |Keys(norm.schema)|
    ensures var r := RunKeys(st, t, typ, norm, i, env, Library);
      r.Raised? ==> r.err.kind == st.kind && r.err.stack == []
    decreases |Keys(norm.schema)| - i
  {
    if i < |Keys(norm.schema)| {
      var k := Keys(norm.schema)[i];
      if Library.member(t, k).None? {
        KeyUnknown(st, t, typ, norm, i, env);
      } else {
        KeyKeepsKind(st, t, typ, norm, i, env);
        var next := Passed(st, t, k, Get(Obj(norm.schema), k), env);
        if next.Some? {
          RunKeysKeepsKind(next.value, t, typ, norm, i + 1, env);
        }
      }
    }
  }

  /** The tester the member a key names leaves behind, if it passes. */
  function Passed(st: TState, t: TypeName, k: string, arg: Js, env: Env): Option<TState> {
    match Library.member(t, k)
    case None => None
    case Some(op) =>
      var s := Library.call(op, st, arg, env);
      if s.Next? then Some(s.state) else None
  }

  /** A key with no member ends the run with a thrown string. */
  lemma KeyUnknown(st: TState, t: TypeName, typ: Js, norm: Norm, i: nat, env: Env)
    requires Normalize(typ) == Resolved(norm) && norm.tester == Some(t) && t != Array
    requires i < |Keys(norm.schema)| && Library.member(t, Keys(norm.schema)[i]).None?
    ensures RunKeys(st, t, typ, norm, i, env, Library).Crashed?
  {
    RunKeysUnknown(st, t, typ, norm, i, env, Library);
  }

  /** One key with a member: it either passes and hands on a tester of
      the same `_type`, or ends the run, raising an error of that `_type`
      if any. */
  lemma KeyKeepsKind(st: TState, t: TypeName, typ: Js, norm: Norm, i: nat, env: Env)
    requires Normalize(typ) == Resolved(norm) && norm.tester == Some(t) && t != Array
    requires i < |Keys(norm.schema)| && Library.member(t, Keys(norm.schema)[i]).Some?
    ensures var k := Keys(norm.schema)[i];
      var r := RunKeys(st, t, typ, norm, i, env, Library);
      var next := Passed(st, t, k, Get(Obj(norm.schema), k), env);
      (next.None? ==> (r.Raised? ==> r.err.kind == st.kind && r.err.stack == []))
      && (next.Some? ==> next.value.kind == st.kind && r == RunKeys(next.value, t, typ, norm, i + 1, env, Library))
  {
    var k := Keys(norm.schema)[i];
    LibraryMember(t, k);
    RunKeysStep(st, t, typ, norm, i, env, Library);
    LibraryCallKeepsKind(Library.member(t, k).value, st, Get(Obj(norm.schema), k), env);
  }

  /** The frame of a schema for any class but ObjectTester and ArrayTester
      raises only errors of its own type without a label; the one
      exception is a string the integer tester cannot read, which the
      parent constructor reports as a `number` (index.js:328-334, 356). */
  lemma FrameKind(v: Js, typ: Js, norm: Norm, env: Env)
    requires Normalize(typ) == Resolved(norm) && norm.tester.Some?
    requires norm.tester.value != Object && norm.tester.value != Array
    ensures var t := norm.tester.value;
      var r := Frame(v, typ, norm, env, Library);
      r.Raised? ==> r.err.stack == [] && (r.err.kind == Kind(t) || (t == Integer && r.err.kind == Some("number")))
  {
    var t := norm.tester.value;
    FrameUnfolds(v, typ, norm, env, Library);
    assert Library.construct(t, v, env) == Start(t, v, env);
    StartKind(t, v, env);
    var s := Start(t, v, env);
    if s.Next? {
      RunKeysKeepsKind(s.state, t, typ, norm, 0, env);
    }
  }

  /** A call of `sane` on a flat schema raises either the missing-value
      error or an error of the schema's type whose label stack is exactly
      this call's label. */
  lemma FlatErrors(v: Js, typ: Js, given: Js, env: Env)
    requires Normalize(typ).Resolved? && Normalize(typ).norm.tester.Some?
    requires Normalize(typ).norm.tester.value != Object && Normalize(typ).norm.tester.value != Array
    ensures var norm := Normalize(typ).norm;
      var t := norm.tester.value;
      var name := LabelOf(given, norm.schema);
      var r := Sane(v, typ, given, env, Library);
      r.Raised? ==>
        r.err == SaneError(Some("undefined"), Quote(name) + " is missing", [])
        || (r.err.stack == [name] && (r.err.kind == Kind(t) || (t == Integer && r.err.kind == Some("number"))))
  {
    var norm := Normalize(typ).norm;
    var name := LabelOf(given, norm.schema);
    SaneUnfolds(v, typ, given, env, Library);
    AbsentMissing(v, norm, name);
    var a := Absent(v, norm, name);
    if a.Proceed? {
      FrameKind(a.value, typ, norm, env);
    }
  }

  /** `validate` on a flat schema returns `true` exactly when `sane`
      returns, and the SaneError it returns instead of throwing is the
      missing-value error or an error of the schema's type that names
      exactly this call's label (index.js:500-515). */
  lemma FlatVerdicts(v: Js, typ: Js, given: Js, env: Env)
    requires Normalize(typ).Resolved? && Normalize(typ).norm.tester.Some?
    requires Normalize(typ).norm.tester.value != Object && Normalize(typ).norm.tester.value != Array
    ensures Validate(v, typ, given, env, Library) == Valid <==> Sane(v, typ, given, env, Library).Ok?
    ensures var norm := Normalize(typ).norm;
      var t := norm.tester.value;
      var name := LabelOf(given, norm.schema);
      var r := Validate(v, typ, given, env, Library);
      r.Invalid? ==>
        r.err == SaneError(Some("undefined"), Quote(name) + " is missing", [])
        || (r.err.stack == [name] && (r.err.kind == Kind(t) || (t == Integer && r.err.kind == Some("number"))))
  {
    FlatErrors(v, typ, given, env);
  }

  // ---------------------------------------------------------------------
  // Whole calls
  // ---------------------------------------------------------------------

  /** A type name on its own resolves to its tester with an empty schema
      map (index.js:428-441). */
  lemma NameResolves(t: TypeName)
    ensures Normalize(Str(Name(t))) == Resolved(Norm(Name(t), Some(t), []))
  {
    NamedShorthands("", Undefined, Name(t));
    FindOutcomes(t, Name(t), []);
  }

  /** With an empty schema map the frame is the constructor alone. */
  lemma ConstructorOnly(v: Js, typ: Js, t: TypeName, env: Env)
    requires t != Object && Normalize(typ) == Resolved(Norm(Name(t), Some(t), []))
    ensures var s := Start(t, v, env);
      Frame(v, typ, Norm(Name(t), Some(t), []), env, Library) == if s.Next? then Ok(s.state.value) else Lift(s.abort)
  {
    var norm := Norm(Name(t), Some(t), []);
    FrameUnfolds(v, typ, norm, env, Library);
    assert Library.construct(t, v, env) == Start(t, v, env);
    assert Keys(norm.schema) == [];
  }

  /** `sane(value, name)` for a value that is present: the constructor of
      the named tester decides alone, and a SaneError it throws gets the
      call's label. */
  lemma BareName(v: Js, t: TypeName, given: Js, env: Env)
    requires t != Object && !IsAbsent(v)
    ensures var s := Start(t, v, env);
      Sane(v, Str(Name(t)), given, env, Library) ==
        if s.Next? then Ok(s.state.value) else Annotate(Lift(s.abort), LabelOf(given, []))
  {
    var norm := Norm(Name(t), Some(t), []);
    NameResolves(t);
    SaneUnfolds(v, Str(Name(t)), given, env, Library);
    AbsencePrecedence(v, norm, LabelOf(given, []));
    ConstructorOnly(v, Str(Name(t)), t, env);
  }

  /** `sane("42", "integer")` is 42 (`Name(Integer)` is "integer"). */
  lemma IntegerReads(env: Env)
    ensures Sane(Str("42"), Str(Name(Integer)), Undefined, env, Library) == Ok(Num(42))
  {
    BareName(Str("42"), Integer, Undefined, env);
    IntegerReads42(env);
  }

  lemma IntegerReads42(env: Env)
    ensures Start(Integer, Str("42"), env) == Next(TState(Num(42), Some("integer")))
  {
    IntToStrParseFloat(42, []);
    assert IntToStr(42) + [] == "42";
    IntegerFromPrefix("42", 42, env);
  }

  /** `sane("abc", "integer")` raises the parent constructor's `number`
      error under the label `value`. */
  lemma IntegerRefuses(env: Env)
    ensures Sane(Str("abc"), Str(Name(Integer)), Undefined, env, Library)
      == Raised(SaneError(Some("number"), NotANumber, ["value"]))
  {
    IntegerRefusesAbc(env);
    BareNameRaises(Str("abc"), Integer, Undefined, env, SaneError(Some("number"), NotANumber, []));
    DefaultLabel();
  }

  /** A constructor that throws a SaneError makes `sane` raise it with the
      call's label as its only label. */
  lemma BareNameRaises(v: Js, t: TypeName, given: Js, env: Env, e: SaneError)
    requires t != Object && !IsAbsent(v) && Start(t, v, env) == Stop(Throw(e)) && e.stack == []
    ensures Sane(v, Str(Name(t)), given, env, Library) == Raised(e.(stack := [LabelOf(given, [])]))
  {
    BareName(v, t, given, env);
  }

  lemma IntegerRefusesAbc(env: Env)
    ensures Start(Integer, Str("abc"), env) == Stop(Throw(SaneError(Some("number"), NotANumber, [])))
  {
    IntegerFailsAsNumber("abc", env);
  }

  /** With no label given and none in the schema, the label is `value`
      (index.js:444). */
  lemma DefaultLabel()
    ensures LabelOf(Undefined, []) == "value"
  {
  }

  /** The error above renders as `"value" could not be converted to a
      number`. */
  lemma IntegerMessage()
    ensures Render(SaneError(Some("number"), NotANumber, ["value"]))
      == Quote("value") + " could not be converted to a number"
  {
    RenderLeading(Some("number"), " could not be converted to a number", "value");
  }
}

=== FILE: Schema.dfy ===
/**
 * The first half of `sane` (index.js:392-470): how the `type` argument
 * becomes a type name and a schema map, how the label is chosen, and what
 * happens to a missing value.
 *
 * The source writes the resolved element schema, regular expression or
 * field map back into `schema.type`, which for a canonical schema is the
 * caller's own object; here the resolved schema is a fresh value.
 */
module Schema {
  import opened Optional
  import opened JsText
  import opened JsValue
  import opened JsConvert
  import opened Errors
  import opened Types

  /** A resolved schema: the type name, the tester class registered under
      it and the schema map whose keys are run as members. The tester is
      `None` for a name the registry only inherits from `Object.prototype`:
      all of them but `constructor` are no constructors, and `constructor`,
      which is `Object` itself, is treated like them here. */
  datatype Norm = Norm(name: string, tester: Option<TypeName>, schema: seq<Prop>)

  datatype Normalized = Resolved(norm: Norm) | Rejected(fault: Fault)

  /** A schema object that names its type: `typeof type === 'object' &&
      'type' in type`. */
  predicate IsCanonical(typ: Js) {
    typ.Obj? && "type" in Keys(typ.props)
  }

  /** Lines 392-441: unwrap a canonical schema, then resolve the shorthand
      by the kind of value it is. `'type' in null` is a TypeError. */
  function Normalize(typ: Js): Normalized {
    if typ.Null? then Rejected(TypeError)
    else if IsCanonical(typ) then Classify(Get(typ, "type"), typ.props)
    else Classify(typ, [])
  }

  /** The `switch (typeof type)` of lines 400-441, given the schema map so
      far: an array of more than one schema and a value that is not a
      schema are refused, anything else is looked up by its name. */
  function Classify(ty: Js, schema: seq<Prop>): Normalized {
    if ty.Arr? && |ty.items| > 1 then Rejected(Thrown("Schema array has more than 1 item"))
    else if ty.Undefined? || ty.Num? then Rejected(Thrown("Schema is undefined"))
    else Find(ShorthandName(ty), ShorthandSchema(ty, schema))
  }

  /** The type name a schema value stands for. */
  function ShorthandName(ty: Js): string
    requires !ty.Undefined? && !ty.Num?
  {
    match ty
    case Arr(_) => "array"
    case Regex(_) => "regexp"
    case Obj(_) => "object"
    case Null => "object"
    case Bool(b) => if b then "mixed" else "forbidden"
    case Func(name, _) => AsciiLower(name)
    case Str(s) => s
  }

  /** The schema map after `schema.type` has been set (lines 405, 412,
      416): the element schema of an array, `mixed` for `[]`, and the
      value itself for a regular expression, a field map or null. */
  function ShorthandSchema(ty: Js, schema: seq<Prop>): seq<Prop> {
    if ty.Arr? then SetProp(schema, "type", if |ty.items| == 1 then ty.items[0] else Str("mixed"))
    else if ty.Regex? || ty.Obj? || ty.Null? then SetProp(schema, "type", ty)
    else schema
  }

  /** `types[type]` (lines 438-441). The registry is a plain object, so the
      members of `Object.prototype` are found too. */
  function Find(name: string, schema: seq<Prop>): (r: Normalized)
    ensures r.Resolved? ==> r.norm.name == name && r.norm.schema == schema && r.norm.tester == Registered(name)
  {
    if Registered(name).Some? then Resolved(Norm(name, Registered(name), schema))
    else if IsPrototypeName(name) then Resolved(Norm(name, None, schema))
    else Rejected(Thrown(Quote(name) + " is not a known schema type"))
  }

  /** `label || schema.label || 'value'` (line 444), as a string. */
  function LabelOf(given: Js, schema: seq<Prop>): string {
    var fromSchema := Get(Obj(schema), "label");
    ToStr(if Truthy(given) then given else if Truthy(fromSchema) then fromSchema else Str("value"))
  }

  /** Undefined, null and the empty string count as missing (line 447). */
  predicate IsAbsent(v: Js) {
    v.Undefined? || v.Null? || v == Str("")
  }

  /** The outcome of the absence policy: return at once, go on to the
      tester with this value, or throw the missing-value error. */
  datatype Absence = Return(value: Js) | Proceed(value: Js) | Missing(err: SaneError)

  /** Lines 447-470. The missing-value error is thrown outside the `try`,
      so this frame does not add its label to it. */
  function Absent(v: Js, norm: Norm, name: string): Absence {
    var schema := Obj(norm.schema);
    if !IsAbsent(v) then Proceed(v)
    else if InObject(norm.schema, "default") then
      var d := Get(schema, "default");
      Return(if d.Func? then d.result else d)
    else if StrictEquals(Get(schema, "required"), Bool(false)) then Return(v)
    else if norm.name == "array" then Proceed(Arr([]))
    else Missing(SaneError(Some("undefined"), Quote(name) + " is missing", []))
  }

  /** The field map ObjectTester walks: `schema.type || {}` (line 250). */
  function ObjectArg(schema: seq<Prop>): Js {
    var a := Get(Obj(schema), "type");
    if Truthy(a) then a else Obj([])
  }

  // ---------------------------------------------------------------------
  // Properties
  // ---------------------------------------------------------------------

  /** A registered name resolves to its own tester with the schema map
      unchanged; an `Object.prototype` member resolves to no tester; any
      other name is refused with a thrown string, not a SaneError. */
  lemma FindOutcomes(t: TypeName, name: string, schema: seq<Prop>)
    ensures Find(Name(t), schema) == Resolved(Norm(Name(t), Some(t), schema))
    ensures IsPrototypeName(name) ==> Find(name, schema).Resolved?
    ensures Registered(name).None? && !IsPrototypeName(name) ==>
      Find(name, schema) == Rejected(Thrown(Quote(name) + " is not a known schema type"))
  {
    RegistryRoundTrip(t, name);
  }

  /** The array shorthands: `[c]` is an array of `c`, `[]` an array of
      `mixed`, and a longer array is refused with a thrown string. */
  lemma ArrayShorthands(c: Js, d: Js, e: Js)
    ensures Normalize(Arr([c])) == Find("array", [Prop("type", c)])
    ensures Normalize(Arr([])) == Find("array", [Prop("type", Str("mixed"))])
    ensures Normalize(Arr([c, d])) == Rejected(Thrown("Schema array has more than 1 item"))
    ensures Normalize(Arr([c, d, e])) == Rejected(Thrown("Schema array has more than 1 item"))
  {
    BareSchema(Arr([c]));
    BareSchema(Arr([]));
    BareSchema(Arr([c, d]));
    BareSchema(Arr([c, d, e]));
    assert SetProp([], "type", c) == [Prop("type", c)];
    assert SetProp([], "type", Str("mixed")) == [Prop("type", Str("mixed"))];
  }

  /** A schema value that is not an object is resolved as a shorthand with
      an empty schema map. */
  lemma BareSchema(typ: Js)
    requires !typ.Obj? && !typ.Null?
    ensures Normalize(typ) == Classify(typ, [])
  {
  }

  /** The other shorthands: `true` and `false` are `mixed` and
      `forbidden`, a regular expression is `regexp` with itself as pattern,
      and a field map is `object` with itself as fields. */
  lemma ValueShorthands(source: string, fields: seq<Prop>)
    requires "type" !in Keys(fields)
    ensures Normalize(Bool(true)) == Find("mixed", [])
    ensures Normalize(Bool(false)) == Find("forbidden", [])
    ensures Normalize(Regex(source)) == Find("regexp", [Prop("type", Regex(source))])
    ensures Normalize(Obj(fields)) == Find("object", [Prop("type", Obj(fields))])
  {
    assert !IsCanonical(Obj(fields));
  }

  /** A constructor stands for its lower-cased name and a string for
      itself. */
  lemma NamedShorthands(name: string, e: Js, s: string)
    ensures Normalize(Func(name, e)) == Find(AsciiLower(name), [])
    ensures Normalize(Str(s)) == Find(s, [])
  {
    BareSchema(Func(name, e));
    BareSchema(Str(s));
  }

  /** Numbers and `undefined` are not schemas, and asking whether null has
      a `type` key is a TypeError. */
  lemma NonSchemas(n: int)
    ensures Normalize(Num(n)) == Rejected(Thrown("Schema is undefined"))
    ensures Normalize(Undefined) == Rejected(Thrown("Schema is undefined"))
    ensures Normalize(Null) == Rejected(TypeError)
  {
  }

  /** A canonical schema keeps its own keys in their order; only `type` is
      replaced, by the element schema for an array shorthand. */
  lemma CanonicalArray(props: seq<Prop>, c: Js)
    requires Lookup(props, "type") == Some(Arr([c]))
    ensures Normalize(Obj(props)) == Find("array", SetProp(props, "type", c))
    ensures Keys(SetProp(props, "type", c)) == Keys(props)
    ensures Lookup(SetProp(props, "type", c), "type") == Some(c)
  {
    SetPropKeys(props, "type", c);
    SetPropLookup(props, "type", c, "type");
    GetOwn(props, "type");
    OneElementShorthand(c, props);
  }

  /** An array of one schema stands for "array" with that schema as `type`. */
  lemma OneElementShorthand(c: Js, schema: seq<Prop>)
    ensures Classify(Arr([c]), schema) == Find("array", SetProp(schema, "type", c))
  {
    var ty := Arr([c]);
    ClassifyFinds(ty, schema);
    assert ShorthandName(ty) == "array";
    assert ShorthandSchema(ty, schema) == SetProp(schema, "type", c);
  }

  /** A schema value that is neither refused nor a number is looked up by
      the name it stands for. */
  lemma ClassifyFinds(ty: Js, schema: seq<Prop>)
    requires !(ty.Arr? && |ty.items| > 1) && !ty.Undefined? && !ty.Num?
    ensures Classify(ty, schema) == Find(ShorthandName(ty), ShorthandSchema(ty, schema))
  {
  }

  /** The schema value and the schema map that `Classify` starts from. */
  lemma Unwrapped(typ: Js)
    requires !typ.Null?
    ensures IsCanonical(typ) ==> Normalize(typ) == Classify(Get(typ, "type"), typ.props)
    ensures IsCanonical(typ) ==> Size(Get(typ, "type")) < Size(typ)
    ensures !IsCanonical(typ) ==> Normalize(typ) == Classify(typ, [])
  {
    if IsCanonical(typ) {
      GetSize(typ, "type");
    }
  }

  /** What `type` reads in the resolved schema map. */
  lemma ShorthandType(ty: Js, base: seq<Prop>)
    ensures ty.Arr? && |ty.items| == 1 ==> Get(Obj(ShorthandSchema(ty, base)), "type") == ty.items[0]
    ensures ty.Arr? && |ty.items| == 0 ==> Get(Obj(ShorthandSchema(ty, base)), "type") == Str("mixed")
    ensures ty.Regex? || ty.Obj? || ty.Null? ==> Get(Obj(ShorthandSchema(ty, base)), "type") == ty
    ensures !(ty.Arr? || ty.Regex? || ty.Obj? || ty.Null?) ==> ShorthandSchema(ty, base) == base
  {
    if ty.Arr? {
      SetPropLookup(base, "type", if |ty.items| == 1 then ty.items[0] else Str("mixed"), "type");
    } else if ty.Regex? || ty.Obj? || ty.Null? {
      SetPropLookup(base, "type", ty, "type");
    }
  }

  /** The schema that `ArrayTester.type` recurses into is smaller than the
      schema being resolved. */
  lemma ElementSchemaSmaller(typ: Js, norm: Norm)
    requires Normalize(typ) == Resolved(norm) && norm.tester == Some(Array)
    requires "type" in Keys(norm.schema)
    ensures Size(Get(Obj(norm.schema), "type")) < Size(typ)
  {
    var canonical := IsCanonical(typ);
    var ty := if canonical then Get(typ, "type") else typ;
    var base := if canonical then typ.props else [];
    Unwrapped(typ);
    assert Classify(ty, base) == Resolved(norm);
    assert norm.schema == ShorthandSchema(ty, base);
    ShorthandType(ty, base);
    if ty.Arr? {
      if |ty.items| == 1 {
        ItemSmaller(ty.items, 0);
      }
    } else if ty.Regex? || ty.Obj? || ty.Null? {
      RegistryRoundTrip(RegExp, ShorthandName(ty));
      RegistryRoundTrip(Object, ShorthandName(ty));
      assert canonical;
    } else {
      assert canonical;
    }
  }

  /** Every field schema that ObjectTester recurses into is smaller than
      the schema being resolved. */
  lemma FieldSchemaSmaller(typ: Js, norm: Norm, k: string)
    requires Normalize(typ) == Resolved(norm)
    requires k in ForInKeys(ObjectArg(norm.schema))
    ensures Size(Get(ObjectArg(norm.schema), k)) < Size(typ)
  {
    var canonical := IsCanonical(typ);
    var ty := if canonical then Get(typ, "type") else typ;
    var base := if canonical then typ.props else [];
    Unwrapped(typ);
    assert Classify(ty, base) == Resolved(norm);
    assert norm.schema == ShorthandSchema(ty, base);
    ShorthandType(ty, base);
    var a := Get(Obj(norm.schema), "type");
    assert Truthy(a) by {
      assert ForInKeys(Obj([])) == [];
    }
    assert ObjectArg(norm.schema) == a;
    if ty.Arr? {
      if |ty.items| == 1 {
        ItemSmaller(ty.items, 0);
      }
      assert Size(a) < Size(ty);
    } else if !canonical {
      assert a == ty || a.Undefined?;
    }
    GetSize(a, k);
  }

  /** The absence policy in order of precedence: a `default` key wins and
      is returned without validation (called first when it is a function),
      then `required: false` returns the value as it is, then an array
      schema goes on with `[]`; otherwise the value is reported missing
      under the label, with the `undefined` type. A present value always
      goes on unchanged. */
  lemma AbsencePrecedence(v: Js, norm: Norm, name: string)
    ensures !IsAbsent(v) ==> Absent(v, norm, name) == Proceed(v)
    ensures IsAbsent(v) && "default" in Keys(norm.schema) ==>
      Absent(v, norm, name) == Return(
        var d := Lookup(norm.schema, "default").value;
        if d.Func? then d.result else d)
    ensures IsAbsent(v) && "default" !in Keys(norm.schema) && Lookup(norm.schema, "required") == Some(Bool(false)) ==>
      Absent(v, norm, name) == Return(v)
    ensures IsAbsent(v) && "default" !in Keys(norm.schema) && Lookup(norm.schema, "required") != Some(Bool(false)) ==>
      Absent(v, norm, name) ==
        if norm.name == "array" then Proceed(Arr([]))
        else Missing(SaneError(Some("undefined"), Quote(name) + " is missing", []))
  {
    if IsAbsent(v) {
      DefaultNotInherited();
      if "default" in Keys(norm.schema) {
        AbsentDefault(v, norm, name);
      } else {
        AbsentNoDefault(v, norm, name);
      }
    }
  }

  /** The only error the absence policy throws is the missing-value
      error. */
  lemma AbsentMissing(v: Js, norm: Norm, name: string)
    ensures Absent(v, norm, name).Missing? ==>
      Absent(v, norm, name).err == SaneError(Some("undefined"), Quote(name) + " is missing", [])
  {
  }

  lemma AbsentDefault(v: Js, norm: Norm, name: string)
    requires IsAbsent(v) && "default" in Keys(norm.schema)
    ensures Absent(v, norm, name) == Return(
      var d := Lookup(norm.schema, "default").value;
      if d.Func? then d.result else d)
  {
    GetOwn(norm.schema, "default");
  }

  lemma AbsentNoDefault(v: Js, norm: Norm, name: string)
    requires IsAbsent(v) && "default" !in Keys(norm.schema) && !IsPrototypeName("default")
    ensures Absent(v, norm, name) ==
      if Lookup(norm.schema, "required") == Some(Bool(false)) then Return(v)
      else if norm.name == "array" then Proceed(Arr([]))
      else Missing(SaneError(Some("undefined"), Quote(name) + " is missing", []))
  {
    OptionalMarker(norm.schema);
  }

  /** `schema.required === false` holds exactly when the schema's own
      `required` is `false`. */
  lemma OptionalMarker(schema: seq<Prop>)
    ensures StrictEquals(Get(Obj(schema), "required"), Bool(false)) <==> Lookup(schema, "required") == Some(Bool(false))
  {
    var r := Get(Obj(schema), "required");
    assert StrictEquals(r, Bool(false)) <==> r == Bool(false);
  }

  /** A truthy label is used as given; a falsy one, such as the array
      index 0, falls back to the schema's `label` and then to `value`. */
  lemma LabelFallback(given: Js, schema: seq<Prop>, i: int)
    ensures Truthy(given) ==> LabelOf(given, schema) == ToStr(given)
    ensures "label" !in Keys(schema) ==> LabelOf(Num(0), schema) == "value"
    ensures i != 0 ==> LabelOf(Num(i), schema) == IntToStr(i)
    ensures LabelOf(Undefined, [Prop("label", Str("id"))]) == "id"
  {
  }
}

=== FILE: Semantics.dfy ===
/**
 * What `sane` and `validate` compute (index.js:236-320, 390-515), as
 * functions: the absence policy, the tester's constructor, one member call
 * per schema key in key order, and the label that each frame adds to an
 * error on its way out. ObjectTester and `ArrayTester.type` call `sane`
 * again on every field and element, so the functions below recurse
 * through each other on ever smaller schemas.
 */
module Semantics {
  import opened Optional
  import opened JsText
  import opened JsValue
  import opened JsConvert
  import opened Errors
  import opened Types
  import opened Host
  import opened Checks
  import opened Schema

  /** How a call of `sane` ends: it returns a value, throws a SaneError, or
      throws anything else. */
  datatype Outcome = Ok(value: Js) | Raised(err: SaneError) | Crashed(fault: Fault)

  /** A loop that runs to its end with a result or is cut short by what a
      step throws. */
  datatype Partial<T> = Done(result: T) | Broke(abort: Abort)

  /** The table `types` of tester classes: what `new con(value, schema)`
      does for each class, which member `attrib in tester` finds, and what
      calling that member does. The ObjectTester constructor and
      `ArrayTester.type` are not in it: they call `sane` back, so they are
      part of the functions below.

      The table is closed: `Library` below is the only one the library
      has. The functions of the sanitiser take it as a parameter all the
      same, so that their proofs treat a member call as one opaque step
      instead of unfolding every tester at every key; the lemmas in
      `Scenarios` apply them to `Library`. */
  datatype Registry = Registry(
    construct: (TypeName, Js, Env) -> Step,
    member: (TypeName, string) -> Option<Op>,
    call: (Op, TState, Js, Env) -> Step)

  /** The tester classes of the library. ObjectTester never reaches
      `construct`, nor `ArrayTester.type` `call`; those cases give what the
      functions below give for them before any member runs. */
  const Library: Registry := Registry(
    (t, v, env) => if t == Object then Next(TState(v, Some("object"))) else Start(t, v, env),
    (t, k) => Resolve(t, k),
    (op, st, arg, env) => if op == ElementType then Next(st) else ApplyOp(op, st, arg, env))

  function Lift(a: Abort): Outcome {
    match a
    case Throw(e) => Raised(e)
    case Crash(f) => Crashed(f)
  }

  /** What a failed call of `sane` throws. */
  function AbortOf(o: Outcome): Abort
    requires !o.Ok?
  {
    if o.Raised? then Throw(o.err) else Crash(o.fault)
  }

  /** The catch block (lines 488-496): a SaneError gets this frame's label,
      anything else passes through untouched. */
  function Annotate(o: Outcome, name: string): (r: Outcome)
    ensures o.Raised? ==> r == Raised(Push(o.err, name))
    ensures !o.Raised? ==> r == o
  {
    if o.Raised? then Raised(Push(o.err, name)) else o
  }

  /** `sane(value, type, label)`. */
  function Sane(v: Js, typ: Js, given: Js, env: Env, reg: Registry): Outcome
    decreases Size(typ), 4, 0
  {
    match Normalize(typ)
    case Rejected(f) => Crashed(f)
    case Resolved(norm) =>
      var name := LabelOf(given, norm.schema);
      match Absent(v, norm, name)
      case Return(x) => Ok(x)
      case Missing(e) => Raised(e)
      case Proceed(x) => Annotate(Frame(x, typ, norm, env, reg), name)
  }

  /** `sane` on a schema that resolves: the absence policy, then the frame
      with this call's label. */
  lemma SaneUnfolds(v: Js, typ: Js, given: Js, env: Env, reg: Registry)
    requires Normalize(typ).Resolved?
    ensures var norm := Normalize(typ).norm;
      var name := LabelOf(given, norm.schema);
      var a := Absent(v, norm, name);
      Sane(v, typ, given, env, reg) ==
        if a.Return? then Ok(a.value)
        else if a.Missing? then Raised(a.err)
        else Annotate(Frame(a.value, typ, norm, env, reg), name)
  {
  }

  /** The body of the `try` (lines 472-486): construct the tester, then
      run the schema's keys. */
  function Frame(v: Js, typ: Js, norm: Norm, env: Env, reg: Registry): Outcome
    requires Normalize(typ) == Resolved(norm)
    decreases Size(typ), 3, 0
  {
    match norm.tester
    case None => Crashed(TypeError)
    case Some(t) =>
      var s := if t == Object then ObjectStart(v, typ, norm, env, reg) else reg.construct(t, v, env);
      match s
      case Stop(a) => Lift(a)
      case Next(st) => RunKeys(st, t, typ, norm, 0, env, reg)
  }

  /** The frame of a schema whose name is a tester: the constructor's
      step, then the keys. */
  lemma FrameUnfolds(v: Js, typ: Js, norm: Norm, env: Env, reg: Registry)
    requires Normalize(typ) == Resolved(norm) && norm.tester.Some?
    ensures var t := norm.tester.value;
      var s := if t == Object then ObjectStart(v, typ, norm, env, reg) else reg.construct(t, v, env);
      Frame(v, typ, norm, env, reg) ==
        if s.Stop? then Lift(s.abort) else RunKeys(s.state, t, typ, norm, 0, env, reg)
  {
  }

  /** `for (let attrib in schema)` from the `i`-th key on (lines 478-486):
      a key the tester has no member for ends the run with a thrown string,
      every other key calls its member on the tester the previous key left,
      and the tester's value is the result. */
  function RunKeys(st: TState, t: TypeName, typ: Js, norm: Norm, i: nat, env: Env, reg: Registry): Outcome
    requires Normalize(typ) == Resolved(norm) && norm.tester == Some(t)
    requires i <= |Keys(norm.schema)|
    decreases Size(typ), 2, |Keys(norm.schema)| - i
  {
    var keys := Keys(norm.schema);
    if i == |keys| then Ok(st.value)
    else
      var k := keys[i];
      if t == Array && k == "type" then
        // ArrayTester.type
        match ElementTypeStep(st, typ, norm, env, reg)
        case Stop(a) => Lift(a)
        case Next(next) => RunKeys(next, t, typ, norm, i + 1, env, reg)
      else
        match reg.member(t, k)
        case None => Crashed(Thrown(Quote(k) + " is not a valid function for type " + Quote(norm.name)))
        case Some(op) =>
          match reg.call(op, st, Get(Obj(norm.schema), k), env)
          case Stop(a) => Lift(a)
          case Next(next) => RunKeys(next, t, typ, norm, i + 1, env, reg)
  }

  /** A key the tester has no member for ends the run with a thrown string. */
  lemma RunKeysUnknown(st: TState, t: TypeName, typ: Js, norm: Norm, i: nat, env: Env, reg: Registry)
    requires Normalize(typ) == Resolved(norm) && norm.tester == Some(t)
    requires i < |Keys(norm.schema)| && !(t == Array && Keys(norm.schema)[i] == "type")
    requires reg.member(t, Keys(norm.schema)[i]).None?
    ensures var k := Keys(norm.schema)[i];
      RunKeys(st, t, typ, norm, i, env, reg) == Crashed(Thrown(Quote(k) + " is not a valid function for type " + Quote(norm.name)))
  {
  }

  /** Keys run one after another: a member that passes hands the tester it
      leaves to the next key, and a member that throws ends the run with
      what it throws. */
  lemma RunKeysStep(st: TState, t: TypeName, typ: Js, norm: Norm, i: nat, env: Env, reg: Registry)
    requires Normalize(typ) == Resolved(norm) && norm.tester == Some(t)
    requires i < |Keys(norm.schema)| && !(t == Array && Keys(norm.schema)[i] == "type")
    requires reg.member(t, Keys(norm.schema)[i]).Some?
    ensures var k := Keys(norm.schema)[i];
      var s := reg.call(reg.member(t, k).value, st, Get(Obj(norm.schema), k), env);
      RunKeys(st, t, typ, norm, i, env, reg) ==
        if s.Stop? then Lift(s.abort) else RunKeys(s.state, t, typ, norm, i + 1, env, reg)
  {
  }

  /** The `type` key of an array schema runs `ArrayTester.type`. */
  lemma RunKeysElementType(st: TState, typ: Js, norm: Norm, i: nat, env: Env, reg: Registry)
    requires Normalize(typ) == Resolved(norm) && norm.tester == Some(Array)
    requires i < |Keys(norm.schema)| && Keys(norm.schema)[i] == "type"
    ensures var s := ElementTypeStep(st, typ, norm, env, reg);
      (s.Next? ==> RunKeys(st, Array, typ, norm, i, env, reg) == RunKeys(s.state, Array, typ, norm, i + 1, env, reg))
      && (s.Stop? ==> RunKeys(st, Array, typ, norm, i, env, reg) == Lift(s.abort))
  {
  }

  // ---------------------------------------------------------------------
  // ArrayTester.type
  // ---------------------------------------------------------------------

  /** `this.value.length` as the loop of lines 309-314 bounds it: a
      positive number, or no turn at all when the length is missing, not a
      number or not positive. */
  function LengthOf(v: Js): nat {
    var len := Get(v, "length");
    if len.Num? && len.n > 0 then len.n else 0
  }

  /** What `this.value[i]` reads for `i < this.value.length`: the items of
      an array, the characters of a string, the indexed properties of an
      object with a numeric `length`, and nothing for other values. */
  function ElementsOf(v: Js): (r: seq<Js>)
    ensures |r| == LengthOf(v) && forall i :: 0 <= i < |r| ==> r[i] == Get(v, NatToStr(i))
    ensures v.Arr? ==> r == v.items
    ensures v.Str? ==> |r| == |v.s| && forall i :: 0 <= i < |r| ==> r[i] == Str([v.s[i]])
  {
    var n := LengthOf(v);
    IndexedReads(v, n);
    seq(n, i requires 0 <= i < n => Get(v, NatToStr(i)))
  }

  /** Reading an index of an array or a string below its length gives the
      item or the character there. */
  lemma IndexedReads(v: Js, n: nat)
    requires n == LengthOf(v)
    ensures v.Arr? ==> n == |v.items| && forall i :: 0 <= i < n ==> Get(v, NatToStr(i)) == v.items[i]
    ensures v.Str? ==> n == |v.s| && forall i :: 0 <= i < n ==> Get(v, NatToStr(i)) == Str([v.s[i]])
  {
    forall i | 0 <= i < n
      ensures NatToStr(i) != "length" && ArrayIndex(NatToStr(i)) == Some(i)
    {
      NatToStrIndex(i);
      assert IsDigit(NatToStr(i)[0]);
    }
  }

  /** `type(arg)` of ArrayTester (lines 307-316): the element schema is
      the schema's own `type`; reading the length of null or undefined is a
      TypeError. */
  function ElementTypeStep(st: TState, typ: Js, norm: Norm, env: Env, reg: Registry): Step
    requires Normalize(typ) == Resolved(norm) && norm.tester == Some(Array)
    requires "type" in Keys(norm.schema)
    decreases Size(typ), 1, 0
  {
    var arg := Get(Obj(norm.schema), "type");
    if IsNullish(st.value) then Stop(Crash(TypeError))
    else
      ElementSchemaSmaller(typ, norm);
      match MapElements(ElementsOf(st.value), arg, 0, [], typ, env, reg)
      case Broke(a) => Stop(a)
      case Done(out) => Next(st.(value := Arr(out)))
  }

  /** `type(arg)` on a value that is not null or undefined: the element
      loop over the schema's own `type`. */
  lemma ElementTypeUnfolds(st: TState, typ: Js, norm: Norm, env: Env, reg: Registry)
    requires Normalize(typ) == Resolved(norm) && norm.tester == Some(Array)
    requires "type" in Keys(norm.schema) && !IsNullish(st.value)
    requires Size(Get(Obj(norm.schema), "type")) < Size(typ)
    ensures var m := MapElements(ElementsOf(st.value), Get(Obj(norm.schema), "type"), 0, [], typ, env, reg);
      ElementTypeStep(st, typ, norm, env, reg) ==
        if m.Broke? then Stop(m.abort) else Next(st.(value := Arr(m.result)))
  {
  }

  /** `type(arg)` on null or undefined is a TypeError. */
  lemma ElementTypeNullish(st: TState, typ: Js, norm: Norm, env: Env, reg: Registry)
    requires Normalize(typ) == Resolved(norm) && norm.tester == Some(Array)
    requires "type" in Keys(norm.schema) && IsNullish(st.value)
    ensures ElementTypeStep(st, typ, norm, env, reg) == Stop(Crash(TypeError))
  {
  }

  /** The element loop ends with what it collected. */
  lemma MapElementsEnd(items: seq<Js>, arg: Js, out: seq<Js>, typ: Js, env: Env, reg: Registry)
    requires Size(arg) < Size(typ)
    ensures MapElements(items, arg, |items|, out, typ, env, reg) == Done(out)
  {
  }

  /** One turn of the element loop. */
  lemma MapElementsStep(items: seq<Js>, arg: Js, i: nat, out: seq<Js>, typ: Js, env: Env, reg: Registry)
    requires i < |items| && Size(arg) < Size(typ)
    ensures var r := Sane(items[i], arg, Num(i), env, reg);
      MapElements(items, arg, i, out, typ, env, reg) ==
        if !r.Ok? then Broke(AbortOf(r))
        else MapElements(items, arg, i + 1, if r.value.Undefined? then out else out + [r.value], typ, env, reg)
  {
  }

  /** The loop of lines 309-314 from element `i` on: each element goes
      through `sane` with its index as label, and results that are
      `undefined` are left out. */
  function MapElements(items: seq<Js>, arg: Js, i: nat, out: seq<Js>, typ: Js, env: Env, reg: Registry): Partial<seq<Js>>
    requires i <= |items| && Size(arg) < Size(typ)
    decreases Size(typ), 0, |items| - i
  {
    if i == |items| then Done(out)
    else
      var r := Sane(items[i], arg, Num(i), env, reg);
      if !r.Ok? then Broke(AbortOf(r))
      else MapElements(items, arg, i + 1, if r.value.Undefined? then out else out + [r.value], typ, env, reg)
  }

  // ---------------------------------------------------------------------
  // ObjectTester
  // ---------------------------------------------------------------------

  /** The constructor of ObjectTester (lines 238-291). */
  function ObjectStart(v: Js, typ: Js, norm: Norm, env: Env, reg: Registry): Step
    requires Normalize(typ) == Resolved(norm)
    decreases Size(typ), 2, 0
  {
    var st := TState(v, Some("object"));
    if !IsObjectType(v) then Fail(st, ":label is not an object")
    else
      var arg := ObjectArg(norm.schema);
      match Fields(v, Get(v, "get").Func?, arg, 0, [], typ, norm, env, reg)
      case Broke(a) => Stop(a)
      case Done(out) =>
        if ForInKeys(arg) == [] then Next(st)
        else Strictness(st, out, Get(Obj(norm.schema), "strict"))
  }

  /** The constructor of ObjectTester on an object: the field loop, then
      the `strict` handling unless no field is declared. */
  lemma ObjectStartUnfolds(v: Js, typ: Js, norm: Norm, env: Env, reg: Registry)
    requires Normalize(typ) == Resolved(norm) && IsObjectType(v)
    ensures var arg := ObjectArg(norm.schema);
      var f := Fields(v, Get(v, "get").Func?, arg, 0, [], typ, norm, env, reg);
      ObjectStart(v, typ, norm, env, reg) ==
        if f.Broke? then Stop(f.abort)
        else if ForInKeys(arg) == [] then Next(TState(v, Some("object")))
        else Strictness(TState(v, Some("object")), f.result, Get(Obj(norm.schema), "strict"))
  {
  }

  /** The value of field `k`: read through the value's `get` method when
      it has one, directly otherwise (line 260). */
  function FieldValue(v: Js, getter: bool, k: string, env: Env): Js {
    if getter then env.getter(v, k) else Get(v, k)
  }

  /** `sane(v, arg[attrib], attrib)` for one declared field (line 263). */
  function FieldOutcome(v: Js, getter: bool, arg: Js, k: string, env: Env, reg: Registry): Outcome
    decreases Size(Get(arg, k)), 5, 0
  {
    Sane(FieldValue(v, getter, k, env), Get(arg, k), Str(k), env, reg)
  }

  /** The loop of lines 256-267 from the `i`-th declared field on: a field
      whose result is `undefined` is left out of the output. */
  function Fields(v: Js, getter: bool, arg: Js, i: nat, out: seq<Prop>, typ: Js, norm: Norm, env: Env, reg: Registry): Partial<seq<Prop>>
    requires Normalize(typ) == Resolved(norm) && arg == ObjectArg(norm.schema)
    requires i <= |ForInKeys(arg)|
    decreases Size(typ), 1, |ForInKeys(arg)| - i
  {
    var keys := ForInKeys(arg);
    if i == |keys| then Done(out)
    else
      var k := keys[i];
      FieldSchemaSmaller(typ, norm, k);
      var r := FieldOutcome(v, getter, arg, k, env, reg);
      if !r.Ok? then Broke(AbortOf(r))
      else Fields(v, getter, arg, i + 1, if r.value.Undefined? then out else SetProp(out, k, r.value), typ, norm, env, reg)
  }

  /** One turn of the field loop. */
  lemma FieldsStep(v: Js, getter: bool, arg: Js, i: nat, out: seq<Prop>, typ: Js, norm: Norm, env: Env, reg: Registry)
    requires Normalize(typ) == Resolved(norm) && arg == ObjectArg(norm.schema)
    requires i < |ForInKeys(arg)|
    ensures var k := ForInKeys(arg)[i];
      var r := Sane(FieldValue(v, getter, k, env), Get(arg, k), Str(k), env, reg);
      Fields(v, getter, arg, i, out, typ, norm, env, reg) ==
        if !r.Ok? then Broke(AbortOf(r))
        else Fields(v, getter, arg, i + 1, if r.value.Undefined? then out else SetProp(out, k, r.value), typ, norm, env, reg)
  {
  }

  /** Lines 274-290: `strict: false` keeps the undeclared keys too,
      `strict: 'throw'` refuses them, anything else drops them. */
  function Strictness(st: TState, out: seq<Prop>, strict: Js): Step {
    var keys := ForInKeys(st.value);
    if StrictEquals(strict, Bool(false)) then Next(st.(value := Obj(CopyExtras(st.value, keys, 0, out))))
    else if StrictEquals(strict, Str("throw")) then
      match FirstUnexpected(keys, out)
      case Some(k) => Fail(st, ":label contains unexpected \"" + k + "\"")
      case None => Next(st.(value := Obj(out)))
    else Next(st.(value := Obj(out)))
  }

  /** The loop of lines 276-279 from the `i`-th key of the value on: a key
      that `in` does not find in the output is copied into it. */
  function CopyExtras(v: Js, keys: seq<string>, i: nat, out: seq<Prop>): seq<Prop>
    requires i <= |keys|
    decreases |keys| - i
  {
    if i == |keys| then out
    else CopyExtras(v, keys, i + 1, if InObject(out, keys[i]) then out else SetProp(out, keys[i], Get(v, keys[i])))
  }

  /** The loop of lines 283-286: the first key of the value that `in` does
      not find in the output. */
  function FirstUnexpected(keys: seq<string>, out: seq<Prop>): (r: Option<string>)
    ensures r.None? ==> forall j :: 0 <= j < |keys| ==> InObject(out, keys[j])
    ensures r.Some? ==> exists j :: 0 <= j < |keys| && keys[j] == r.value && !InObject(out, keys[j])
                                    && forall l :: 0 <= l < j ==> InObject(out, keys[l])
  {
    if keys == [] then None
    else if !InObject(out, keys[0]) then Some(keys[0])
    else FirstUnexpected(keys[1..], out)
  }

  // ---------------------------------------------------------------------
  // validate
  // ---------------------------------------------------------------------

  /** What `validate` gives back: `true`, the SaneError, or it throws. */
  datatype Verdict = Valid | Invalid(err: SaneError) | Throws(fault: Fault)

  /** `validate(obj, schema, name)` (lines 500-515). */
  function Validate(v: Js, typ: Js, given: Js, env: Env, reg: Registry): Verdict {
    match Sane(v, typ, given, env, reg)
    case Ok(_) => Valid
    case Raised(e) => Invalid(e)
    case Crashed(f) => Throws(f)
  }
}

=== FILE: Types.dfy ===
/**
 * The registry of tester classes (index.js:98-383) and the members each
 * class answers to. The sanitiser runs `attrib in tester` and then calls
 * `tester[attrib](arg)` for every schema key (index.js:478-483); `Resolve`
 * is that lookup through the prototype chain: the class's own methods, the
 * classes it extends, the instance fields `value` and `_type`, and what
 * every object inherits from `Object.prototype`.
 */
module Types {
  import opened Optional

  datatype TypeName =
    | Mixed | Forbidden
    | String | RegExp | Ip | Alphanumeric | Email | Hex | Token | Url
    | Date | Object | Array | Number | Integer | Boolean

  /** The registry key, which is also the tester's `_type`. */
  function Name(t: TypeName): string {
    match t
    case Mixed => "mixed"
    case Forbidden => "forbidden"
    case String => "string"
    case RegExp => "regexp"
    case Ip => "ip"
    case Alphanumeric => "alphanumeric"
    case Email => "email"
    case Hex => "hex"
    case Token => "token"
    case Url => "url"
    case Date => "date"
    case Object => "object"
    case Array => "array"
    case Number => "number"
    case Integer => "integer"
    case Boolean => "boolean"
  }

  /** `types[name]` (index.js:438). */
  function Registered(name: string): Option<TypeName> {
    if name == "mixed" then Some(Mixed)
    else if name == "forbidden" then Some(Forbidden)
    else if name == "string" then Some(String)
    else if name == "regexp" then Some(RegExp)
    else if name == "ip" then Some(Ip)
    else if name == "alphanumeric" then Some(Alphanumeric)
    else if name == "email" then Some(Email)
    else if name == "hex" then Some(Hex)
    else if name == "token" then Some(Token)
    else if name == "url" then Some(Url)
    else if name == "date" then Some(Date)
    else if name == "object" then Some(Object)
    else if name == "array" then Some(Array)
    else if name == "number" then Some(Number)
    else if name == "integer" then Some(Integer)
    else if name == "boolean" then Some(Boolean)
    else None
  }

  /** Every tester is registered under its own name, and only under it. */
  lemma RegistryRoundTrip(t: TypeName, name: string)
    ensures Registered(Name(t)) == Some(t)
    ensures Registered(name).Some? ==> Name(Registered(name).value) == name
  {
    RegisteredByName(t);
    NameOfRegistered(name);
  }

  lemma RegisteredByName(t: TypeName)
    ensures Registered(Name(t)) == Some(t)
  {
  }

  lemma NameOfRegistered(name: string)
    ensures Registered(name).Some? ==> Name(Registered(name).value) == name
  {
  }

  /** StringTester and the classes that extend it. */
  predicate IsStringFamily(t: TypeName) {
    t.String? || t.RegExp? || t.Ip? || t.Alphanumeric? || t.Email? || t.Hex? || t.Token? || t.Url?
  }

  /** NumberTester and IntegerTester. */
  predicate IsNumberFamily(t: TypeName) {
    t == Number || t == Integer
  }

  /** The members a schema key can name. */
  datatype Op =
    | Ignore                 // type/default/required, ObjectTester.strict, inert Object.prototype methods
    | NotCallable            // a member that is not a callable method: calling it throws a TypeError
    | CallValue              // the `value` field, called as a method
    | Allow | Disallow | Custom | RaiseError
    | Lowercase | Uppercase | TrimWhitespace | Replace | Truncate
    | MaxLength | MinLength | ExactLength | Match
    | PatternType            // RegExpTester.type
    | After | Before
    | ElementType | MinItems | MaxItems
    | Precision | Unsafe | Greater | Less | AtMost | AtLeast | Multiple
    | Positive | Negative | Port

  /** `attrib in tester`, and which member `tester[attrib]` then is. */
  function Resolve(t: TypeName, key: string): (r: Option<Op>)
    ensures r == Some(ElementType) <==> t == Array && key == "type"
  {
    if t == RegExp && key == "type" then Some(PatternType)
    else if t == Array && key == "type" then Some(ElementType)
    else if key in {"type", "default", "required"} then Some(Ignore)
    else if key == "allow" then Some(Allow)
    else if key == "disallow" then Some(Disallow)
    else if key == "custom" then Some(Custom)
    else if key == "error" then Some(RaiseError)
    else if IsStringFamily(t) && key == "lowercase" then Some(Lowercase)
    else if IsStringFamily(t) && key == "uppercase" then Some(Uppercase)
    else if IsStringFamily(t) && key == "trim" then Some(TrimWhitespace)
    else if IsStringFamily(t) && key == "replace" then Some(Replace)
    else if IsStringFamily(t) && key == "truncate" then Some(Truncate)
    else if IsStringFamily(t) && key == "max" then Some(MaxLength)
    else if IsStringFamily(t) && key == "min" then Some(MinLength)
    else if IsStringFamily(t) && key == "length" then Some(ExactLength)
    else if IsStringFamily(t) && key == "match" then Some(Match)
    else if t == Date && key == "after" then Some(After)
    else if t == Date && key == "before" then Some(Before)
    else if t == Object && key == "strict" then Some(Ignore)
    else if t == Array && key == "min" then Some(MinItems)
    else if t == Array && key == "max" then Some(MaxItems)
    else if IsNumberFamily(t) && key == "precision" then Some(Precision)
    else if IsNumberFamily(t) && key == "unsafe" then Some(Unsafe)
    else if IsNumberFamily(t) && key == "greater" then Some(Greater)
    else if IsNumberFamily(t) && key == "less" then Some(Less)
    else if IsNumberFamily(t) && key == "max" then Some(AtMost)
    else if IsNumberFamily(t) && key == "min" then Some(AtLeast)
    else if IsNumberFamily(t) && key == "multiple" then Some(Multiple)
    else if IsNumberFamily(t) && key == "positive" then Some(Positive)
    else if IsNumberFamily(t) && key == "negative" then Some(Negative)
    else if IsNumberFamily(t) && key == "port" then Some(Port)
    else if key == "value" then Some(CallValue)
    else if key == "_type" && t != Mixed then Some(NotCallable)
    else if key in {"constructor", "__proto__", "__defineGetter__", "__defineSetter__"} then Some(NotCallable)
    else if key in {"hasOwnProperty", "isPrototypeOf", "propertyIsEnumerable", "toLocaleString",
                    "toString", "valueOf", "__lookupGetter__", "__lookupSetter__"} then Some(Ignore)
    else None
  }

  /** No tester has a `label` member, so a schema that names its label
      always reaches the unknown-member error (index.js:479-480); `strict`
      is a member of ObjectTester only (index.js:293). */
  lemma LabelAndStrictMembers(t: TypeName)
    ensures Resolve(t, "label").None?
    ensures Resolve(t, "strict").Some? <==> t == Object
  {
    NoLabelMember(t);
    StrictMember(t);
  }

  lemma NoLabelMember(t: TypeName)
    ensures Resolve(t, "label").None?
  {
  }

  lemma StrictMember(t: TypeName)
    ensures Resolve(t, "strict").Some? <==> t == Object
  {
  }
}
